=== FILE: README.md ===
# Electrominds search and crawl core, in Dafny

This project models the pure logic inside the two HTTP handlers of the
Electrominds product-search service:

- **The query engine of `api/ask.js`.** It clamps the `page` and `limit` parameters and normalises text (ASCII lower-casing, then stripping the combining marks U+0300–U+036F). It scores each indexed document by substring hits: +3 for the title, +1 for the text. It drops the documents that score zero, keeps the first hit for every URL, and sorts stably by score, highest first. Finally it paginates and projects each result through `small`. It also has two fixed answers: one for an empty index and one for a blank query, which returns the first documents as "popular".
- **The crawler of `api/reindex.js`.** This covers:
  - the `<loc>` scanner `extractLocs`;
  - the sitemap and product URL filters;
  - the clamp of the `max` parameter and the cap of the URL list;
  - `pickTitle`, which reads an `og:title` meta tag, then falls back to `<title>`, then to nothing;
  - the chained entity replacements of `decodeHTMLEntities`;
  - the keyword rules of `classifyGroup`;
  - the per-URL document built by the worker;
  - `buildIndex` and the handler around it.

Everything is a pure function over immutable datatypes. The web is a parameter: `fetch: string -> Result<string>` maps a URL to the body it serves, or to the message of the error that fetching it throws. The clock is another parameter, `now`. The search handler takes the index as an explicit `seq<Doc>`.

Modules, in dependency order:

| module | file | models |
|---|---|---|
| Wrappers | Wrappers.dfy | `Option` and `Result` |
| Text | Text.dfy | the string built-ins used: `trim`, `includes`, `startsWith`, ASCII `toLowerCase`, and global literal `replace` |
| Normalization | Normalize.dfy | `normalize` of api/ask.js |
| Paging | Paging.dfy | `Math.ceil(total / limit)`, `slice` and page arithmetic |
| Ranking | Ranking.dfy | score, filter, de-duplication by URL, and stable sort |
| Ask | Ask.dfy | the parameter clamps, `small`, and the three response envelopes |
| Sitemap | Sitemap.dfy | `extractLocs` and the URL filters |
| Entities | Entities.dfy | `decodeHTMLEntities` |
| Titles | Titles.dfy | the two regular expressions of `pickTitle`, and `pickTitle` itself |
| Classify | Classify.dfy | `classifyGroup` |
| Reindex | Reindex.dfy | the `max` clamp, the URL pipeline, the worker, `buildIndex` and the crawl handler |

The regular expressions are modelled exactly rather than approximated:

- **`pickTitle` patterns.** They are sequences of tokens: a literal, `\s+`, a quote class, or a negated character class. Matching is leftmost. Each repetition is followed by a token that cannot start with a character it repeats, so the greedy run is the only way to match. The `i` flag compares ASCII letters case-insensitively.
- **`<loc>(.*?)<\/loc>`.** It matches the nearest `</loc>`. The `.` does not cross the line terminators `\n`, `\r`, U+2028 and U+2029. After a failed attempt, scanning resumes one character later.
- **The URL filters.** They are case-insensitive substring tests over the pattern's alternatives.

Two behaviours of the code are easy to miss, and the model keeps both:

- **Page number in the search branch.** The code only raises `page` to at least 1 (api/ask.js:21) and never lowers it to the page count. A page past the last one therefore answers with empty results and `found = false`.
- **Blank query.** A query of nothing but whitespace returns the first `limit` documents as "popular" ones, with `page = 1` and `pages = ceil(|idx| / limit)`.

## Model

| member | source | states |
|---|---|---|
| Ask.ClampPage | api/ask.js:21 | the page is at least 1; a missing page gives 1; a page of 1 or more is kept; a smaller one becomes 1 |
| Ask.ClampLimit | api/ask.js:22 | the limit lies in 1..50; a missing limit gives 12; a limit in range is kept; out-of-range limits become the nearer bound |
| Normalization.NormalizeChar | api/ask.js:13 | a combining mark U+0300–U+036F vanishes, and any other character becomes its ASCII lower case |
| Normalization.Normalize | api/ask.js:12-14 | the result contains no combining mark and no upper-case ASCII letter, and is never longer than the input |
| Normalization.NormalizeAppend | api/ask.js:12-14 | normalising distributes over concatenation |
| Normalization.NormalizeFixesNormalized | api/ask.js:12-14 | already-normalised text is returned unchanged |
| Normalization.NormalizeIdempotent | api/ask.js:12-14 | normalising twice is normalising once |
| Normalization.NormalizeIsLower | api/ask.js:13 | on text without combining marks, normalising is ASCII lower-casing |
| Normalization.NormalizeDropsMark | api/ask.js:13 | a combining mark anywhere in the text is removed and nothing else changes |
| Normalization.NormalizeMark | api/ask.js:13 | a lone combining mark normalises to the empty text |
| Text.Trim | api/ask.js:20 | the result has no whitespace at either end; it is a slice of the input with only whitespace cut off on each side; trimmed text is unchanged; the result is empty exactly when the input is all whitespace |
| Text.Find | api/ask.js:60 | the result is the first index where the pattern occurs, or none when it occurs nowhere |
| Text.Lower | api/reindex.js:33 | the length is kept, and every character is its ASCII lower case |
| Text.LowerAppend | api/reindex.js:33 | lower-casing distributes over concatenation |
| Text.ReplaceAll | api/reindex.js:53-57 | text without the pattern comes back unchanged; a replacement no longer than the pattern never lengthens the text; a non-empty replacement keeps non-empty text non-empty |
| Text.ReplaceAllFind | api/reindex.js:53-57 | a global replacement keeps everything before the first occurrence of the pattern, writes the replacement in its place, and goes on with the rest after it |
| Text.ReplaceAllBefore | api/reindex.js:53-57 | the characters before the first place the pattern starts are kept as they are |
| Text.ReplaceAllAt | api/reindex.js:53-57 | an occurrence at the start is replaced, and the replacement goes on after it |
| Text.ReplaceAllPlain | api/reindex.js:53-57 | text none of whose characters can start the pattern passes through unchanged, whatever follows it |
| Text.ReplaceAllSkipsWord | api/reindex.js:53-57 | a word that does not start the pattern and none of whose later characters can start it is kept whole |
| Text.ReplaceAllKeepsPrefix | api/reindex.js:53-57 | replacing does not change whether the text starts with a word that shares no first character with the pattern or the replacement |
| Ranking.Score | api/ask.js:56-62 | the score is 0, 1, 3 or 4; it reaches 3 exactly when the normalised title contains the query; it is 1 modulo 3 exactly when the normalised text contains it |
| Ranking.Positive | api/ask.js:55-64 | every hit kept has a positive score and is the hit of its own document |
| Ranking.UrlsWhereSound | api/ask.js:66-72 | every URL in the set of kept URLs comes from a document that passes the test |
| Ranking.UrlsWhereComplete | api/ask.js:66-72 | every document that passes the test has its URL in the set |
| Ranking.FoldKeepSnoc | api/ask.js:66-72 | the reducer's state after one more hit is one `Keep` step applied to the previous state |
| Ranking.FirstMatchAtLast | api/ask.js:66-72 | the last document is the first match for its URL exactly when it scores positively and no earlier positive document has its URL |
| Ranking.FoldKeepPositive | api/ask.js:66-72 | the reducer's map holds exactly the URLs of the positive documents, and its array holds the first positive hit of each URL, in index order |
| Ranking.FirstsUrls | api/ask.js:66-72 | the kept hits cover every positive URL, each one once |
| Ranking.FirstsSound | api/ask.js:66-72 | every kept hit is the hit of a document that is the first positive match of its URL |
| Ranking.FirstsComplete | api/ask.js:66-72 | every document that is the first positive match of its URL is kept |
| Ranking.FirstMatchAtPrefix | api/ask.js:66-72 | whether a document is the first match of its URL does not depend on the documents after it |
| Ranking.DistinctUrlsCons | api/ask.js:66-72 | a list headed by a hit has distinct URLs exactly when the head's URL is not in the tail and the tail has distinct URLs |
| Ranking.InsertPerm | api/ask.js:73 | inserting into a list is a permutation of putting the hit in front |
| Ranking.InsertSorted | api/ask.js:73 | inserting into a list sorted by descending score keeps it sorted |
| Ranking.InsertWithScore | api/ask.js:73 | an inserted hit goes in front of every hit of its own score, so the order among equal scores is the original one |
| Ranking.InsertDistinct | api/ask.js:73 | inserting a hit whose URL is new keeps the URLs distinct |
| Ranking.SortByScore | api/ask.js:73 | the result is sorted by descending score and is a permutation of the input; for every score, the hits with that score are in their original order (stability); distinct URLs stay distinct |
| Ranking.Rank | api/ask.js:55-74 | every ranked hit is a positive, correctly scored hit of an indexed document, with score 1, 3 or 4; URLs are distinct; scores never increase |
| Ranking.RankIsStableSortOfFirsts | api/ask.js:55-74 | the ranking is a permutation of the first positive hits per URL, covers exactly the positive URLs, and keeps index order among equal scores |
| Paging.TimesIsProduct | api/ask.js:78 | the repeated addition used for page offsets is multiplication |
| Paging.CeilDiv | api/ask.js:47 | the result is the least number of pages of the given size that hold all items |
| Paging.PageCount | api/ask.js:77 | the page count is at least 1, its pages hold all items, and one page fewer would not, when there is more than one page |
| Paging.Slice | api/ask.js:79 | `slice` clamps its end to the length, and element k of the result is element start+k of the input |
| Paging.PageOf | api/ask.js:78-79 | a page holds exactly min(limit, items left after offset (page-1)*limit) items, read in order from that offset; it is empty exactly when the page is past the last one or the list is empty |
| Paging.AllPagesPrefix | api/ask.js:76-79 | the first n pages joined together are the first n*limit items |
| Paging.PagesReproduce | api/ask.js:76-79 | joining pages 1..pages gives back the whole list |
| Ask.Small | api/ask.js:93-101 | title, URL and price pass through; a missing image becomes ""; the text is the first min(220, length) characters of the document's text, or of "" when it has none |
| Ask.SmallAll | api/ask.js:79 | every document is projected, in order |
| Ask.SmallAllAppend | api/ask.js:79 | projecting distributes over concatenation |
| Ask.DocsOf | api/ask.js:74 | the documents of the hits, in order |
| Ask.EmptyIndexEnvelope | api/ask.js:24-37 | the empty-index answer: ok, not found, total 0, one page, no results, the request's page and limit, the empty-index message and the contact link |
| Ask.PopularEnvelope | api/ask.js:39-51 | the blank-query answer: found; total is the index size; page 1 of ceil(size/limit) pages; the first min(limit, size) documents, projected; no limit field and no message |
| Ask.PagedEnvelope | api/ask.js:76-90 | the search answer: total is the ranking's length; pages are max(1, ceil(total/limit)); the results are the requested page, projected, at most `limit` of them; found exactly when there are results; no results past the last page |
| Ask.Ask | api/ask.js:16-91 | every answer is ok and carries the contact link, with at least one page, a page of at least 1, at most `limit` results and found exactly when there are results. An empty index gives the empty-index answer whatever the query; a blank query gives the popular answer; any other query gives the page of the ranking of the trimmed, normalised query |
| Ask.ResultPagesAreItemPages | api/ask.js:76-90 | the results of pages 1..n joined together are the projection of the first n pages of the ranking |
| Ask.ResultPagesReproduceRanking | api/ask.js:76-90 | requesting pages 1..pages and joining the results gives the whole ranking, projected |
| Ask.AskPagesReproduceRanking | api/ask.js:53-90 | for a real query, the first answer is page 1 of the ranking, and its `pages` count of answers together return the whole ranking |
| Ask.RankedDocsMatch | api/ask.js:55-74 | every ranked document is in the index and matches the query in its title or text, and no URL is ranked twice |
| Ask.PageDocsMatch | api/ask.js:78-79 | a page of matching documents holds only matching documents |
| Ask.PageUrlsDistinct | api/ask.js:78-79 | a page of a list with distinct URLs has distinct URLs |
| Ask.SearchResultsMatch | api/ask.js:53-90 | every search result is the projection of an indexed document that matches the query |
| Ask.SearchResultsDistinct | api/ask.js:53-90 | no two search results share a URL |
| Sitemap.Filter | api/reindex.js:63-65 | the result holds exactly the elements that pass the test, in order |
| Sitemap.FilterAppend | api/reindex.js:78-80 | filtering distributes over concatenation |
| Sitemap.FilterKeepsAll | api/reindex.js:63-65 | a list whose every element passes is kept whole |
| Sitemap.LocAt | api/reindex.js:26 | a match at the start needs `<loc>`, the nearest `</loc>` after it, and no line terminator in between; when all three hold there is a match |
| Sitemap.TrimNoLineTerminator | api/reindex.js:28 | trimming text without line terminators leaves none |
| Sitemap.ExtractLocs | api/reindex.js:23-30 | every extracted entry is trimmed and contains no line terminator |
| Sitemap.ExtractSkipsText | api/reindex.js:23-30 | text without `<` ahead of the elements adds no entry |
| Sitemap.ExtractWithoutOpenTag | api/reindex.js:23-30 | a document without `<loc>` yields no entries |
| Sitemap.ExtractElement | api/reindex.js:23-30 | a `<loc>` element around an embeddable URL yields that URL, followed by the entries of the rest |
| Sitemap.ExtractRenderRoundTrip | api/reindex.js:23-30 | writing a list of trimmed URLs, each without a line terminator or `</loc>`, as `<loc>` elements separated by any text without `<`, and extracting them, gives back the list, in order |
| Sitemap.ExtractConcatenatedLocs | api/reindex.js:23-30 | the same round trip for `<loc>` elements written one right after the other |
| Sitemap.SitemapFilterReduces | api/reindex.js:63-65 | the sitemap pattern matches exactly the URLs that contain, in any case, `sitemap.xml`, `store`, `forum` or `pages` |
| Sitemap.ProductFilterReduces | api/reindex.js:78-80 | the product pattern matches exactly the URLs that contain, in any case, `store`, `product`, `pages`, `blog`, `post`, `forum` or `electrominds` |
| Entities.NoAmpersandNoEntity | api/reindex.js:51-58 | text without `&` contains no entity |
| Entities.ReplaceFrom | api/reindex.js:52-57 | the chain of replacements never lengthens the text, keeps non-empty text non-empty, and leaves text without `&` unchanged |
| Entities.DecodeAsWritten | api/reindex.js:51-58 | the chained replacements never lengthen the text, keep non-empty text non-empty, and leave text without `&` unchanged |
| Entities.DecodeFrom | api/reindex.js:54-57 | one left-to-right pass that decodes the entities from a given index of the table on never lengthens the text |
| Entities.DecodeFromEntity | api/reindex.js:54-57 | text that opens with an entity the pass decodes reads as that entity's character followed by the decoding of the rest |
| Entities.DecodeFromSkip | api/reindex.js:54-57 | text that opens with no entity the pass decodes keeps its first character |
| Entities.DecodeFromNone | api/reindex.js:52-57 | a pass that decodes no entity returns the text unchanged |
| Entities.EntityExcludes | api/reindex.js:53-57 | text that starts with one entity does not start with another |
| Entities.ReplaceOtherEntity | api/reindex.js:54-57 | replacing one entity leaves a different entity at the start of the text in place |
| Entities.EntityAtStartAfterReplace | api/reindex.js:54-57 | replacing an entity behind a first character does not change which entity the text starts with |
| Entities.ReplaceStep | api/reindex.js:54-57 | replacing entity m everywhere, then decoding the entities after it in one pass, is one pass that decodes entity m and those after it |
| Entities.ReplaceFromDecodes | api/reindex.js:54-57 | the chain of replacements of `&lt;`, `&gt;`, `&#39;` and `&quot;` is one left-to-right pass that decodes those four entities |
| Entities.DecodeAsWrittenExact | api/reindex.js:51-58 | `decodeHTMLEntities` turns every `&amp;` into `&` and then decodes the other four entities in one pass, including those whose `&` the first step produced |
| Entities.DecodeFromOnce | api/reindex.js:51-58 | on text without `&amp;`, the pass over the other four entities decodes each entity once |
| Entities.DecodeAsWrittenWithoutAmp | api/reindex.js:51-58 | on text without `&amp;`, `decodeHTMLEntities` decodes each entity exactly once |
| Entities.DecodeAsWrittenDecodesTwice | api/reindex.js:52-54 | the escaped form of `&lt;` is `&amp;lt;`, and the chained replacements turn it into `<`, where a single pass gives back `&lt;` |
| Entities.EntityAtStart | api/reindex.js:53-57 | the entity found is the one the text starts with; none is reported only when the text starts with no entity |
| Entities.DecodeOnce | api/reindex.js:51-58 | decoding each entity once never lengthens the text, keeps non-empty text non-empty, and leaves text without `&` unchanged |
| Entities.DecodeOnceEscape | api/reindex.js:51-58 | decoding each entity once undoes escaping, for every text |
| Entities.EscapeNoQuote | api/reindex.js:44 | escaped text is never shorter than the text and holds no quote, so it fits in a quoted attribute |
| Entities.EntityPrefixUnique | api/reindex.js:53-57 | no two entities can start the same text |
| Titles.ClassRun | api/reindex.js:44 | a greedy repetition consumes characters of its class and stops at the end of the text or at a character outside the class |
| Titles.ClassRunIs | api/reindex.js:44 | a repetition consumes exactly the run of characters of its class |
| Titles.LitAtIsAtCI | api/reindex.js:44 | the case-insensitive literal comparison is equality with the lower-cased text |
| Titles.TokenAt | api/reindex.js:44 | a token that matches stays inside the text, and a group consumes at least one character |
| Titles.MatchFrom | api/reindex.js:44 | a match ends inside the text, and its capture is a non-empty span of the text |
| Titles.FirstMatch | api/reindex.js:44 | the match reported is the leftmost: it matches, and no earlier index does; none is reported only when no index matches |
| Titles.FirstMatchIs | api/reindex.js:44 | the first index that matches, with none before it, is the one reported |
| Titles.Capture | api/reindex.js:44-48 | a captured group is never empty |
| Titles.PickTitle | api/reindex.js:42-50 | a title found is never empty |
| Titles.RenderMatches | api/reindex.js:44 | a tag written from a readable pattern is matched where it stands, up to its end |
| Titles.RenderCaptures | api/reindex.js:44 | in a tag written from a readable pattern, the group captures the text it was written with |
| Titles.NoMatchWithoutLt | api/reindex.js:44 | neither pattern matches where the text does not hold `<` |
| Titles.OgTitleReadable | api/reindex.js:44 | any non-empty content without quotes, written into an `og:title` tag, reads back |
| Titles.TitleReadable | api/reindex.js:47 | any non-empty text without `<`, written into a `<title>` element, reads back |
| Titles.MatchAtTag | api/reindex.js:44 | a written tag is matched at its start, and its group is the text written |
| Titles.CaptureOfTag | api/reindex.js:44 | a written tag preceded by text without `<` is where the pattern first matches, and the capture is the text written |
| Titles.PickTitleOgFirst | api/reindex.js:43-45 | an `og:title` tag ahead of any other `<` gives the title, passed through `decodeHTMLEntities`, whatever follows, `<title>` elements included |
| Titles.TitleCaptureOfTag | api/reindex.js:47 | a `<title>` element preceded by text without `<` is what the `<title>` pattern captures |
| Titles.NoMetaNoOgTitle | api/reindex.js:44 | a page that never writes `<meta`, in any case, has no `og:title` match |
| Titles.PickTitleWithoutOgTitle | api/reindex.js:46-48 | when the `og:title` pattern captures nothing, the title is what the `<title>` pattern captures, passed through `decodeHTMLEntities` |
| Titles.PickTitleFallback | api/reindex.js:46-48 | a page without `<meta` takes its title from its first `<title>` element, passed through `decodeHTMLEntities` |
| Titles.PickTitleNoTags | api/reindex.js:49 | a page without `<` has no title |
| Titles.MetaCharsetNotOgTitle | api/reindex.js:44 | a `<meta charset="utf-8">` declaration does not start an `og:title` match, since `property=` must follow the spaces |
| Titles.NoOgTitleAfterMetaCharset | api/reindex.js:44 | a page that opens with the character-set declaration and writes no other `<meta` has no `og:title` match |
| Titles.MetaCharsetNotTitle | api/reindex.js:47 | the `<title>` pattern does not match at the character-set declaration |
| Titles.TitleAfterMetaCharset | api/reindex.js:47 | behind the character-set declaration and text without `<`, the first `<title>` element is what the `<title>` pattern captures |
| Titles.PickTitleAfterMetaCharset | api/reindex.js:42-48 | a page with a `<meta charset>` declaration, no `og:title` tag and a `<title>` element takes its title from that element, decoded |
| Titles.PickTitleIntended | api/reindex.js:42-50 | the intended reading of `pickTitle`, with each entity decoded once; a title found is never empty |
| Titles.PickTitleIntendedReadsEscaped | api/reindex.js:42-45 | a title written escaped in an `og:title` tag reads back exactly under the intended decoding |
| Titles.PickTitleDecodesTwice | api/reindex.js:44-54 | the title `&lt;`, written escaped in an `og:title` tag, comes back from `pickTitle` as `<`, and from the intended reading as `&lt;` |
| Classify.FirstRule | api/reindex.js:34-39 | the group is the fallback or the group of one of the rules |
| Classify.FirstRuleIs | api/reindex.js:34-38 | the first rule that fires decides the group |
| Classify.FirstRuleNone | api/reindex.js:39 | when no rule fires, the group is "otros" |
| Classify.RulesFire | api/reindex.js:34-38 | what each of the five tests looks for: `arduino`; `raspberry`; `sensor`; `interruptor` or `wifi`; `cable`, `vga`, `rj45` or `cat` |
| Classify.ClassifyGroup | api/reindex.js:32-40 | the group is one of the six, and it is "otros" exactly when no keyword occurs in the lower-cased title, space and URL |
| Classify.ClassifyFollowsRules | api/reindex.js:32-40 | the chain of tests is the rule list read in order: the first rule that fires decides the group |
| Reindex.ClampMax | api/reindex.js:125 | the cap lies in 20..200; a missing parameter gives 120; a number in range is kept; out-of-range numbers become the nearer bound; a non-number gives no cap |
| Reindex.Cap | api/reindex.js:83 | the capped list is a prefix of the list, of length min(length, max), and the whole list when there is no cap |
| Reindex.SitemapsOf | api/reindex.js:62-65 | the sitemaps read are exactly the extracted entries of the index that match the sitemap pattern |
| Reindex.PageUrls | api/reindex.js:69-75 | a sitemap contributes exactly its extracted entries that start with `http`, and none when it cannot be fetched |
| Reindex.GatherUrls | api/reindex.js:67-76 | every gathered URL starts with `http`; the order, sitemap by sitemap, is stated by GatherUrlsAppend and GatherUrlsOne |
| Reindex.GatherUrlsExact | api/reindex.js:67-76 | a URL is gathered exactly when some sitemap contributes it |
| Reindex.GatherUrlsAppend | api/reindex.js:67-76 | the URLs come sitemap by sitemap, in the order the index lists the sitemaps, repetitions included |
| Reindex.GatherUrlsOne | api/reindex.js:68-72 | a single sitemap contributes exactly its own `http` URLs, in its own order |
| Reindex.DocFor | api/reindex.js:93-101 | a document is made exactly when the page can be fetched and `pickTitle` finds a title; it records its own URL, the trimmed title, and the group `classifyGroup` gives the untrimmed title and the URL |
| Reindex.BuildDocs | api/reindex.js:86-107 | there are never more documents than URLs |
| Reindex.BuildDocsExact | api/reindex.js:85-107 | a document is built exactly when its URL is taken and the worker makes that document of it, whatever order the workers finish in |
| Reindex.BuildDocsLength | api/reindex.js:90-106 | there are as many documents as taken URLs whose page has a title, counted with repetition |
| Reindex.BuildDocsCount | api/reindex.js:90-106 | each document is stored as many times as its URL is taken, when the worker makes that document of it, and never otherwise |
| Reindex.BuildIndex | api/reindex.js:60-118 | the build fails exactly when the sitemap index cannot be fetched, with that error; otherwise count is the number of documents, which is the number of taken URLs whose page has a title, counted with repetition; sitemapCount is the number of sitemaps the index lists and taken is the number of URLs taken from them; count is at most taken, which is at most the cap; the index records the time and the contact link |
| Reindex.ErrorText | api/reindex.js:137 | the error text is never empty, and it is the message when there is one |
| Reindex.Handle | api/reindex.js:120-139 | OPTIONS gets the preflight answer and nothing else does; the answer is a failure exactly when the sitemap index cannot be fetched; a report carries the build's count, sitemapCount and taken, and its sample is the first min(3, stored) stored documents; it has at most 3 documents, count at most taken, and the build time; taken is at most 200 unless `max` is not a number |
| Reindex.DocsSound | api/reindex.js:78-101 | every stored document has a taken URL that starts with `http`, matches the product pattern and comes from a sitemap; its page can be fetched and has a title; its stored title is that title trimmed and its group is `classifyGroup` of that title and its URL |
| Reindex.DocsComplete | api/reindex.js:83-101 | every taken URL whose page has a title is stored |
| Reindex.TakenIsCapped | api/reindex.js:78-83 | taken is min(number of product URLs, clamped max), and so at most 200 |
| Reindex.BlankTitleStoredEmpty | api/reindex.js:95-98 | a whitespace-only title passes the `!title` test and is stored as the empty title |
| Reindex.SitemapCountOfIndex | api/reindex.js:62-65 | an index listing only sitemap URLs, as `<loc>` elements separated by text without `<`, has every one of them read |

## Left out

- I/O: HTTP requests and responses, the CORS headers, `res.status(...).json(...)`, and `fetchText`'s `User-Agent` header and error message. `fetch` is a parameter mapping each URL to its body or to an error message, so a page answers the same every time it is fetched.
- `Date.now()` is the parameter `now`.
- The contact link of api/reindex.js:113-114 is written out already percent-encoded; `encodeURIComponent` is not modelled.
- The hand-off through `globalThis`: api/reindex.js:110 writes `__electrominds_index`, while api/ask.js:24 reads `__EM_INDEX__`. The search handler therefore takes its index as an input, and the crawl handler reports the index it has just built.
- Reindex.BuildDocs: the four concurrent workers of api/reindex.js:86-107 are modelled as one sequential pass. The order of the stored documents depends on network timing, so `BuildDocsExact` and `BuildDocsCount` state which documents are stored, and how many times each, without saying in what order.
- Reindex.ErrorText: when the message is empty, `String(e)` gives the error's own name and text (for example `TypeError`), which depends on the error object; the model gives the fixed text `Error`.
- Ask.ClampPage: takes an already-parsed integer. The `NaN` that `parseInt` returns for non-numeric text, which both `Math` calls propagate, is not modelled.
- Ask.ClampLimit: the same, for `limit`.
- Reindex.ClampMax: a non-number gives no cap, as the `NaN` comparison `urls.length > NaN` would. Fractional values and `Infinity` from `Number` are not modelled.
- Normalization.Normalize: `String.prototype.normalize("NFD")` is not modelled. The text is taken as already decomposed, and only ASCII letters are lower-cased.
- Text.Lower: lower-cases ASCII letters only, where `toLowerCase` covers all of Unicode.
- Ask.Small: cuts the text after 220 characters, where JavaScript counts UTF-16 code units. The two differ for characters outside the Basic Multilingual Plane.
- Titles.PickTitle: the function's own contract says only that a title found is never empty. What it picks is stated in lemmas for pages of a given shape: an `og:title` tag, a `<title>` element in a page without `<meta`, or one behind a `<meta charset="utf-8">` declaration, with no `<` ahead of it. Pages where a partial tag comes earlier are not covered.
- electrominds-crawler-chat/api/reindex.js is not part of this model. It parses with the axios, xml2js and cheerio packages, whose code is not part of this model, scores with the floating-point `Math.log`, and normalises with Unicode NFKD.

## Findings

| source | as written | input that shows it | evidently intended | confidence | as-written member | corrected member |
|---|---|---|---|---|---|---|
| api/reindex.js:45-54 | `pickTitle` passes its capture to `decodeHTMLEntities`, which replaces `&amp;` first, then `&lt;`, `&gt;`, `&#39;` and `&quot;` over the result, so an `&` produced by the first replacement can start an entity that is decoded again | a title written as `&amp;lt;`, the escaped form of the text `&lt;`, decodes to `<` instead of `&lt;` | each entity of the original text decoded once, so decoding undoes escaping | not executed | Titles.PickTitleDecodesTwice | Titles.PickTitleIntendedReadsEscaped |

=== FILE: Ask.dfy ===
/** The query handler of api/ask.js, without its HTTP plumbing: clamp the
    paging parameters, answer with a fixed envelope when the index is empty,
    return the first documents as "popular" ones when the query is blank,
    and otherwise rank the index against the normalised query and return
    one page of results, each projected to its public fields. */
module Ask {
  import opened Wrappers
  import opened Text
  import opened Normalization
  import opened Ranking
  import opened Paging

  /** The human-contact link every response carries. */
  const ContactUrl: string :=
    "https://wa.me/573203440092?text=Hola%20Electrominds,%20necesito%20asesor%20\U{1F642}"

  /** The message of the empty-index response. */
  const EmptyIndexMessage: string :=
    "\U{00CD}ndice vac\U{00ED}o. Abre /api/reindex primero para cargar el contenido."

  const DefaultPage: int := 1
  const DefaultLimit: int := 12
  const MaxLimit: int := 50
  const PreviewLength: nat := 220

  // ---------------------------------------------------------------------
  // Parameters

  /** `Math.max(parseInt(page || "1"), 1)` on an already-parsed parameter:
      at least 1, the parameter itself when it is, 1 when it is missing. */
  function ClampPage(p: Option<int>): (r: int)
    ensures r >= 1
    ensures p.None? ==> r == DefaultPage
    ensures p.Some? && p.value >= 1 ==> r == p.value
    ensures p.Some? && p.value < 1 ==> r == 1
  {
    Max(p.GetOr(DefaultPage), 1)
  }

  /** `Math.min(Math.max(parseInt(limit || "12"), 1), 50)`: within 1..50,
      the parameter itself when it is, the nearer bound otherwise, 12 when
      it is missing. */
  function ClampLimit(l: Option<int>): (r: int)
    ensures 1 <= r <= MaxLimit
    ensures l.None? ==> r == DefaultLimit
    ensures l.Some? && 1 <= l.value <= MaxLimit ==> r == l.value
    ensures l.Some? && l.value < 1 ==> r == 1
    ensures l.Some? && l.value > MaxLimit ==> r == MaxLimit
  {
    Min(Max(l.GetOr(DefaultLimit), 1), MaxLimit)
  }

  // ---------------------------------------------------------------------
  // Public projection

  /** What a client sees of one document. */
  datatype Item = Item(title: string, url: string, image: string, price: Option<string>, text: string)

  /** `small(d)`: title, URL and price pass through, a missing image becomes
      the empty string, and the text is cut to its first 220 code points
      (a missing text reads as empty). */
  function Small(d: Doc): (r: Item)
    ensures r.title == d.title && r.url == d.url && r.price == d.price
    ensures d.image.Some? ==> r.image == d.image.value
    ensures d.image.None? ==> r.image == ""
    ensures |r.text| == Min(|d.text.GetOr("")|, PreviewLength)
    ensures r.text == d.text.GetOr("")[..|r.text|]
  {
    var text := d.text.GetOr("");
    Item(d.title, d.url, d.image.GetOr(""), d.price, text[..Min(|text|, PreviewLength)])
  }

  function SmallAll(ds: seq<Doc>): (r: seq<Item>)
    ensures |r| == |ds|
    ensures forall k :: 0 <= k < |ds| ==> r[k] == Small(ds[k])
  {
    seq(|ds|, k requires 0 <= k < |ds| => Small(ds[k]))
  }

  lemma SmallAllAppend(a: seq<Doc>, b: seq<Doc>)
    ensures SmallAll(a + b) == SmallAll(a) + SmallAll(b)
  {
  }

  // ---------------------------------------------------------------------
  // Responses

  /** The JSON envelope of every answer. `limit` and `message` are absent
      from some of them. */
  datatype Envelope = Envelope(
    ok: bool,
    found: bool,
    total: nat,
    page: int,
    pages: int,
    limit: Option<int>,
    message: Option<string>,
    contactUrl: string,
    results: seq<Item>)

  /** The documents of a ranked list of hits. */
  function DocsOf(hs: seq<Hit>): (r: seq<Doc>)
    ensures |r| == |hs|
    ensures forall k :: 0 <= k < |hs| ==> r[k] == hs[k].doc
  {
    seq(|hs|, k requires 0 <= k < |hs| => hs[k].doc)
  }

  /** The ranked documents for the normalised query `nq`. */
  function RankedDocs(nq: string, idx: seq<Doc>): seq<Doc> {
    DocsOf(Rank(nq, idx))
  }

  /** The answer when nothing is indexed: not found, no results, one
      page, the echoed `page` and `limit`, and a message telling the user
      to build the index first. */
  function EmptyIndexEnvelope(page: int, limit: int): (r: Envelope)
    ensures r.ok && !r.found && r.total == 0 && r.pages == 1 && r.results == []
    ensures r.page == page && r.limit == Some(limit)
    ensures r.message == Some(EmptyIndexMessage) && r.contactUrl == ContactUrl
  {
    Envelope(true, false, 0, page, 1, Some(limit), Some(EmptyIndexMessage), ContactUrl, [])
  }

  /** The answer to a blank query over a non-empty index: the first
      `limit` documents, unranked and not deduplicated, as page 1 of
      `ceil(|idx| / limit)`, with every document counted in `total`. */
  function PopularEnvelope(idx: seq<Doc>, limit: int): (r: Envelope)
    requires |idx| > 0 && limit >= 1
    ensures r.ok && r.found && r.contactUrl == ContactUrl
    ensures r.total == |idx| && r.page == 1 && r.pages == CeilDiv(|idx|, limit) && r.pages >= 1
    ensures |r.results| == Min(limit, |idx|)
    ensures forall k :: 0 <= k < |r.results| ==> r.results[k] == Small(idx[k])
    ensures r.limit.None? && r.message.None?
  {
    var results := SmallAll(idx[..Min(limit, |idx|)]);
    Envelope(true, |results| > 0, |idx|, 1, CeilDiv(|idx|, limit), None, None, ContactUrl, results)
  }

  /** One page of an already ranked list of documents: `total` counts
      all of them, there is at least one page, the results are page `page`
      projected to their public fields, and `found` holds exactly when the
      page holds results, so never for a page beyond the last. */
  function PagedEnvelope(ranked: seq<Doc>, page: int, limit: int): (r: Envelope)
    requires page >= 1 && limit >= 1
    ensures r.ok && r.contactUrl == ContactUrl
    ensures r.total == |ranked| && r.page == page
    ensures r.pages == PageCount(r.total, limit) && r.pages >= 1
    ensures r.results == SmallAll(PageOf(ranked, page, limit))
    ensures |r.results| <= limit
    ensures r.found <==> |r.results| > 0
    ensures r.page > r.pages ==> r.results == []
    ensures r.limit == Some(limit) && r.message.None?
  {
    var total := |ranked|;
    var pages := PageCount(total, limit);
    var results := SmallAll(PageOf(ranked, page, limit));
    Envelope(true, |results| > 0, total, page, pages, Some(limit), None, ContactUrl, results)
  }

  /** The answer to the normalised query `nq` over a non-empty index: page
      `page` of the documents of the index ranked against `nq`. */
  function SearchEnvelope(nq: string, idx: seq<Doc>, page: int, limit: int): Envelope
    requires page >= 1 && limit >= 1
  {
    PagedEnvelope(RankedDocs(nq, idx), page, limit)
  }

  /** The handler for the query `rawQuery` and the already-parsed `page`
      and `limit` parameters over the index `idx`.
      Every answer is well formed: `ok`, the contact link, at least one
      page, a page number of at least 1, at most `limit` results, `found`
      exactly when there are results, and no results on a page beyond the
      last. An empty index gives the empty-index envelope whatever the
      query; a blank query (nothing but whitespace) gives the popular
      documents; any other query is trimmed, normalised and ranked. */
  function Ask(idx: seq<Doc>, rawQuery: string, pageParam: Option<int>, limitParam: Option<int>): (r: Envelope)
    ensures r.ok && r.contactUrl == ContactUrl
    ensures r.pages >= 1 && r.page >= 1
    ensures |r.results| <= ClampLimit(limitParam)
    ensures r.found <==> |r.results| > 0
    ensures r.page > r.pages ==> r.results == [] && !r.found
    ensures |idx| == 0 ==> r == EmptyIndexEnvelope(ClampPage(pageParam), ClampLimit(limitParam))
    ensures |idx| > 0 && AllWhitespace(rawQuery) ==> r == PopularEnvelope(idx, ClampLimit(limitParam))
    ensures |idx| > 0 && !AllWhitespace(rawQuery) ==>
      r == SearchEnvelope(Normalize(Trim(rawQuery)), idx, ClampPage(pageParam), ClampLimit(limitParam))
  {
    var q := Trim(rawQuery);
    var page := ClampPage(pageParam);
    var limit := ClampLimit(limitParam);
    if |idx| == 0 then EmptyIndexEnvelope(page, limit)
    else if q == [] then PopularEnvelope(idx, limit)
    else SearchEnvelope(Normalize(q), idx, page, limit)
  }

  // ---------------------------------------------------------------------
  // Properties across requests

  /** The results of the answers for pages 1 to `n` of the same ranked
      list, one after the other. */
  function ResultPages(ranked: seq<Doc>, limit: int, n: nat): seq<Item>
    requires limit >= 1
  {
    if n == 0 then []
    else ResultPages(ranked, limit, n - 1) + PagedEnvelope(ranked, n, limit).results
  }

  /** The answers for pages 1 to `n` together are the projection of the
      first `n` pages. */
  lemma {:induction false} ResultPagesAreItemPages(ranked: seq<Doc>, limit: int, n: nat)
    requires limit >= 1
    ensures ResultPages(ranked, limit, n) == SmallAll(AllPages(ranked, limit, n))
  {
    if n > 0 {
      ResultPagesAreItemPages(ranked, limit, n - 1);
      SmallAllAppend(AllPages(ranked, limit, n - 1), PageOf(ranked, n, limit));
    }
  }

  /** Asking for pages 1 to `pages` in turn returns every ranked document
      exactly once, in rank order. */
  lemma ResultPagesReproduceRanking(ranked: seq<Doc>, limit: int)
    requires limit >= 1
    ensures ResultPages(ranked, limit, PagedEnvelope(ranked, 1, limit).pages) == SmallAll(ranked)
  {
    ResultPagesAreItemPages(ranked, limit, PageCount(|ranked|, limit));
    PagesReproduce(ranked, limit);
  }

  /** The same for the queries a client sends: paging through the answers
      to a non-blank query over a non-empty index, from page 1 to the page
      count the first answer reports, yields the whole ranking. */
  lemma AskPagesReproduceRanking(idx: seq<Doc>, rawQuery: string, limitParam: Option<int>)
    requires |idx| > 0 && !AllWhitespace(rawQuery)
    ensures var ranked := RankedDocs(Normalize(Trim(rawQuery)), idx);
      var first := Ask(idx, rawQuery, Some(1), limitParam);
      && first == PagedEnvelope(ranked, 1, ClampLimit(limitParam))
      && ResultPages(ranked, ClampLimit(limitParam), first.pages) == SmallAll(ranked)
  {
    ResultPagesReproduceRanking(RankedDocs(Normalize(Trim(rawQuery)), idx), ClampLimit(limitParam));
  }

  /** `d` matches `nq` in its title or its text. */
  predicate Matches(nq: string, d: Doc) {
    TitleMatches(nq, d) || TextMatches(nq, d)
  }

  /** Every ranked document is a matching document of the index, and no two
      ranked documents share a URL. */
  lemma RankedDocsMatch(nq: string, idx: seq<Doc>)
    ensures var ranked := RankedDocs(nq, idx);
      && (forall k :: 0 <= k < |ranked| ==> ranked[k] in idx && Matches(nq, ranked[k]))
      && (forall a, b :: 0 <= a < b < |ranked| ==> ranked[a].url != ranked[b].url)
  {
    var hs := Rank(nq, idx);
    var ranked := DocsOf(hs);
    forall k | 0 <= k < |ranked| ensures ranked[k] in idx && Matches(nq, ranked[k]) {
      assert hs[k] in hs;
      assert Scored(nq, hs[k]);
    }
  }

  /** A page of a list holds only documents of the index that match the
      query when the list does. */
  lemma PageDocsMatch(ranked: seq<Doc>, nq: string, idx: seq<Doc>, page: nat, limit: nat)
    requires page >= 1 && limit >= 1
    requires forall k :: 0 <= k < |ranked| ==> ranked[k] in idx && Matches(nq, ranked[k])
    ensures var p := PageOf(ranked, page, limit);
      forall k :: 0 <= k < |p| ==> p[k] in idx && Matches(nq, p[k])
  {
    var p := PageOf(ranked, page, limit);
    var start := PageStart(page, limit);
    forall k | 0 <= k < |p| ensures p[k] in idx && Matches(nq, p[k]) {
      assert p[k] == ranked[start + k];
    }
  }

  /** A page of a list has distinct URLs when the list does. */
  lemma PageUrlsDistinct(ranked: seq<Doc>, page: nat, limit: nat)
    requires page >= 1 && limit >= 1
    requires forall a, b :: 0 <= a < b < |ranked| ==> ranked[a].url != ranked[b].url
    ensures var p := PageOf(ranked, page, limit);
      forall a, b :: 0 <= a < b < |p| ==> p[a].url != p[b].url
  {
    var p := PageOf(ranked, page, limit);
    var start := PageStart(page, limit);
    forall a, b | 0 <= a < b < |p| ensures p[a].url != p[b].url {
      assert p[a] == ranked[start + a] && p[b] == ranked[start + b];
    }
  }

  /** `it` is the projection of a document of the index that matches the
      query in its title or its text. */
  ghost predicate FromIndex(nq: string, idx: seq<Doc>, it: Item) {
    exists d :: d in idx && it == Small(d) && Matches(nq, d)
  }

  /** Every result of a search answer is the projection of a document of
      the index that matches the query in its title or its text. */
  lemma SearchResultsMatch(nq: string, idx: seq<Doc>, page: int, limit: int)
    requires page >= 1 && limit >= 1
    ensures var r := SearchEnvelope(nq, idx, page, limit);
      forall k :: 0 <= k < |r.results| ==> FromIndex(nq, idx, r.results[k])
  {
    var ranked := RankedDocs(nq, idx);
    var p := PageOf(ranked, page, limit);
    RankedDocsMatch(nq, idx);
    PageDocsMatch(ranked, nq, idx, page, limit);
    var r := SearchEnvelope(nq, idx, page, limit);
    assert r == PagedEnvelope(ranked, page, limit);
    assert r.results == SmallAll(p);
    forall k | 0 <= k < |r.results|
      ensures FromIndex(nq, idx, r.results[k])
    {
      var d := p[k];
      assert r.results[k] == Small(d);
      assert d in idx && Matches(nq, d);
    }
  }

  /** No two results of a search answer share a URL. */
  lemma SearchResultsDistinct(nq: string, idx: seq<Doc>, page: int, limit: int)
    requires page >= 1 && limit >= 1
    ensures var r := SearchEnvelope(nq, idx, page, limit);
      forall a, b :: 0 <= a < b < |r.results| ==> r.results[a].url != r.results[b].url
  {
    var ranked := RankedDocs(nq, idx);
    var p := PageOf(ranked, page, limit);
    RankedDocsMatch(nq, idx);
    PageUrlsDistinct(ranked, page, limit);
    var r := SearchEnvelope(nq, idx, page, limit);
    assert r == PagedEnvelope(ranked, page, limit);
    assert r.results == SmallAll(p);
    forall a, b | 0 <= a < b < |r.results| ensures r.results[a].url != r.results[b].url {
      assert r.results[a] == Small(p[a]) && r.results[b] == Small(p[b]);
    }
  }
}

=== FILE: Classify.dfy ===
/** The product groups of api/reindex.js: `classifyGroup` tries a fixed list
    of keyword rules, in order, on the lower-cased title and URL. */
module Classify {
  import opened Text

  /** A rule: any of `keywords` in the text puts the product in `group`. */
  datatype Rule = Rule(keywords: seq<string>, group: string)

  /** The rules in the order the handler tries them. */
  const Rules: seq<Rule> := [
    Rule(["arduino"], "arduino"),
    Rule(["raspberry"], "raspberry"),
    Rule(["sensor"], "sensor"),
    Rule(["interruptor", "wifi"], "interruptor wifi"),
    Rule(["cable", "vga", "rj45", "cat"], "cables")
  ]

  /** The group of a product no rule recognises. */
  const Fallback: string := "otros"

  /** Every group a product can be put in. */
  const Groups: set<string> :=
    {"arduino", "raspberry", "sensor", "interruptor wifi", "cables", "otros"}

  /** Some keyword of `rule` occurs in `text`. */
  predicate Fires(text: string, rule: Rule) {
    ContainsAny(text, rule.keywords)
  }

  /** The group of the first rule of `rules` that fires on `text`, or the
      fallback when none does: the reference reading of the rule list. */
  function FirstRule(text: string, rules: seq<Rule>): (g: string)
    ensures g == Fallback || exists k :: 0 <= k < |rules| && rules[k].group == g
    decreases |rules|
  {
    if |rules| == 0 then Fallback
    else if Fires(text, rules[0]) then rules[0].group
    else FirstRule(text, rules[1..])
  }

  /** The first rule that fires decides the group. */
  lemma {:induction false} FirstRuleIs(text: string, rules: seq<Rule>, k: nat)
    requires k < |rules| && Fires(text, rules[k])
    requires forall j :: 0 <= j < k ==> !Fires(text, rules[j])
    ensures FirstRule(text, rules) == rules[k].group
    decreases k
  {
    if k > 0 {
      assert !Fires(text, rules[0]);
      assert forall j :: 0 <= j < k - 1 ==> rules[1..][j] == rules[j + 1];
      FirstRuleIs(text, rules[1..], k - 1);
    }
  }

  /** When no rule fires, the fallback is the group. */
  lemma {:induction false} FirstRuleNone(text: string, rules: seq<Rule>)
    requires forall j :: 0 <= j < |rules| ==> !Fires(text, rules[j])
    ensures FirstRule(text, rules) == Fallback
    decreases |rules|
  {
    if |rules| > 0 {
      assert !Fires(text, rules[0]);
      assert forall j :: 0 <= j < |rules| - 1 ==> rules[1..][j] == rules[j + 1];
      FirstRuleNone(text, rules[1..]);
    }
  }

  /** The text `classifyGroup` searches: the title, a space and the URL,
      lower-cased. */
  function GroupText(title: string, url: string): string {
    Lower(title + " " + url)
  }

  /** A rule fires exactly when one of its keywords occurs: the first, or
      one of the others. */
  lemma FiresCons(t: string, x: string, rest: seq<string>, group: string)
    ensures Fires(t, Rule([x] + rest, group)) <==> Contains(t, x) || Fires(t, Rule(rest, group))
  {
    var ks := [x] + rest;
    if Contains(t, x) {
      assert Contains(t, ks[0]);
    }
    if Fires(t, Rule(rest, group)) {
      var j :| 0 <= j < |rest| && Contains(t, rest[j]);
      assert Contains(t, ks[j + 1]);
    }
    if Fires(t, Rule(ks, group)) {
      var j :| 0 <= j < |ks| && Contains(t, ks[j]);
      if j > 0 {
        assert Contains(t, rest[j - 1]);
      }
    }
  }

  /** A rule with a single keyword fires when that keyword occurs. */
  lemma SingleRuleFires(t: string, k: nat)
    requires k < 3
    ensures Fires(t, Rules[k]) <==> Contains(t, Rules[k].group)
  {
    var r := Rules[k];
    assert r.keywords == [r.group] + [];
    FiresCons(t, r.group, [], r.group);
  }

  /** The switch rule fires on `interruptor` or `wifi`. */
  lemma SwitchRuleFires(t: string)
    ensures Fires(t, Rules[3]) <==> Contains(t, "interruptor") || Contains(t, "wifi")
  {
    var g := "interruptor wifi";
    FiresCons(t, "wifi", [], g);
    FiresCons(t, "interruptor", ["wifi"], g);
    assert ["wifi"] + [] == ["wifi"];
    assert Rules[3] == Rule(["interruptor"] + ["wifi"], g);
  }

  /** The cable rule fires on `cable`, `vga`, `rj45` or `cat`. */
  lemma CableRuleFires(t: string)
    ensures Fires(t, Rules[4]) <==>
              Contains(t, "cable") || Contains(t, "vga") || Contains(t, "rj45") || Contains(t, "cat")
  {
    var g := "cables";
    FiresCons(t, "cat", [], g);
    FiresCons(t, "rj45", ["cat"], g);
    FiresCons(t, "vga", ["rj45", "cat"], g);
    FiresCons(t, "cable", ["vga", "rj45", "cat"], g);
    assert ["cat"] + [] == ["cat"];
    assert ["rj45"] + ["cat"] == ["rj45", "cat"];
    assert ["vga"] + ["rj45", "cat"] == ["vga", "rj45", "cat"];
    assert Rules[4] == Rule(["cable"] + ["vga", "rj45", "cat"], g);
  }

  /** What each rule of the list tests. */
  lemma RulesFire(t: string)
    ensures Fires(t, Rules[0]) <==> Contains(t, "arduino")
    ensures Fires(t, Rules[1]) <==> Contains(t, "raspberry")
    ensures Fires(t, Rules[2]) <==> Contains(t, "sensor")
    ensures Fires(t, Rules[3]) <==> Contains(t, "interruptor") || Contains(t, "wifi")
    ensures Fires(t, Rules[4]) <==>
              Contains(t, "cable") || Contains(t, "vga") || Contains(t, "rj45") || Contains(t, "cat")
  {
    SingleRuleFires(t, 0);
    SingleRuleFires(t, 1);
    SingleRuleFires(t, 2);
    SwitchRuleFires(t);
    CableRuleFires(t);
  }

  /** `classifyGroup(title, url)`, as the chain of tests the handler writes
      out. The group is one of the six, and it is the fallback exactly when
      no keyword of any rule occurs. */
  function ClassifyGroup(title: string, url: string): (g: string)
    ensures g in Groups
    ensures g == Fallback <==> forall k :: 0 <= k < |Rules| ==> !Fires(GroupText(title, url), Rules[k])
  {
    var t := GroupText(title, url);
    RulesFire(t);
    if Contains(t, "arduino") then "arduino"
    else if Contains(t, "raspberry") then "raspberry"
    else if Contains(t, "sensor") then "sensor"
    else if Contains(t, "interruptor") || Contains(t, "wifi") then "interruptor wifi"
    else if Contains(t, "cable") || Contains(t, "vga") || Contains(t, "rj45") || Contains(t, "cat") then "cables"
    else Fallback
  }

  /** The rule list read in order, one rule at a time. */
  lemma FirstRuleUnrolled(t: string)
    ensures FirstRule(t, Rules) ==
              if Fires(t, Rules[0]) then "arduino"
              else if Fires(t, Rules[1]) then "raspberry"
              else if Fires(t, Rules[2]) then "sensor"
              else if Fires(t, Rules[3]) then "interruptor wifi"
              else if Fires(t, Rules[4]) then "cables"
              else Fallback
  {
    var r1 := Rules[1..];
    var r2 := r1[1..];
    var r3 := r2[1..];
    var r4 := r3[1..];
    var r5 := r4[1..];
    assert r1[0] == Rules[1] && r2[0] == Rules[2] && r3[0] == Rules[3] && r4[0] == Rules[4];
    assert FirstRule(t, r5) == Fallback;
    assert FirstRule(t, r4) == if Fires(t, Rules[4]) then "cables" else Fallback;
    assert FirstRule(t, r3) == if Fires(t, Rules[3]) then "interruptor wifi" else FirstRule(t, r4);
    assert FirstRule(t, r2) == if Fires(t, Rules[2]) then "sensor" else FirstRule(t, r3);
    assert FirstRule(t, r1) == if Fires(t, Rules[1]) then "raspberry" else FirstRule(t, r2);
  }

  /** The chain of tests is the rule list read in order: the group is the
      one of the first rule that fires. */
  lemma ClassifyFollowsRules(title: string, url: string)
    ensures ClassifyGroup(title, url) == FirstRule(GroupText(title, url), Rules)
  {
    var t := GroupText(title, url);
    RulesFire(t);
    FirstRuleUnrolled(t);
  }
}

=== FILE: Entities.dfy ===
/** The HTML entity decoding of api/reindex.js: the five entities `&amp;`,
    `&lt;`, `&gt;`, `&#39;` and `&quot;`, both as the handler chains its
    replacements and as a single left-to-right pass. */
module Entities {
  import opened Wrappers
  import opened Text

  /** An entity and the character it stands for. */
  datatype Entity = Entity(name: string, ch: char)

  /** The entities in the order the source replaces them. */
  const Table: seq<Entity> := [
    Entity("&amp;", '&'),
    Entity("&lt;", '<'),
    Entity("&gt;", '>'),
    Entity("&#39;", '\''),
    Entity("&quot;", '"')
  ]

  predicate NoAmpersand(s: string) {
    forall i :: 0 <= i < |s| ==> s[i] != '&'
  }

  /** A string without `&` contains no entity. */
  lemma NoAmpersandNoEntity(s: string, k: nat)
    requires NoAmpersand(s) && k < |Table|
    ensures !Contains(s, Table[k].name)
  {
    var name := Table[k].name;
    assert name[0] == '&';
    forall j ensures !OccursAt(s, name, j) {
      if 0 <= j && j + |name| <= |s| {
        assert s[j..j + |name|][0] == s[j];
      }
    }
  }

  /** The global replacements of the entities from index `k` of the table
      on, one after the other. */
  function ReplaceFrom(s: string, k: nat): (r: string)
    requires k <= |Table|
    ensures |r| <= |s|
    ensures |s| > 0 ==> |r| > 0
    ensures NoAmpersand(s) ==> r == s
    decreases |Table| - k
  {
    if k == |Table| then s
    else
      assert NoAmpersand(s) ==> !Contains(s, Table[k].name) by {
        if NoAmpersand(s) {
          NoAmpersandNoEntity(s, k);
        }
      }
      ReplaceFrom(ReplaceAll(s, Table[k].name, [Table[k].ch]), k + 1)
  }

  /** `decodeHTMLEntities(s)` as written: replace every `&amp;`, then
      every `&lt;`, then `&gt;`, `&#39;` and `&quot;`. Text without `&`
      comes back unchanged, and the result is never longer and never
      empty when `s` is not. */
  function DecodeAsWritten(s: string): (r: string)
    ensures |r| <= |s|
    ensures |s| > 0 ==> |r| > 0
    ensures NoAmpersand(s) ==> r == s
  {
    ReplaceFrom(s, 0)
  }

  // ---------------------------------------------------------------------
  // A single pass

  /** The index of the entity `s` starts with, if any. No entity is a
      prefix of another, so there is at most one. */
  function EntityAtStart(s: string): (r: Option<nat>)
    ensures r.Some? ==> r.value < |Table| && StartsWith(s, Table[r.value].name)
    ensures r.None? ==> forall k :: 0 <= k < |Table| ==> !StartsWith(s, Table[k].name)
  {
    if StartsWith(s, Table[0].name) then Some(0)
    else if StartsWith(s, Table[1].name) then Some(1)
    else if StartsWith(s, Table[2].name) then Some(2)
    else if StartsWith(s, Table[3].name) then Some(3)
    else if StartsWith(s, Table[4].name) then Some(4)
    else None
  }

  /** Decoding each entity of `s` once, left to right: an `&` that an
      entity produces is never read again. Text without `&` comes back
      unchanged, and the result is never longer and never empty when `s`
      is not. */
  function DecodeOnce(s: string): (r: string)
    ensures |r| <= |s|
    ensures |s| > 0 ==> |r| > 0
    ensures NoAmpersand(s) ==> r == s
    decreases |s|
  {
    if |s| == 0 then []
    else
      match EntityAtStart(s)
      case Some(k) =>
        assert s[0] == s[..|Table[k].name|][0] == '&';
        [Table[k].ch] + DecodeOnce(s[|Table[k].name|..])
      case None =>
        assert NoAmpersand(s) ==> NoAmpersand(s[1..]);
        [s[0]] + DecodeOnce(s[1..])
  }

  // ---------------------------------------------------------------------
  // The chained replacements as a single pass

  /** Past its `&`, no entity contains an `&` or any character an entity
      stands for. */
  lemma NameTailPlain(k: nat, m: nat)
    requires k < |Table| && m < |Table|
    ensures Table[m].name[0] == '&'
    ensures forall i :: 1 <= i < |Table[k].name| ==>
              Table[k].name[i] != '&' && Table[k].name[i] != Table[m].ch
  {
  }

  /** A single left-to-right pass that decodes the entities from index `m`
      of the table on and keeps every other character, `&` included. */
  function DecodeFrom(s: string, m: nat): (r: string)
    requires m <= |Table|
    ensures |r| <= |s|
    decreases |s|
  {
    if |s| == 0 then []
    else
      match EntityAtStart(s)
      case Some(k) =>
        if k >= m then
          assert s[0] == s[..|Table[k].name|][0] == '&';
          [Table[k].ch] + DecodeFrom(s[|Table[k].name|..], m)
        else [s[0]] + DecodeFrom(s[1..], m)
      case None => [s[0]] + DecodeFrom(s[1..], m)
  }

  /** Text that starts with an entity the pass decodes reads as its
      character followed by what comes after the entity. */
  lemma DecodeFromEntity(s: string, k: nat, m: nat)
    requires m <= k < |Table| && StartsWith(s, Table[k].name)
    ensures DecodeFrom(s, m) == [Table[k].ch] + DecodeFrom(s[|Table[k].name|..], m)
  {
    EntityPrefixUnique(s, EntityAtStart(s).value, k);
  }

  /** Text that starts with no entity the pass decodes keeps its first
      character. */
  lemma DecodeFromSkip(s: string, m: nat)
    requires m <= |Table| && |s| > 0
    requires EntityAtStart(s).None? || EntityAtStart(s).value < m
    ensures DecodeFrom(s, m) == [s[0]] + DecodeFrom(s[1..], m)
  {
  }

  /** A pass that decodes no entity changes nothing. */
  lemma {:induction false} DecodeFromNone(s: string)
    ensures DecodeFrom(s, |Table|) == s
    decreases |s|
  {
    if |s| > 0 {
      DecodeFromSkip(s, |Table|);
      DecodeFromNone(s[1..]);
      assert s == [s[0]] + s[1..];
    }
  }

  /** Text that starts with one entity does not start with another. */
  lemma EntityExcludes(s: string, j: nat, m: nat)
    requires j < |Table| && m < |Table| && j != m && StartsWith(s, Table[j].name)
    ensures !StartsWith(s, Table[m].name)
  {
    var a := Table[j].name;
    var b := Table[m].name;
    assert s[..|a|][1] == a[1];
    assert forall x, y :: 0 <= x < y < |Table| ==> Table[x].name[1] != Table[y].name[1];
    assert a[1] != b[1];
    if |b| <= |s| {
      assert s[..|b|][1] == s[1];
    }
  }

  /** Replacing entity `m` leaves every other entity at the start of the
      text in place, followed by the replacement of what comes after it. */
  lemma ReplaceOtherEntity(s: string, j: nat, m: nat)
    requires 1 <= m < |Table| && j < |Table| && j != m && StartsWith(s, Table[j].name)
    ensures var name := Table[j].name;
      ReplaceAll(s, Table[m].name, [Table[m].ch])
      == name + ReplaceAll(s[|name|..], Table[m].name, [Table[m].ch])
  {
    NameTailPlain(j, m);
    EntityExcludes(s, j, m);
    ReplaceAllSkipsWord(s, Table[j].name, Table[m].name, [Table[m].ch]);
  }

  /** Text that opens with an entity the pass decodes reads as its
      character followed by the rest. */
  lemma DecodeFromNameFirst(j: nat, x: string, m: nat)
    requires m <= j < |Table|
    ensures DecodeFrom(Table[j].name + x, m) == [Table[j].ch] + DecodeFrom(x, m)
  {
    var name := Table[j].name;
    assert (name + x)[..|name|] == name;
    DecodeFromEntity(name + x, j, m);
    assert (name + x)[|name|..] == x;
  }

  /** Replacing entity `m` in the text after a character does not change
      whether the text starts with entity `k`. */
  lemma StartsAfterReplace(c: char, t: string, m: nat, k: nat)
    requires 1 <= m < |Table| && k < |Table|
    ensures var r := ReplaceAll(t, Table[m].name, [Table[m].ch]);
      StartsWith([c] + r, Table[k].name) <==> StartsWith([c] + t, Table[k].name)
  {
    var r := ReplaceAll(t, Table[m].name, [Table[m].ch]);
    var name := Table[k].name;
    NameTailPlain(k, m);
    var y := name[1..];
    assert forall i :: 0 <= i < |y| ==> y[i] == name[i + 1];
    StartsWithCons(c, r, name);
    StartsWithCons(c, t, name);
    ReplaceAllKeepsPrefix(t, y, Table[m].name, [Table[m].ch]);
  }

  /** Replacing entity `m` in the text after a character does not change
      which entity, if any, the text starts with. */
  lemma EntityAtStartAfterReplace(c: char, t: string, m: nat)
    requires 1 <= m < |Table|
    ensures EntityAtStart([c] + ReplaceAll(t, Table[m].name, [Table[m].ch]))
         == EntityAtStart([c] + t)
  {
    StartsAfterReplace(c, t, m, 0);
    StartsAfterReplace(c, t, m, 1);
    StartsAfterReplace(c, t, m, 2);
    StartsAfterReplace(c, t, m, 3);
    StartsAfterReplace(c, t, m, 4);
  }

  /** Replacing entity `m` everywhere and then decoding the entities after
      it in one pass is the same as decoding entity `m` and those after it
      in one pass. */
  lemma {:induction false} ReplaceStep(s: string, m: nat)
    requires 1 <= m < |Table|
    ensures DecodeFrom(ReplaceAll(s, Table[m].name, [Table[m].ch]), m + 1) == DecodeFrom(s, m)
    decreases |s|, 1
  {
    if |s| == 0 {
    } else if StartsWith(s, Table[m].name) {
      ReplaceStepAt(s, m);
    } else if EntityAtStart(s).Some? && EntityAtStart(s).value > m {
      ReplaceStepLater(s, m, EntityAtStart(s).value);
    } else {
      ReplaceStepSkip(s, m);
    }
  }

  /** The case of `ReplaceStep` where the text starts with entity `m`. */
  lemma {:induction false} ReplaceStepAt(s: string, m: nat)
    requires 1 <= m < |Table| && StartsWith(s, Table[m].name)
    ensures DecodeFrom(ReplaceAll(s, Table[m].name, [Table[m].ch]), m + 1) == DecodeFrom(s, m)
    decreases |s|, 0
  {
    var pat := Table[m].name;
    var rep := [Table[m].ch];
    var rest := s[|pat|..];
    var r := ReplaceAll(rest, pat, rep);
    ReplaceAllAt(s, pat, rep);
    NoEntityAtStart(rep + r);
    DecodeFromSkip(rep + r, m + 1);
    assert (rep + r)[1..] == r;
    ReplaceStep(rest, m);
    DecodeFromEntity(s, m, m);
  }

  /** The case of `ReplaceStep` where the text starts with an entity after
      `m` in the table. */
  lemma {:induction false} ReplaceStepLater(s: string, m: nat, j: nat)
    requires 1 <= m < j < |Table| && StartsWith(s, Table[j].name)
    ensures DecodeFrom(ReplaceAll(s, Table[m].name, [Table[m].ch]), m + 1) == DecodeFrom(s, m)
    decreases |s|, 0
  {
    var rest := s[|Table[j].name|..];
    ReplaceStep(rest, m);
    LaterChain(s, m, j);
  }

  /** `ReplaceStepLater` once the rest of the text is known to satisfy it. */
  lemma LaterChain(s: string, m: nat, j: nat)
    requires 1 <= m < j < |Table| && StartsWith(s, Table[j].name)
    requires var rest := s[|Table[j].name|..];
      DecodeFrom(ReplaceAll(rest, Table[m].name, [Table[m].ch]), m + 1) == DecodeFrom(rest, m)
    ensures DecodeFrom(ReplaceAll(s, Table[m].name, [Table[m].ch]), m + 1) == DecodeFrom(s, m)
  {
    var rest := s[|Table[j].name|..];
    ReplaceOtherEntity(s, j, m);
    DecodeFromNameFirst(j, ReplaceAll(rest, Table[m].name, [Table[m].ch]), m + 1);
    DecodeFromEntity(s, j, m);
  }

  /** The case of `ReplaceStep` where the first character of the text is
      kept by both passes. */
  lemma {:induction false} ReplaceStepSkip(s: string, m: nat)
    requires 1 <= m < |Table| && |s| > 0 && !StartsWith(s, Table[m].name)
    requires EntityAtStart(s).None? || EntityAtStart(s).value < m
    ensures DecodeFrom(ReplaceAll(s, Table[m].name, [Table[m].ch]), m + 1) == DecodeFrom(s, m)
    decreases |s|, 0
  {
    var pat := Table[m].name;
    var rep := [Table[m].ch];
    var r := ReplaceAll(s[1..], pat, rep);
    ReplaceAllCons(s, pat, rep);
    EntityAtStartAfterReplace(s[0], s[1..], m);
    assert [s[0]] + s[1..] == s;
    DecodeFromSkip([s[0]] + r, m + 1);
    assert ([s[0]] + r)[1..] == r;
    ReplaceStep(s[1..], m);
    DecodeFromSkip(s, m);
  }

  /** The chain of replacements from index `m` starts with entity `m`. */
  lemma ReplaceFromUnfold(s: string, m: nat)
    requires m < |Table|
    ensures ReplaceFrom(s, m) == ReplaceFrom(ReplaceAll(s, Table[m].name, [Table[m].ch]), m + 1)
  {
  }

  /** The replacements of the entities from index `m >= 1` on, chained,
      are one pass that decodes those entities. */
  lemma {:induction false} ReplaceFromDecodes(s: string, m: nat)
    requires 1 <= m <= |Table|
    ensures ReplaceFrom(s, m) == DecodeFrom(s, m)
    decreases |Table| - m
  {
    if m == |Table| {
      DecodeFromNone(s);
    } else {
      var r := ReplaceAll(s, Table[m].name, [Table[m].ch]);
      ReplaceFromUnfold(s, m);
      ReplaceFromDecodes(r, m + 1);
      ReplaceStep(s, m);
    }
  }

  /** `decodeHTMLEntities` exactly: every `&amp;` becomes `&`, and then a
      single pass decodes the other four entities, including those whose
      `&` the first step produced. */
  lemma DecodeAsWrittenExact(s: string)
    ensures DecodeAsWritten(s) == DecodeFrom(ReplaceAll(s, Table[0].name, [Table[0].ch]), 1)
  {
    ReplaceFromDecodes(ReplaceAll(s, Table[0].name, [Table[0].ch]), 1);
  }

  /** The suffix of a text without an occurrence of `pat` has none. */
  lemma NotContainsSuffix(s: string, pat: string, i: nat)
    requires i <= |s| && !Contains(s, pat)
    ensures !Contains(s[i..], pat)
  {
    OccursInSuffix(s, pat, i);
  }

  /** Without `&amp;` the pass that skips it is the single pass. */
  lemma {:induction false} DecodeFromOnce(s: string)
    requires !Contains(s, Table[0].name)
    ensures DecodeFrom(s, 1) == DecodeOnce(s)
    decreases |s|
  {
    if |s| > 0 {
      match EntityAtStart(s)
      case Some(k) =>
        var name := Table[k].name;
        assert s[..|name|] == name;
        assert OccursAt(s, name, 0);
        assert k != 0;
        NotContainsSuffix(s, Table[0].name, |name|);
        DecodeFromOnce(s[|name|..]);
        DecodeFromEntity(s, k, 1);
        DecodeOnceEntity(s, k);
      case None =>
        NotContainsSuffix(s, Table[0].name, 1);
        DecodeFromOnce(s[1..]);
    }
  }

  /** On text without `&amp;` the chained replacements and the single pass
      agree: only a decoded `&amp;` can start a second decoding. */
  lemma DecodeAsWrittenWithoutAmp(s: string)
    requires !Contains(s, Table[0].name)
    ensures DecodeAsWritten(s) == DecodeOnce(s)
  {
    DecodeAsWrittenExact(s);
    DecodeFromOnce(s);
  }

  // ---------------------------------------------------------------------
  // Escaping

  /** The entity that escapes `c`, if `c` needs one. */
  function EntityFor(c: char): (r: Option<nat>)
    ensures r.Some? ==> r.value < |Table| && Table[r.value].ch == c
    ensures r.None? ==> forall k :: 0 <= k < |Table| ==> Table[k].ch != c
  {
    if c == '&' then Some(0)
    else if c == '<' then Some(1)
    else if c == '>' then Some(2)
    else if c == '\'' then Some(3)
    else if c == '"' then Some(4)
    else None
  }

  function EscapeChar(c: char): string {
    match EntityFor(c)
    case Some(k) => Table[k].name
    case None => [c]
  }

  /** The text written with each of the five characters replaced by its
      entity. */
  function Escape(s: string): string {
    if |s| == 0 then [] else EscapeChar(s[0]) + Escape(s[1..])
  }

  /** The entities differ in their second character, so no two of them
      start the same text. */
  lemma EntityPrefixUnique(s: string, j: nat, k: nat)
    requires j < |Table| && k < |Table|
    requires StartsWith(s, Table[j].name) && StartsWith(s, Table[k].name)
    ensures j == k
  {
    assert s[..|Table[j].name|][1] == Table[j].name[1];
    assert s[..|Table[k].name|][1] == Table[k].name[1];
    assert forall a, b :: 0 <= a < b < |Table| ==> Table[a].name[1] != Table[b].name[1];
  }

  /** Text that starts with an entity decodes as its character followed by
      what comes after the entity. */
  lemma DecodeOnceEntity(s: string, k: nat)
    requires k < |Table| && StartsWith(s, Table[k].name)
    ensures DecodeOnce(s) == [Table[k].ch] + DecodeOnce(s[|Table[k].name|..])
  {
    EntityPrefixUnique(s, EntityAtStart(s).value, k);
  }

  /** Text that starts with a character other than `&` decodes as that
      character followed by the rest. */
  lemma DecodeOncePlain(s: string)
    requires |s| > 0 && s[0] != '&'
    ensures DecodeOnce(s) == [s[0]] + DecodeOnce(s[1..])
  {
    NoEntityAtStart(s);
  }

  /** Every entity starts with `&`. */
  lemma NoEntityAtStart(s: string)
    requires |s| > 0 && s[0] != '&'
    ensures EntityAtStart(s).None?
  {
    forall j | 0 <= j < |Table| ensures !StartsWith(s, Table[j].name) {
      var name := Table[j].name;
      assert name[0] == '&';
      if |name| <= |s| {
        assert s[..|name|][0] == s[0];
      }
    }
  }

  /** After an escaped character, the single pass reads that character and
      goes on with what follows. */
  lemma DecodeEscapedChar(c: char, rest: string)
    ensures DecodeOnce(EscapeChar(c) + rest) == [c] + DecodeOnce(rest)
  {
    var s := EscapeChar(c) + rest;
    match EntityFor(c)
    case Some(k) =>
      var name := Table[k].name;
      assert s[..|name|] == name;
      DecodeOnceEntity(s, k);
      assert s[|name|..] == rest;
    case None =>
      assert s[0] == c;
      DecodeOncePlain(s);
      assert s[1..] == rest;
  }

  /** The escape of a single character holds no quote. */
  lemma EscapeCharNoQuote(c: char)
    ensures |EscapeChar(c)| >= 1
    ensures forall m :: 0 <= m < |EscapeChar(c)| ==> EscapeChar(c)[m] != '"' && EscapeChar(c)[m] != '\''
  {
  }

  /** Escaping leaves no quote in the text and never shortens it. */
  lemma {:induction false} EscapeNoQuote(s: string)
    ensures |Escape(s)| >= |s|
    ensures forall m :: 0 <= m < |Escape(s)| ==> Escape(s)[m] != '"' && Escape(s)[m] != '\''
    decreases |s|
  {
    if |s| > 0 {
      EscapeNoQuote(s[1..]);
      var head := EscapeChar(s[0]);
      var tail := Escape(s[1..]);
      EscapeCharNoQuote(s[0]);
      assert Escape(s) == head + tail;
      assert forall m :: 0 <= m < |tail| ==> (head + tail)[|head| + m] == tail[m];
    }
  }

  /** Decoding once undoes escaping. */
  lemma {:induction false} DecodeOnceEscape(s: string)
    ensures DecodeOnce(Escape(s)) == s
    decreases |s|
  {
    if |s| > 0 {
      DecodeEscapedChar(s[0], Escape(s[1..]));
      DecodeOnceEscape(s[1..]);
      assert s == [s[0]] + s[1..];
    }
  }

  lemma EscapeLt()
    ensures Escape("&lt;") == "&amp;lt;"
  {
    assert Escape("&lt;") == "&amp;" + Escape("lt;");
    assert Escape("lt;") == "lt;" by {
      assert Escape("lt;") == "l" + Escape("t;");
      assert Escape("t;") == "t" + Escape(";");
      assert Escape(";") == ";" + Escape("");
    }
  }

  /** The first replacement turns `&amp;lt;` into `&lt;`. */
  lemma FirstReplacement()
    ensures ReplaceAll("&amp;lt;", Table[0].name, [Table[0].ch]) == "&lt;"
  {
    var s0 := "&amp;lt;";
    assert s0[..5] == "&amp;";
    assert s0[5..] == "lt;";
    assert NoAmpersand("lt;");
  }

  /** The second replacement turns `&lt;` into `<`. */
  lemma SecondReplacement()
    ensures ReplaceAll("&lt;", Table[1].name, [Table[1].ch]) == "<"
  {
    var s1 := "&lt;";
    assert s1[..4] == "&lt;";
    assert s1[4..] == [];
  }

  lemma DecodeAsWrittenAmpLt()
    ensures DecodeAsWritten("&amp;lt;") == "<"
  {
    FirstReplacement();
    SecondReplacement();
    assert ReplaceFrom("&amp;lt;", 0) == ReplaceFrom("&lt;", 1);
    assert ReplaceFrom("&lt;", 1) == ReplaceFrom("<", 2);
    assert NoAmpersand("<");
  }

  lemma DecodeOnceAmpLt()
    ensures DecodeOnce("&amp;lt;") == "&lt;"
  {
    var s := "&amp;lt;";
    assert s[..5] == "&amp;";
    DecodeOnceEntity(s, 0);
    assert s[5..] == "lt;";
    assert NoAmpersand("lt;");
  }

  /** The chained replacements decode `&amp;` first, so the `&` it produces
      can start an entity that is decoded again: the escaped text `&lt;`
      reads back as `<`, not as `&lt;`. */
  lemma DecodeAsWrittenDecodesTwice()
    ensures Escape("&lt;") == "&amp;lt;"
    ensures DecodeAsWritten(Escape("&lt;")) == "<"
    ensures DecodeOnce(Escape("&lt;")) == "&lt;"
  {
    EscapeLt();
    DecodeAsWrittenAmpLt();
    DecodeOnceAmpLt();
  }
}

=== FILE: Normalize.dfy ===
/** The query normaliser of api/ask.js: lower-case, then strip the
    combining diacritical marks U+0300..U+036F. The canonical decomposition
    the source applies between the two steps is the identity on the
    already-decomposed text this model takes as input, and lower-casing is
    ASCII lower-casing. */
module Normalization {
  import opened Text

  /** A code point of the Combining Diacritical Marks block. */
  predicate IsCombiningMark(c: char) {
    '\U{0300}' <= c <= '\U{036F}'
  }

  /** The code points a normalised string may contain. */
  predicate IsNormalChar(c: char) {
    !IsCombiningMark(c) && !IsUpperAscii(c)
  }

  predicate IsNormalized(s: string) {
    forall i :: 0 <= i < |s| ==> IsNormalChar(s[i])
  }

  /** What one input code point becomes: nothing for a mark, its lower-case
      form otherwise. */
  function NormalizeChar(c: char): (r: string)
    ensures |r| <= 1
    ensures IsNormalized(r)
    ensures r == [] <==> IsCombiningMark(c)
    ensures !IsCombiningMark(c) ==> r == [LowerChar(c)]
  {
    if IsCombiningMark(c) then [] else [LowerChar(c)]
  }

  /** `normalize(str)`: the result contains no combining mark and no ASCII
      upper-case letter, and is never longer than its input. */
  function Normalize(s: string): (r: string)
    ensures IsNormalized(r)
    ensures |r| <= |s|
  {
    if |s| == 0 then [] else NormalizeChar(s[0]) + Normalize(s[1..])
  }

  /** Normalisation works code point by code point, so it distributes over
      concatenation. */
  lemma {:induction false} NormalizeAppend(a: string, b: string)
    ensures Normalize(a + b) == Normalize(a) + Normalize(b)
    decreases |a|
  {
    if |a| == 0 {
      assert a + b == b;
    } else {
      assert (a + b)[1..] == a[1..] + b;
      NormalizeAppend(a[1..], b);
    }
  }

  /** A string that is already normalised is left unchanged. */
  lemma {:induction false} NormalizeFixesNormalized(s: string)
    requires IsNormalized(s)
    ensures Normalize(s) == s
    decreases |s|
  {
    if |s| > 0 {
      NormalizeFixesNormalized(s[1..]);
      assert s == [s[0]] + s[1..];
    }
  }

  /** On text without combining marks, normalising is ASCII lower-casing. */
  lemma {:induction false} NormalizeIsLower(s: string)
    requires forall i :: 0 <= i < |s| ==> !IsCombiningMark(s[i])
    ensures Normalize(s) == Lower(s)
    decreases |s|
  {
    if |s| > 0 {
      NormalizeIsLower(s[1..]);
      assert s == [s[0]] + s[1..];
      LowerAppend([s[0]], s[1..]);
    }
  }

  /** A combining mark anywhere in the text is dropped, and nothing else
      changes. */
  lemma NormalizeDropsMark(a: string, c: char, b: string)
    requires IsCombiningMark(c)
    ensures Normalize(a + [c] + b) == Normalize(a + b)
  {
    var x := a + [c];
    NormalizeAppend(x, b);
    NormalizeAppend(a, [c]);
    NormalizeAppend(a, b);
    NormalizeMark(c);
    assert Normalize(x) == Normalize(a);
  }

  /** A lone combining mark normalises to nothing. */
  lemma NormalizeMark(c: char)
    requires IsCombiningMark(c)
    ensures Normalize([c]) == []
  {
    assert [c][1..] == [];
  }

  /** Normalising twice is the same as normalising once. */
  lemma NormalizeIdempotent(s: string)
    ensures Normalize(Normalize(s)) == Normalize(s)
  {
    NormalizeFixesNormalized(Normalize(s));
  }
}

=== FILE: Paging.dfy ===
/** Page arithmetic of api/ask.js: the page count and the page slice, with
    JavaScript's `Array.prototype.slice` clamping. */
module Paging {

  function Min(a: int, b: int): int {
    if a <= b then a else b
  }

  function Max(a: int, b: int): int {
    if a >= b then a else b
  }

  /** `a * b`, written as repeated addition so that the facts about pages
      below stay linear. */
  function Times(a: nat, b: nat): nat {
    if a == 0 then 0 else Times(a - 1, b) + b
  }

  lemma {:induction false} TimesIsProduct(a: nat, b: nat)
    ensures Times(a, b) == a * b
  {
    if a > 0 {
      TimesIsProduct(a - 1, b);
    }
  }

  lemma {:induction false} TimesMono(a: nat, a': nat, b: nat)
    requires a <= a'
    ensures Times(a, b) <= Times(a', b)
    decreases a'
  {
    if a < a' {
      TimesMono(a, a' - 1, b);
    }
  }

  /** `Math.ceil(a / b)` on non-negative integers: the least `r` with
      `r * b >= a`. */
  function CeilDiv(a: nat, b: nat): (r: nat)
    requires b > 0
    ensures Times(r, b) >= a
    ensures r > 0 ==> Times(r - 1, b) < a
  {
    var r := (a + b - 1) / b;
    TimesIsProduct(r, b);
    assert r * b >= a by {
      assert (a + b - 1) == r * b + (a + b - 1) % b;
    }
    assert r > 0 ==> Times(r - 1, b) < a by {
      if r > 0 {
        TimesIsProduct(r - 1, b);
        assert (a + b - 1) == r * b + (a + b - 1) % b;
        assert (r - 1) * b == r * b - b;
      }
    }
    r
  }

  /** `Math.max(1, Math.ceil(total / limit))`: at least one page, enough
      pages to hold every item, and no page beyond the first that would be
      empty. */
  function PageCount(total: nat, limit: nat): (r: nat)
    requires limit > 0
    ensures r >= 1
    ensures Times(r, limit) >= total
    ensures r > 1 ==> Times(r - 1, limit) < total
  {
    Max(1, CeilDiv(total, limit))
  }

  /** `xs.slice(start, end)` for non-negative `start` and `end`: the items
      at indices `start` up to but excluding `end` that exist. */
  function Slice<T>(xs: seq<T>, start: nat, end: nat): (r: seq<T>)
    ensures |r| == Max(0, Min(end, |xs|) - start)
    ensures forall k :: 0 <= k < |r| ==> r[k] == xs[start + k]
  {
    if start >= |xs| || end <= start then []
    else xs[start..Min(end, |xs|)]
  }

  /** The index of the first item of page `page`: `(page - 1) * limit`. */
  function PageStart(page: nat, limit: nat): nat
    requires page >= 1
  {
    Times(page - 1, limit)
  }

  /** The items of page `page` (counted from 1) when every page holds
      `limit` items: `xs.slice((page - 1) * limit, page * limit)`. It never
      holds more than `limit` items, it is empty exactly when the page lies
      beyond the last one (or there are no items), and it is the run of
      consecutive items that starts at the page's first index. */
  function PageOf<T>(xs: seq<T>, page: nat, limit: nat): (r: seq<T>)
    requires page >= 1 && limit >= 1
    ensures |r| <= limit
    ensures |r| == Max(0, Min(limit, |xs| - PageStart(page, limit)))
    ensures |r| > 0 ==> PageStart(page, limit) + |r| <= |xs|
    ensures forall k :: 0 <= k < |r| ==> r[k] == xs[PageStart(page, limit) + k]
    ensures r == [] <==> page > PageCount(|xs|, limit) || |xs| == 0
  {
    var start := PageStart(page, limit);
    var n := PageCount(|xs|, limit);
    if page > n then
      TimesMono(n, page - 1, limit);
      Slice(xs, start, start + limit)
    else if |xs| > 0 && n > 1 then
      TimesMono(page - 1, n - 1, limit);
      Slice(xs, start, start + limit)
    else
      Slice(xs, start, start + limit)
  }

  /** Pages 1 to `n`, one after the other. */
  function AllPages<T>(xs: seq<T>, limit: nat, n: nat): seq<T>
    requires limit >= 1
  {
    if n == 0 then [] else AllPages(xs, limit, n - 1) + PageOf(xs, n, limit)
  }

  /** The first `n` pages together are the first `n * limit` items. */
  lemma {:induction false} AllPagesPrefix<T>(xs: seq<T>, limit: nat, n: nat)
    requires limit >= 1
    ensures AllPages(xs, limit, n) == xs[..Min(Times(n, limit), |xs|)]
  {
    if n > 0 {
      AllPagesPrefix(xs, limit, n - 1);
      var start := Times(n - 1, limit);
      var p := PageOf(xs, n, limit);
      if start < |xs| {
        assert xs[..Min(Times(n, limit), |xs|)] == xs[..start] + p;
      }
    }
  }

  /** Pages 1 to `PageCount` together reproduce every item exactly once
      and in order. */
  lemma PagesReproduce<T>(xs: seq<T>, limit: nat)
    requires limit >= 1
    ensures AllPages(xs, limit, PageCount(|xs|, limit)) == xs
  {
    AllPagesPrefix(xs, limit, PageCount(|xs|, limit));
  }
}

=== FILE: Ranking.dfy ===
/** The ranking step of api/ask.js: score every indexed document against
    the normalised query, drop the documents that score zero, keep the first
    hit for every URL, and sort by score, highest first, with a stable sort. */
module Ranking {
  import opened Wrappers
  import opened Text
  import opened Normalization

  /** One document of the in-memory index the query handler reads. */
  datatype Doc = Doc(
    title: string,
    url: string,
    text: Option<string>,
    image: Option<string>,
    price: Option<string>)

  /** A document together with its score: the `{ d, score }` records. */
  datatype Hit = Hit(doc: Doc, score: nat)

  const TitleWeight: nat := 3
  const TextWeight: nat := 1

  predicate TitleMatches(nq: string, d: Doc) {
    Contains(Normalize(d.title), nq)
  }

  /** A missing text is scored as the empty string. */
  predicate TextMatches(nq: string, d: Doc) {
    Contains(Normalize(d.text.GetOr("")), nq)
  }

  /** The score of `d` for the normalised query `nq`: the title weight
      exactly when the normalised title contains the query, plus the text
      weight exactly when the normalised text contains it. Only 0, 1, 3 and
      4 can occur. */
  function Score(nq: string, d: Doc): (r: nat)
    ensures r == 0 || r == 1 || r == 3 || r == 4
    ensures r >= TitleWeight <==> TitleMatches(nq, d)
    ensures r % 3 == TextWeight <==> TextMatches(nq, d)
  {
    (if TitleMatches(nq, d) then TitleWeight else 0)
    + (if TextMatches(nq, d) then TextWeight else 0)
  }

  function HitOf(nq: string, d: Doc): Hit {
    Hit(d, Score(nq, d))
  }

  /** A hit whose score is the one `Score` gives its document, and positive. */
  predicate Scored(nq: string, h: Hit) {
    h.score > 0 && h == HitOf(nq, h.doc)
  }

  // ---------------------------------------------------------------------
  // Scoring and filtering

  /** `idx.map(score).filter((s) => s.score > 0)`: the positively scoring
      documents, as hits, in index order. */
  function Positive(nq: string, idx: seq<Doc>): (r: seq<Hit>)
    ensures forall h :: h in r ==> Scored(nq, h)
    decreases |idx|
  {
    if |idx| == 0 then []
    else
      var d := idx[|idx| - 1];
      Positive(nq, idx[..|idx| - 1]) + (if Score(nq, d) > 0 then [HitOf(nq, d)] else [])
  }

  /** The URLs of the documents of `idx` that `keep` accepts. */
  function UrlsWhere(keep: Doc -> bool, idx: seq<Doc>): set<string>
    decreases |idx|
  {
    if |idx| == 0 then {}
    else
      var d := idx[|idx| - 1];
      UrlsWhere(keep, idx[..|idx| - 1]) + (if keep(d) then {d.url} else {})
  }

  lemma {:induction false} UrlsWhereSound(keep: Doc -> bool, idx: seq<Doc>, u: string)
    requires u in UrlsWhere(keep, idx)
    ensures exists j :: 0 <= j < |idx| && keep(idx[j]) && idx[j].url == u
    decreases |idx|
  {
    var n := |idx| - 1;
    var p := idx[..n];
    if u in UrlsWhere(keep, p) {
      UrlsWhereSound(keep, p, u);
      var j :| 0 <= j < |p| && keep(p[j]) && p[j].url == u;
      assert idx[j] == p[j];
    }
  }

  lemma {:induction false} UrlsWhereComplete(keep: Doc -> bool, idx: seq<Doc>, j: int)
    requires 0 <= j < |idx| && keep(idx[j])
    ensures idx[j].url in UrlsWhere(keep, idx)
    decreases |idx|
  {
    var n := |idx| - 1;
    var p := idx[..n];
    if j < n {
      assert p[j] == idx[j];
      UrlsWhereComplete(keep, p, j);
    }
  }

  /** The URLs of the documents of `idx` that score above zero. */
  function PositiveUrls(nq: string, idx: seq<Doc>): set<string> {
    UrlsWhere((d: Doc) => Score(nq, d) > 0, idx)
  }

  lemma PositiveUrlsSound(nq: string, idx: seq<Doc>, u: string)
    requires u in PositiveUrls(nq, idx)
    ensures exists j :: 0 <= j < |idx| && Score(nq, idx[j]) > 0 && idx[j].url == u
  {
    UrlsWhereSound((d: Doc) => Score(nq, d) > 0, idx, u);
  }

  lemma PositiveUrlsComplete(nq: string, idx: seq<Doc>, j: int)
    requires 0 <= j < |idx| && Score(nq, idx[j]) > 0
    ensures idx[j].url in PositiveUrls(nq, idx)
  {
    UrlsWhereComplete((d: Doc) => Score(nq, d) > 0, idx, j);
  }

  /** Adding a document adds its URL when it scores above zero. */
  lemma PositiveUrlsSnoc(nq: string, idx: seq<Doc>)
    requires |idx| > 0
    ensures var d := idx[|idx| - 1];
      PositiveUrls(nq, idx) == PositiveUrls(nq, idx[..|idx| - 1]) + (if Score(nq, d) > 0 then {d.url} else {})
  {
  }

  // ---------------------------------------------------------------------
  // Deduplication by URL

  /** The accumulator of the source's `reduce`: the URLs seen so far and
      the hits kept so far. */
  datatype Seen = Seen(urls: set<string>, kept: seq<Hit>)

  /** One step of the `reduce`: keep `h` unless its URL was seen. */
  function Keep(acc: Seen, h: Hit): Seen {
    if h.doc.url in acc.urls then acc
    else Seen(acc.urls + {h.doc.url}, acc.kept + [h])
  }

  /** The `reduce` itself, left to right. */
  function FoldKeep(acc: Seen, hs: seq<Hit>): Seen
    decreases |hs|
  {
    if |hs| == 0 then acc else FoldKeep(Keep(acc, hs[0]), hs[1..])
  }

  lemma {:induction false} FoldKeepSnoc(acc: Seen, hs: seq<Hit>, h: Hit)
    ensures FoldKeep(acc, hs + [h]) == Keep(FoldKeep(acc, hs), h)
    decreases |hs|
  {
    if |hs| == 0 {
      assert hs + [h] == [h];
      assert [h][1..] == [];
    } else {
      assert (hs + [h])[1..] == hs[1..] + [h];
      FoldKeepSnoc(Keep(acc, hs[0]), hs[1..], h);
    }
  }

  /** Index `i` of `idx` scores above zero and no earlier document with the
      same URL does: it is the first matching occurrence of its URL. */
  predicate FirstMatchAt(nq: string, idx: seq<Doc>, i: int)
    requires 0 <= i < |idx|
  {
    && Score(nq, idx[i]) > 0
    && forall j :: 0 <= j < i && idx[j].url == idx[i].url ==> Score(nq, idx[j]) == 0
  }

  /** Reference definition of the deduplicated list: the hits of the first
      matching occurrence of every URL, in index order. */
  function Firsts(nq: string, idx: seq<Doc>): seq<Hit>
    decreases |idx|
  {
    if |idx| == 0 then []
    else
      Firsts(nq, idx[..|idx| - 1])
      + (if FirstMatchAt(nq, idx, |idx| - 1) then [HitOf(nq, idx[|idx| - 1])] else [])
  }

  lemma FirstMatchAtLast(nq: string, idx: seq<Doc>)
    requires |idx| > 0
    ensures var d := idx[|idx| - 1];
      FirstMatchAt(nq, idx, |idx| - 1)
      <==> Score(nq, d) > 0 && d.url !in PositiveUrls(nq, idx[..|idx| - 1])
  {
    var n := |idx| - 1;
    var p := idx[..n];
    if idx[n].url in PositiveUrls(nq, p) {
      PositiveUrlsSound(nq, p, idx[n].url);
      var j :| 0 <= j < |p| && Score(nq, p[j]) > 0 && p[j].url == idx[n].url;
      assert idx[j] == p[j];
    } else if Score(nq, idx[n]) > 0 {
      forall j | 0 <= j < n && idx[j].url == idx[n].url
        ensures Score(nq, idx[j]) == 0
      {
        assert idx[j] == p[j];
        if Score(nq, p[j]) > 0 {
          PositiveUrlsComplete(nq, p, j);
        }
      }
    }
  }

  /** The source's `reduce` over the positively scoring hits ends with
      exactly the positive URLs seen and exactly the reference list kept. */
  lemma {:induction false} FoldKeepPositive(nq: string, idx: seq<Doc>)
    ensures FoldKeep(Seen({}, []), Positive(nq, idx)) == Seen(PositiveUrls(nq, idx), Firsts(nq, idx))
    decreases |idx|
  {
    if |idx| == 0 {
      assert PositiveUrls(nq, idx) == {};
    } else {
      var n := |idx| - 1;
      var p := idx[..n];
      var d := idx[n];
      FoldKeepPositive(nq, p);
      FirstMatchAtLast(nq, idx);
      PositiveUrlsSnoc(nq, idx);
      if Score(nq, d) > 0 {
        FoldKeepSnoc(Seen({}, []), Positive(nq, p), HitOf(nq, d));
      } else {
        assert Positive(nq, idx) == Positive(nq, p);
      }
    }
  }

  /** The deduplication of the source: the first hit of every URL. */
  function DedupByUrl(hs: seq<Hit>): seq<Hit> {
    FoldKeep(Seen({}, []), hs).kept
  }

  // ---------------------------------------------------------------------
  // Facts about the reference list

  /** The URLs of a list of hits. */
  function Urls(hs: seq<Hit>): set<string> {
    set h | h in hs :: h.doc.url
  }

  /** No two hits of `hs` share a URL. */
  predicate DistinctUrls(hs: seq<Hit>) {
    forall a, b :: 0 <= a < b < |hs| ==> hs[a].doc.url != hs[b].doc.url
  }

  lemma DistinctUrlsCons(h: Hit, hs: seq<Hit>)
    ensures DistinctUrls([h] + hs) <==> h.doc.url !in Urls(hs) && DistinctUrls(hs)
  {
    if DistinctUrls([h] + hs) {
      DistinctUrlsConsFwd(h, hs);
    }
    if h.doc.url !in Urls(hs) && DistinctUrls(hs) {
      DistinctUrlsConsBack(h, hs);
    }
  }

  lemma DistinctUrlsConsFwd(h: Hit, hs: seq<Hit>)
    requires DistinctUrls([h] + hs)
    ensures h.doc.url !in Urls(hs) && DistinctUrls(hs)
  {
    var s := [h] + hs;
    forall a, b | 0 <= a < b < |hs| ensures hs[a].doc.url != hs[b].doc.url {
      assert s[a + 1] == hs[a] && s[b + 1] == hs[b];
    }
    forall g | g in hs ensures g.doc.url != h.doc.url {
      var b :| 0 <= b < |hs| && hs[b] == g;
      assert s[b + 1] == g && s[0] == h;
    }
  }

  lemma DistinctUrlsConsBack(h: Hit, hs: seq<Hit>)
    requires h.doc.url !in Urls(hs) && DistinctUrls(hs)
    ensures DistinctUrls([h] + hs)
  {
    var s := [h] + hs;
    forall a, b | 0 <= a < b < |s| ensures s[a].doc.url != s[b].doc.url {
      var g := s[b];
      assert g == hs[b - 1];
      assert g in hs;
      assert g.doc.url in Urls(hs);
      if a > 0 {
        assert s[a] == hs[a - 1];
      }
    }
  }

  lemma DistinctUrlsSnoc(hs: seq<Hit>, h: Hit)
    requires DistinctUrls(hs) && h.doc.url !in Urls(hs)
    ensures DistinctUrls(hs + [h])
  {
    var s := hs + [h];
    forall a, b | 0 <= a < b < |s| ensures s[a].doc.url != s[b].doc.url {
      assert s[a] == hs[a] && s[a] in hs;
      if b < |hs| {
        assert s[b] == hs[b];
      }
    }
  }

  lemma UrlsSnoc(hs: seq<Hit>, h: Hit)
    ensures Urls(hs + [h]) == Urls(hs) + {h.doc.url}
  {
    forall u ensures u in Urls(hs + [h]) <==> u in Urls(hs) || u == h.doc.url {
      if u in Urls(hs + [h]) {
        var g :| g in hs + [h] && g.doc.url == u;
      }
      if u in Urls(hs) {
        var g :| g in hs && g.doc.url == u;
        assert g in hs + [h];
      }
      assert h in hs + [h];
    }
  }

  /** The kept URLs are exactly the URLs of the positively scoring
      documents, and no two kept hits share a URL. */
  lemma {:induction false} FirstsUrls(nq: string, idx: seq<Doc>)
    ensures Urls(Firsts(nq, idx)) == PositiveUrls(nq, idx)
    ensures DistinctUrls(Firsts(nq, idx))
    decreases |idx|
  {
    if |idx| == 0 {
      assert PositiveUrls(nq, idx) == {};
      assert Urls([]) == {};
    } else {
      var n := |idx| - 1;
      var p := idx[..n];
      var d := idx[n];
      FirstsUrls(nq, p);
      FirstMatchAtLast(nq, idx);
      PositiveUrlsSnoc(nq, idx);
      if FirstMatchAt(nq, idx, n) {
        UrlsSnoc(Firsts(nq, p), HitOf(nq, d));
        DistinctUrlsSnoc(Firsts(nq, p), HitOf(nq, d));
      } else {
        assert Firsts(nq, idx) == Firsts(nq, p);
      }
    }
  }

  /** Whether an index is the first matching occurrence of its URL does
      not depend on the documents after it. */
  lemma FirstMatchAtPrefix(nq: string, idx: seq<Doc>, k: int, i: int)
    requires 0 <= i < k <= |idx|
    ensures FirstMatchAt(nq, idx[..k], i) <==> FirstMatchAt(nq, idx, i)
  {
    assert forall j :: 0 <= j <= i ==> idx[..k][j] == idx[j];
  }

  /** Every kept hit is the hit of the first matching occurrence of its URL. */
  lemma {:induction false} FirstsSound(nq: string, idx: seq<Doc>, h: Hit)
    requires h in Firsts(nq, idx)
    ensures exists i :: 0 <= i < |idx| && FirstMatchAt(nq, idx, i) && h == HitOf(nq, idx[i])
    decreases |idx|
  {
    var n := |idx| - 1;
    var p := idx[..n];
    if h in Firsts(nq, p) {
      FirstsSound(nq, p, h);
      var i :| 0 <= i < |p| && FirstMatchAt(nq, p, i) && h == HitOf(nq, p[i]);
      FirstMatchAtPrefix(nq, idx, n, i);
      assert p[i] == idx[i];
    } else {
      assert FirstMatchAt(nq, idx, n) && h == HitOf(nq, idx[n]);
    }
  }

  /** The first matching occurrence of every URL is kept. */
  lemma {:induction false} FirstsComplete(nq: string, idx: seq<Doc>, i: int)
    requires 0 <= i < |idx| && FirstMatchAt(nq, idx, i)
    ensures HitOf(nq, idx[i]) in Firsts(nq, idx)
    decreases |idx|, 1
  {
    if i < |idx| - 1 {
      FirstsCompleteEarlier(nq, idx, i);
    } else {
      FirstsLast(nq, idx);
    }
  }

  /** The case of `FirstsComplete` for a document before the last. */
  lemma {:induction false} FirstsCompleteEarlier(nq: string, idx: seq<Doc>, i: int)
    requires 0 <= i < |idx| - 1 && FirstMatchAt(nq, idx, i)
    ensures HitOf(nq, idx[i]) in Firsts(nq, idx)
    decreases |idx|, 0
  {
    var n := |idx| - 1;
    FirstMatchAtPrefix(nq, idx, n, i);
    FirstsComplete(nq, idx[..n], i);
    FirstsKeepEarlier(nq, idx, i);
  }

  /** A hit kept from the list without its last document stays kept. */
  lemma FirstsKeepEarlier(nq: string, idx: seq<Doc>, i: int)
    requires 0 <= i < |idx| - 1
    requires HitOf(nq, idx[..|idx| - 1][i]) in Firsts(nq, idx[..|idx| - 1])
    ensures HitOf(nq, idx[i]) in Firsts(nq, idx)
  {
    assert idx[..|idx| - 1][i] == idx[i];
    FirstsGrow(nq, idx, HitOf(nq, idx[i]));
  }

  lemma FirstsGrow(nq: string, idx: seq<Doc>, h: Hit)
    requires |idx| > 0 && h in Firsts(nq, idx[..|idx| - 1])
    ensures h in Firsts(nq, idx)
  {
  }

  lemma FirstsLast(nq: string, idx: seq<Doc>)
    requires |idx| > 0 && FirstMatchAt(nq, idx, |idx| - 1)
    ensures HitOf(nq, idx[|idx| - 1]) in Firsts(nq, idx)
  {
  }

  // ---------------------------------------------------------------------
  // Stable sort by score, highest first

  /** Non-increasing by score. */
  predicate SortedDesc(hs: seq<Hit>) {
    forall a, b :: 0 <= a < b < |hs| ==> hs[a].score >= hs[b].score
  }

  /** The hits of `hs` with score `s`, in their order in `hs`. */
  function WithScore(hs: seq<Hit>, s: nat): seq<Hit>
    decreases |hs|
  {
    if |hs| == 0 then []
    else (if hs[0].score == s then [hs[0]] else []) + WithScore(hs[1..], s)
  }

  lemma SortedCons(x: Hit, xs: seq<Hit>)
    requires SortedDesc(xs)
    requires forall k :: 0 <= k < |xs| ==> xs[k].score <= x.score
    ensures SortedDesc([x] + xs)
  {
    var s := [x] + xs;
    forall a, b | 0 <= a < b < |s| ensures s[a].score >= s[b].score {
      assert s[b] == xs[b - 1];
      if a > 0 {
        assert s[a] == xs[a - 1];
      }
    }
  }

  /** Two permutations of each other share every bound on scores. */
  lemma ScoresBounded(a: seq<Hit>, b: seq<Hit>, m: nat)
    requires multiset(a) == multiset(b)
    requires forall k :: 0 <= k < |b| ==> b[k].score <= m
    ensures forall k :: 0 <= k < |a| ==> a[k].score <= m
  {
    forall k | 0 <= k < |a| ensures a[k].score <= m {
      assert a[k] in multiset(a);
      assert a[k] in b;
    }
  }

  /** Insert `h` in front of the first hit that does not outscore it: `h`
      stays ahead of every hit with its own score. */
  function Insert(h: Hit, hs: seq<Hit>): seq<Hit>
    decreases |hs|
  {
    if |hs| == 0 || h.score >= hs[0].score then [h] + hs
    else [hs[0]] + Insert(h, hs[1..])
  }

  /** Inserting adds `h` to the hits and loses none. */
  lemma {:induction false} InsertPerm(h: Hit, hs: seq<Hit>)
    ensures multiset(Insert(h, hs)) == multiset([h] + hs)
    decreases |hs|
  {
    if |hs| > 0 && h.score < hs[0].score {
      var tail := hs[1..];
      InsertPerm(h, tail);
      assert Insert(h, hs) == [hs[0]] + Insert(h, tail);
      assert hs == [hs[0]] + tail;
      calc {
        multiset([hs[0]] + Insert(h, tail));
        multiset([hs[0]]) + multiset(Insert(h, tail));
        multiset([hs[0]]) + multiset([h]) + multiset(tail);
        multiset([h]) + multiset([hs[0]] + tail);
      }
    }
  }

  /** The hits after the first of a sorted list are sorted and score no
      more than the first. */
  lemma SortedTail(hs: seq<Hit>)
    requires SortedDesc(hs) && |hs| > 0
    ensures SortedDesc(hs[1..])
    ensures forall k :: 0 <= k < |hs[1..]| ==> hs[1..][k].score <= hs[0].score
  {
    var tail := hs[1..];
    assert forall k :: 0 <= k < |tail| ==> tail[k] == hs[k + 1];
  }

  /** Inserting into a sorted list keeps it sorted. */
  lemma {:induction false} InsertSorted(h: Hit, hs: seq<Hit>)
    requires SortedDesc(hs)
    ensures SortedDesc(Insert(h, hs))
    decreases |hs|
  {
    if |hs| == 0 || h.score >= hs[0].score {
      SortedCons(h, hs);
    } else {
      var tail := hs[1..];
      SortedTail(hs);
      InsertSorted(h, tail);
      InsertPerm(h, tail);
      var rest := Insert(h, tail);
      assert forall k :: 0 <= k < |[h] + tail| ==> ([h] + tail)[k].score <= hs[0].score by {
        forall k | 0 <= k < |[h] + tail| ensures ([h] + tail)[k].score <= hs[0].score {
          if k > 0 {
            assert ([h] + tail)[k] == tail[k - 1];
          }
        }
      }
      ScoresBounded(rest, [h] + tail, hs[0].score);
      SortedCons(hs[0], rest);
    }
  }

  /** Inserting `h` adds it in front of the hits with its score and
      changes nothing for the other scores. */
  lemma {:induction false} InsertWithScore(h: Hit, hs: seq<Hit>, s: nat)
    ensures WithScore(Insert(h, hs), s) == (if h.score == s then [h] else []) + WithScore(hs, s)
    decreases |hs|
  {
    var r := Insert(h, hs);
    var mine: seq<Hit> := if h.score == s then [h] else [];
    if |hs| == 0 || h.score >= hs[0].score {
      assert r == [h] + hs;
      WithScoreCons(h, hs, s);
    } else {
      var rest := Insert(h, hs[1..]);
      var first: seq<Hit> := if hs[0].score == s then [hs[0]] else [];
      assert r == [hs[0]] + rest;
      WithScoreCons(hs[0], rest, s);
      WithScoreCons(hs[0], hs[1..], s);
      assert hs == [hs[0]] + hs[1..];
      InsertWithScore(h, hs[1..], s);
      assert first == [] || mine == [];
    }
  }

  lemma WithScoreCons(x: Hit, xs: seq<Hit>, s: nat)
    ensures WithScore([x] + xs, s) == (if x.score == s then [x] else []) + WithScore(xs, s)
  {
    assert ([x] + xs)[1..] == xs;
  }

  /** `arr.sort((a, b) => b.score - a.score)`: a stable sort, highest score
      first. The result is a permutation of the input, non-increasing by
      score, and keeps the relative order of hits with equal scores; it
      also keeps URLs distinct when they were. */
  function SortByScore(hs: seq<Hit>): (r: seq<Hit>)
    ensures SortedDesc(r)
    ensures multiset(r) == multiset(hs)
    ensures forall s :: WithScore(r, s) == WithScore(hs, s)
    ensures DistinctUrls(hs) ==> DistinctUrls(r)
    decreases |hs|
  {
    if |hs| == 0 then []
    else
      var rest := SortByScore(hs[1..]);
      SortStep(hs, rest);
      Insert(hs[0], rest)
  }

  /** Inserting the first hit into a sorted arrangement of the others
      sorts the whole list. */
  lemma SortStep(hs: seq<Hit>, rest: seq<Hit>)
    requires |hs| > 0
    requires SortedDesc(rest)
    requires multiset(rest) == multiset(hs[1..])
    requires forall s :: WithScore(rest, s) == WithScore(hs[1..], s)
    requires DistinctUrls(hs[1..]) ==> DistinctUrls(rest)
    ensures SortedDesc(Insert(hs[0], rest))
    ensures multiset(Insert(hs[0], rest)) == multiset(hs)
    ensures forall s :: WithScore(Insert(hs[0], rest), s) == WithScore(hs, s)
    ensures DistinctUrls(hs) ==> DistinctUrls(Insert(hs[0], rest))
  {
    var r := Insert(hs[0], rest);
    assert hs == [hs[0]] + hs[1..];
    InsertSorted(hs[0], rest);
    InsertPerm(hs[0], rest);
    forall s ensures WithScore(r, s) == WithScore(hs, s) {
      InsertWithScore(hs[0], rest, s);
      WithScoreCons(hs[0], hs[1..], s);
    }
    if DistinctUrls(hs) {
      DistinctUrlsCons(hs[0], hs[1..]);
      MultisetUrls(rest, hs[1..]);
      DistinctUrlsCons(hs[0], rest);
      InsertDistinct(hs[0], rest);
    }
  }

  lemma MultisetUrls(a: seq<Hit>, b: seq<Hit>)
    requires multiset(a) == multiset(b)
    ensures Urls(a) == Urls(b)
  {
    forall u ensures u in Urls(a) ==> u in Urls(b) {
      if u in Urls(a) {
        var g :| g in a && g.doc.url == u;
        assert g in multiset(a);
      }
    }
    forall u ensures u in Urls(b) ==> u in Urls(a) {
      if u in Urls(b) {
        var g :| g in b && g.doc.url == u;
        assert g in multiset(b);
      }
    }
  }

  lemma {:induction false} InsertDistinct(h: Hit, hs: seq<Hit>)
    requires DistinctUrls([h] + hs)
    ensures DistinctUrls(Insert(h, hs))
    decreases |hs|
  {
    if |hs| == 0 || h.score >= hs[0].score {
    } else {
      assert hs == [hs[0]] + hs[1..];
      DistinctUrlsCons(h, hs);
      DistinctUrlsCons(hs[0], hs[1..]);
      DistinctUrlsCons(h, hs[1..]);
      InsertDistinct(h, hs[1..]);
      var rest := Insert(h, hs[1..]);
      InsertPerm(h, hs[1..]);
      MultisetUrls(rest, [h] + hs[1..]);
      assert Insert(h, hs) == [hs[0]] + rest;
      UrlsCons(h, hs[1..]);
      DistinctUrlsCons(hs[0], rest);
    }
  }

  lemma UrlsCons(h: Hit, hs: seq<Hit>)
    ensures Urls([h] + hs) == {h.doc.url} + Urls(hs)
  {
    forall u ensures u in Urls([h] + hs) <==> u == h.doc.url || u in Urls(hs) {
      if u in Urls([h] + hs) {
        var g :| g in [h] + hs && g.doc.url == u;
      }
      if u in Urls(hs) {
        var g :| g in hs && g.doc.url == u;
        assert g in [h] + hs;
      }
      assert h in [h] + hs;
    }
  }

  // ---------------------------------------------------------------------
  // The whole ranking

  /** The ranked hits for the normalised query `nq`: every hit is a
      positively scored document of the index (score 1, 3 or 4), no two
      share a URL, and the list is sorted by score, highest first. */
  function Rank(nq: string, idx: seq<Doc>): (r: seq<Hit>)
    ensures forall h :: h in r ==> Scored(nq, h) && h.doc in idx
    ensures forall h :: h in r ==> h.score == 1 || h.score == 3 || h.score == 4
    ensures DistinctUrls(r)
    ensures SortedDesc(r)
  {
    RankIsStableSortOfFirsts(nq, idx);
    var r := SortByScore(DedupByUrl(Positive(nq, idx)));
    forall h | h in r ensures Scored(nq, h) && h.doc in idx {
      assert h in multiset(r);
      FirstsSound(nq, idx, h);
    }
    r
  }

  /** The ranking is the reference list of first matching occurrences,
      reordered by a stable sort: the same hits, the URLs of exactly the
      positively scoring documents, and for every score the hits with that
      score in index order. */
  lemma RankIsStableSortOfFirsts(nq: string, idx: seq<Doc>)
    ensures var r := SortByScore(DedupByUrl(Positive(nq, idx)));
      && multiset(r) == multiset(Firsts(nq, idx))
      && Urls(r) == PositiveUrls(nq, idx)
      && DistinctUrls(r)
      && (forall s :: WithScore(r, s) == WithScore(Firsts(nq, idx), s))
  {
    FoldKeepPositive(nq, idx);
    FirstsUrls(nq, idx);
    var kept := DedupByUrl(Positive(nq, idx));
    var r := SortByScore(kept);
    MultisetUrls(r, kept);
  }
}

=== FILE: Reindex.dfy ===
/** The crawler of api/reindex.js: it reads the sitemap index, keeps the
    sitemaps worth reading, gathers their page URLs, keeps the ones that
    may be product pages up to a cap, and turns every page that has a
    title into a document `{ title, url, group }`. The web is a parameter:
    `fetch` maps a URL to the body it serves or to the error the fetch
    throws. */
module Reindex {
  import opened Wrappers
  import opened Text
  import opened Paging
  import opened Sitemap
  import opened Entities
  import opened Titles
  import opened Classify

  // ---------------------------------------------------------------------
  // Constants

  const Site: string := "https://www.electrominds.com.co"
  const SitemapIndexUrl: string := Site + "/sitemap.xml"
  const WaNumber: string := "573203440092"

  /** The contact link stored with the index: the WhatsApp number and the
      percent-encoded greeting "Hola Electrominds, necesito asesor" followed
      by a smiling face. */
  const ContactUrl: string :=
    "https://wa.me/" + WaNumber + "?text="
    + "Hola%20Electrominds%2C%20necesito%20asesor%20%F0%9F%98%8A"

  const DefaultMax: int := 120
  const LeastMax: int := 20
  const MostMax: int := 200

  /** How many documents the response shows. */
  const SampleSize: nat := 3

  // ---------------------------------------------------------------------
  // The `max` parameter

  /** The `max` query parameter as `Number(param || 120)` reads it: absent
      or empty, a number, or text that is not a number. */
  datatype MaxParam = Absent | Numeric(value: int) | NotANumber

  /** `Math.max(20, Math.min(200, Number(param || 120)))`, with `None` for
      the `NaN` both `Math` functions return once they see one. */
  function ClampMax(p: MaxParam): (r: Option<int>)
    ensures r.None? <==> p.NotANumber?
    ensures r.Some? ==> LeastMax <= r.value <= MostMax
    ensures p.Absent? ==> r == Some(DefaultMax)
    ensures p.Numeric? && LeastMax <= p.value <= MostMax ==> r == Some(p.value)
    ensures p.Numeric? && p.value < LeastMax ==> r == Some(LeastMax)
    ensures p.Numeric? && p.value > MostMax ==> r == Some(MostMax)
  {
    match p
    case Absent => Some(Max(LeastMax, Min(MostMax, DefaultMax)))
    case Numeric(v) => Some(Max(LeastMax, Min(MostMax, v)))
    case NotANumber => None
  }

  /** `if (urls.length > max) urls = urls.slice(0, max)`: a prefix of at
      most `max` URLs. A `NaN` bound never compares smaller, so nothing is
      cut. */
  function Cap(urls: seq<string>, max: Option<int>): (r: seq<string>)
    requires max.Some? ==> max.value >= 0
    ensures r <= urls
    ensures max.None? ==> r == urls
    ensures max.Some? ==> |r| == Min(|urls|, max.value)
  {
    if max.Some? && |urls| > max.value then urls[..max.value] else urls
  }

  // ---------------------------------------------------------------------
  // URLs

  /** Step 1: the sitemaps the index lists that are worth reading. */
  function SitemapsOf(root: string): (r: seq<string>)
    ensures forall u :: u in r <==> u in ExtractLocs(root) && IsSitemapUrl(u)
  {
    Filter(IsSitemapUrl, ExtractLocs(root))
  }

  /** The `http` URLs a sitemap lists, if it can be fetched. */
  function PageUrls(fetch: string -> Result<string>, sm: string): (r: seq<string>)
    ensures forall u :: u in r <==> fetch(sm).Ok? && u in ExtractLocs(fetch(sm).value) && IsHttpUrl(u)
  {
    match fetch(sm)
    case Err(_) => []
    case Ok(xml) => Filter(IsHttpUrl, ExtractLocs(xml))
  }

  /** Step 2: the page URLs of every sitemap, in order; a sitemap that
      cannot be fetched adds nothing. */
  function GatherUrls(fetch: string -> Result<string>, maps: seq<string>): (r: seq<string>)
    ensures forall k :: 0 <= k < |r| ==> IsHttpUrl(r[k])
    decreases |maps|
  {
    if |maps| == 0 then [] else PageUrls(fetch, maps[0]) + GatherUrls(fetch, maps[1..])
  }

  /** The URLs of a list of sitemaps are those of its first part followed
      by those of the rest, so the URLs come sitemap by sitemap, in the
      order the index lists the sitemaps. */
  lemma {:induction false} GatherUrlsAppend(fetch: string -> Result<string>, a: seq<string>, b: seq<string>)
    ensures GatherUrls(fetch, a + b) == GatherUrls(fetch, a) + GatherUrls(fetch, b)
    decreases |a|
  {
    if |a| == 0 {
      assert a + b == b;
    } else {
      assert (a + b)[0] == a[0];
      assert (a + b)[1..] == a[1..] + b;
      GatherUrlsAppend(fetch, a[1..], b);
    }
  }

  /** A single sitemap contributes exactly its own `http` URLs. */
  lemma GatherUrlsOne(fetch: string -> Result<string>, m: string)
    ensures GatherUrls(fetch, [m]) == PageUrls(fetch, m)
  {
    assert [m][1..] == [];
  }

  /** A URL is gathered exactly when a listed sitemap can be fetched and
      lists it, and it starts with `http`. */
  lemma {:induction false} GatherUrlsExact(fetch: string -> Result<string>, maps: seq<string>, u: string)
    ensures u in GatherUrls(fetch, maps) <==>
              exists k :: 0 <= k < |maps| && u in PageUrls(fetch, maps[k])
    decreases |maps|
  {
    if |maps| > 0 {
      GatherUrlsExact(fetch, maps[1..], u);
      if u in GatherUrls(fetch, maps[1..]) {
        var k :| 0 <= k < |maps[1..]| && u in PageUrls(fetch, maps[1..][k]);
        assert u in PageUrls(fetch, maps[k + 1]);
      }
      if exists k :: 0 <= k < |maps| && u in PageUrls(fetch, maps[k]) {
        var k :| 0 <= k < |maps| && u in PageUrls(fetch, maps[k]);
        if k > 0 {
          assert maps[1..][k - 1] == maps[k];
        }
      }
    }
  }

  /** Steps 1 to 3 of the crawl: the URLs it visits. */
  function TakenUrls(fetch: string -> Result<string>, maps: seq<string>, max: Option<int>): (r: seq<string>)
    requires max.Some? ==> max.value >= 0
  {
    Cap(Filter(IsProductUrl, GatherUrls(fetch, maps)), max)
  }

  // ---------------------------------------------------------------------
  // Documents

  /** What the crawler stores per page. */
  datatype Doc = Doc(title: string, url: string, group: string)

  /** One pass of the worker loop on `url`: the document it adds, or none
      when the page cannot be fetched or has no title. The title is trimmed
      and the group comes from the untrimmed title. */
  function DocFor(fetch: string -> Result<string>, url: string): (r: Option<Doc>)
    ensures r.Some? ==> r.value.url == url && IsTrimmed(r.value.title) && r.value.group in Groups
    ensures r.Some? <==> fetch(url).Ok? && PickTitle(fetch(url).value).Some?
    ensures r.Some? ==> var title := PickTitle(fetch(url).value).value;
      r.value.title == Trim(title) && r.value.group == ClassifyGroup(title, url)
  {
    match fetch(url)
    case Err(_) => None
    case Ok(html) =>
      match PickTitle(html)
      case None => None
      case Some(title) =>
        if |title| == 0 then None
        else Some(Doc(Trim(title), url, ClassifyGroup(title, url)))
  }

  /** The worker loop over `urls`, one URL after the other. */
  function BuildDocs(fetch: string -> Result<string>, urls: seq<string>): (docs: seq<Doc>)
    ensures |docs| <= |urls|
    decreases |urls|
  {
    if |urls| == 0 then []
    else
      match DocFor(fetch, urls[0])
      case None => BuildDocs(fetch, urls[1..])
      case Some(d) => [d] + BuildDocs(fetch, urls[1..])
  }

  /** A document is built exactly when its URL is visited and the worker
      makes that document of it. Whatever order the four workers finish in,
      the documents are these. */
  lemma {:induction false} BuildDocsExact(fetch: string -> Result<string>, urls: seq<string>, d: Doc)
    ensures d in BuildDocs(fetch, urls) <==> d.url in urls && DocFor(fetch, d.url) == Some(d)
    decreases |urls|
  {
    if |urls| > 0 {
      BuildDocsExact(fetch, urls[1..], d);
      assert d.url in urls <==> d.url == urls[0] || d.url in urls[1..] by {
        assert urls == [urls[0]] + urls[1..];
      }
      match DocFor(fetch, urls[0])
      case None =>
        assert BuildDocs(fetch, urls) == BuildDocs(fetch, urls[1..]);
      case Some(e) =>
        assert BuildDocs(fetch, urls) == [e] + BuildDocs(fetch, urls[1..]);
        assert e.url == urls[0];
    }
  }

  /** The URLs whose page can be fetched and has a title. */
  function TitledUrls(fetch: string -> Result<string>, urls: seq<string>): seq<string> {
    Filter(u => DocFor(fetch, u).Some?, urls)
  }

  /** One document per taken URL whose page has a title, counted with
      repetition: a URL taken twice gives two documents. */
  lemma {:induction false} BuildDocsLength(fetch: string -> Result<string>, urls: seq<string>)
    ensures |BuildDocs(fetch, urls)| == |TitledUrls(fetch, urls)|
    decreases |urls|
  {
    if |urls| > 0 {
      BuildDocsLength(fetch, urls[1..]);
    }
  }

  /** Each document is stored as many times as its URL is taken, when the
      worker makes that document of it, and never otherwise. */
  lemma {:induction false} BuildDocsCount(fetch: string -> Result<string>, urls: seq<string>, d: Doc)
    ensures multiset(BuildDocs(fetch, urls))[d]
            == if DocFor(fetch, d.url) == Some(d) then multiset(urls)[d.url] else 0
    decreases |urls|
  {
    if |urls| > 0 {
      var u := urls[0];
      var rest := urls[1..];
      BuildDocsCount(fetch, rest, d);
      assert urls == [u] + rest;
      CountCons(u, rest, d.url);
      match DocFor(fetch, u)
      case None =>
        assert BuildDocs(fetch, urls) == BuildDocs(fetch, rest);
        assert u == d.url ==> DocFor(fetch, d.url) != Some(d);
      case Some(e) =>
        assert BuildDocs(fetch, urls) == [e] + BuildDocs(fetch, rest);
        CountCons(e, BuildDocs(fetch, rest), d);
        DocForHead(fetch, u, e, d);
    }
  }

  /** How often `y` occurs in a list headed by `x`. */
  lemma CountCons<T>(x: T, xs: seq<T>, y: T)
    ensures multiset([x] + xs)[y] == (if x == y then 1 else 0) + multiset(xs)[y]
  {
    assert multiset([x] + xs) == multiset{x} + multiset(xs);
  }

  /** The document made of `u` is `d` exactly when `u` is the URL of `d`
      and the worker makes `d` of it. */
  lemma DocForHead(fetch: string -> Result<string>, u: string, e: Doc, d: Doc)
    requires DocFor(fetch, u) == Some(e)
    ensures e == d <==> u == d.url && DocFor(fetch, d.url) == Some(d)
  {
  }

  // ---------------------------------------------------------------------
  // The index and the handler

  /** `{ count, sitemapCount, taken }`. */
  datatype Stats = Stats(count: nat, sitemapCount: nat, taken: nat)

  /** What the crawl stores for the search handler. */
  datatype StoredIndex = StoredIndex(docs: seq<Doc>, updatedAt: int, contactUrl: string)

  datatype Built = Built(stats: Stats, index: StoredIndex)

  /** `buildIndex({ max })` at time `now`: a failure when the sitemap index
      cannot be fetched, else the statistics and the stored index. */
  function BuildIndex(fetch: string -> Result<string>, max: Option<int>, now: int): (r: Result<Built>)
    requires max.Some? ==> max.value >= 0
    ensures r.Err? <==> fetch(SitemapIndexUrl).Err?
    ensures r.Err? ==> r.message == fetch(SitemapIndexUrl).message
    ensures r.Ok? ==> r.value.stats.count == |r.value.index.docs| <= r.value.stats.taken
    ensures r.Ok? && max.Some? ==> r.value.stats.taken <= max.value
    ensures r.Ok? ==> r.value.index.updatedAt == now && r.value.index.contactUrl == ContactUrl
    ensures r.Ok? ==>
      var maps := SitemapsOf(fetch(SitemapIndexUrl).value);
      var urls := TakenUrls(fetch, maps, max);
      && r.value.stats.count == |TitledUrls(fetch, urls)|
      && r.value.stats.sitemapCount == |maps|
      && r.value.stats.taken == |urls|
  {
    match fetch(SitemapIndexUrl)
    case Err(e) => Err(e)
    case Ok(root) =>
      var maps := SitemapsOf(root);
      var urls := TakenUrls(fetch, maps, max);
      var docs := BuildDocs(fetch, urls);
      BuildDocsLength(fetch, urls);
      Ok(Built(Stats(|docs|, |maps|, |urls|), StoredIndex(docs, now, ContactUrl)))
  }

  /** A request: its HTTP method and its `max` parameter. */
  datatype Request = Request(httpMethod: string, max: MaxParam)

  /** The responses: the empty 200 to a preflight, the 200 report of a
      crawl, and the 500 of a failed one. */
  datatype Response =
    | Preflight
    | Indexed(count: nat, sitemapCount: nat, taken: nat, sample: seq<Doc>, updatedAt: int)
    | Failed(error: string)

  function Status(r: Response): int {
    if r.Failed? then 500 else 200
  }

  /** `String(e.message || e)`: the message, or the fallback text `Error`
      when the message is empty. */
  function ErrorText(message: string): (r: string)
    ensures |r| > 0
    ensures |message| > 0 ==> r == message
  {
    if |message| > 0 then message else "Error"
  }

  /** `handler(req, res)` at time `now`. */
  function Handle(fetch: string -> Result<string>, now: int, req: Request): (r: Response)
    ensures r.Preflight? <==> req.httpMethod == "OPTIONS"
    ensures r.Failed? <==> req.httpMethod != "OPTIONS" && fetch(SitemapIndexUrl).Err?
    ensures r.Indexed? ==> |r.sample| <= SampleSize && r.count <= r.taken && r.updatedAt == now
    ensures r.Indexed? && !req.max.NotANumber? ==> r.taken <= MostMax
    ensures r.Indexed? ==>
      var b := BuildIndex(fetch, ClampMax(req.max), now);
      && b.Ok?
      && r.count == b.value.stats.count
      && r.sitemapCount == b.value.stats.sitemapCount
      && r.taken == b.value.stats.taken
      && r.sample <= b.value.index.docs
      && |r.sample| == Min(SampleSize, |b.value.index.docs|)
  {
    if req.httpMethod == "OPTIONS" then Preflight
    else
      var max := ClampMax(req.max);
      match BuildIndex(fetch, max, now)
      case Err(e) => Failed(ErrorText(e))
      case Ok(b) =>
        var docs := b.index.docs;
        Indexed(b.stats.count, b.stats.sitemapCount, b.stats.taken,
                docs[..Min(SampleSize, |docs|)], b.index.updatedAt)
  }

  // ---------------------------------------------------------------------
  // Properties of a crawl

  /** Every stored document comes from a visited URL: a page URL listed by
      a sitemap of the index, starting with `http`, passing the product
      filter. Its page was fetched and has a title; the document holds that
      title trimmed and the group of the untrimmed title, one of the six. */
  lemma DocsSound(fetch: string -> Result<string>, max: Option<int>, now: int, d: Doc)
    requires max.Some? ==> max.value >= 0
    requires BuildIndex(fetch, max, now).Ok?
    requires d in BuildIndex(fetch, max, now).value.index.docs
    ensures var maps := SitemapsOf(fetch(SitemapIndexUrl).value);
      && d.url in TakenUrls(fetch, maps, max)
      && IsHttpUrl(d.url) && IsProductUrl(d.url)
      && (exists k :: 0 <= k < |maps| && d.url in PageUrls(fetch, maps[k]))
      && IsTrimmed(d.title) && d.group in Groups
    ensures fetch(d.url).Ok? && PickTitle(fetch(d.url).value).Some?
    ensures var title := PickTitle(fetch(d.url).value).value;
      d.title == Trim(title) && d.group == ClassifyGroup(title, d.url)
  {
    var maps := SitemapsOf(fetch(SitemapIndexUrl).value);
    var gathered := GatherUrls(fetch, maps);
    var urls := TakenUrls(fetch, maps, max);
    BuildDocsExact(fetch, urls, d);
    assert d.url in Filter(IsProductUrl, gathered);
    GatherUrlsExact(fetch, maps, d.url);
  }

  /** Every visited URL whose page can be fetched and has a title gives a
      stored document. */
  lemma DocsComplete(fetch: string -> Result<string>, max: Option<int>, now: int, url: string)
    requires max.Some? ==> max.value >= 0
    requires BuildIndex(fetch, max, now).Ok?
    requires url in TakenUrls(fetch, SitemapsOf(fetch(SitemapIndexUrl).value), max)
    requires fetch(url).Ok? && PickTitle(fetch(url).value).Some?
    ensures DocFor(fetch, url).Some? && DocFor(fetch, url).value in BuildIndex(fetch, max, now).value.index.docs
  {
    var urls := TakenUrls(fetch, SitemapsOf(fetch(SitemapIndexUrl).value), max);
    BuildDocsExact(fetch, urls, DocFor(fetch, url).value);
  }

  /** With a numeric or absent `max`, the crawl visits as many product URLs
      as it found, up to the clamped bound, and so never more than 200. */
  lemma TakenIsCapped(fetch: string -> Result<string>, p: MaxParam, now: int)
    requires !p.NotANumber?
    requires BuildIndex(fetch, ClampMax(p), now).Ok?
    ensures var found := Filter(IsProductUrl, GatherUrls(fetch, SitemapsOf(fetch(SitemapIndexUrl).value)));
      BuildIndex(fetch, ClampMax(p), now).value.stats.taken == Min(|found|, ClampMax(p).value)
    ensures BuildIndex(fetch, ClampMax(p), now).value.stats.taken <= MostMax
  {
  }

  /** A page whose title is only whitespace is stored with an empty title,
      grouped by the untrimmed title. */
  lemma BlankTitleStoredEmpty(fetch: string -> Result<string>, url: string, title: string)
    requires fetch(url).Ok? && PickTitle(fetch(url).value) == Some(title)
    requires AllWhitespace(title)
    ensures DocFor(fetch, url) == Some(Doc("", url, ClassifyGroup(title, url)))
  {
    assert |title| > 0;
  }

  /** A sitemap index written as `<loc>` entries, each a sitemap URL that
      fits in an element, is read back entry for entry: the crawl reports
      that many sitemaps. */
  lemma SitemapCountOfIndex(fetch: string -> Result<string>, max: Option<int>, now: int,
                            maps: seq<string>, sep: string)
    requires max.Some? ==> max.value >= 0
    requires forall k :: 0 <= k < |maps| ==> Embeddable(maps[k]) && IsSitemapUrl(maps[k])
    requires PlainText(sep) && fetch(SitemapIndexUrl) == Ok(RenderLocs(maps, sep))
    ensures BuildIndex(fetch, max, now).Ok?
    ensures BuildIndex(fetch, max, now).value.stats.sitemapCount == |maps|
  {
    ExtractRenderRoundTrip(maps, sep);
    FilterKeepsAll(IsSitemapUrl, maps);
  }
}

=== FILE: Sitemap.dfy ===
/** The sitemap side of api/reindex.js: pulling the `<loc>` entries out of a
    sitemap document, and the URL filters the crawler applies to them. */
module Sitemap {
  import opened Wrappers
  import opened Text

  // ---------------------------------------------------------------------
  // Filtering

  /** `xs.filter(f)`: the elements of `xs` that satisfy `f`, in their
      order. */
  function Filter(f: string -> bool, xs: seq<string>): (r: seq<string>)
    ensures |r| <= |xs|
    ensures forall k :: 0 <= k < |r| ==> f(r[k])
    ensures forall x :: x in r <==> x in xs && f(x)
  {
    if |xs| == 0 then []
    else (if f(xs[0]) then [xs[0]] else []) + Filter(f, xs[1..])
  }

  /** Filtering distributes over concatenation. */
  lemma {:induction false} FilterAppend(f: string -> bool, a: seq<string>, b: seq<string>)
    ensures Filter(f, a + b) == Filter(f, a) + Filter(f, b)
    decreases |a|
  {
    if |a| == 0 {
      assert a + b == b;
    } else {
      assert (a + b)[1..] == a[1..] + b;
      FilterAppend(f, a[1..], b);
    }
  }

  /** A list every element of which passes the filter comes through it
      unchanged. */
  lemma {:induction false} FilterKeepsAll(f: string -> bool, xs: seq<string>)
    requires forall k :: 0 <= k < |xs| ==> f(xs[k])
    ensures Filter(f, xs) == xs
    decreases |xs|
  {
    if |xs| > 0 {
      var tail := xs[1..];
      assert forall k :: 0 <= k < |tail| ==> tail[k] == xs[k + 1];
      FilterKeepsAll(f, tail);
      assert f(xs[0]);
      assert xs == [xs[0]] + tail;
    }
  }

  // ---------------------------------------------------------------------
  // <loc> entries

  const LocOpen: string := "<loc>"
  const LocClose: string := "</loc>"

  /** Where `/<loc>(.*?)<\/loc>/` matches at index 0 of `s`: the length of
      the captured content. The lazy `.*?` stops at the first `</loc>`
      after the opening tag, and `.` does not match a line terminator, so
      a line terminator before that `</loc>` means no match here. */
  function LocAt(s: string): (r: Option<nat>)
    ensures r.Some? ==> StartsWith(s, LocOpen)
    ensures r.Some? ==> |LocOpen| + r.value + |LocClose| <= |s|
    ensures r.Some? ==> OccursAt(s[|LocOpen|..], LocClose, r.value)
    ensures r.Some? ==> forall j :: 0 <= j < r.value ==> !OccursAt(s[|LocOpen|..], LocClose, j)
    ensures r.Some? ==> NoLineTerminator(s[|LocOpen|..|LocOpen| + r.value])
    ensures StartsWith(s, LocOpen) && Find(s[|LocOpen|..], LocClose).Some?
            && NoLineTerminator(s[|LocOpen|..|LocOpen| + Find(s[|LocOpen|..], LocClose).value])
            ==> r.Some?
  {
    if !StartsWith(s, LocOpen) then None
    else
      match Find(s[|LocOpen|..], LocClose)
      case None => None
      case Some(j) =>
        if NoLineTerminator(s[|LocOpen|..|LocOpen| + j]) then Some(j) else None
  }

  /** Trimming a string without line terminators leaves none. */
  lemma TrimNoLineTerminator(s: string)
    requires NoLineTerminator(s)
    ensures NoLineTerminator(Trim(s))
  {
    var r := Trim(s);
    var i :| 0 <= i <= |s| - |r| && r == s[i..i + |r|]
             && AllWhitespace(s[..i]) && AllWhitespace(s[i + |r|..]);
    forall m | 0 <= m < |r| ensures !IsLineTerminator(r[m]) {
      assert r[m] == s[i + m];
    }
  }

  /** `extractLocs(xml)`: the trimmed contents of the `<loc>` elements of
      `xml`, scanning left to right and resuming after each match. Every
      entry is trimmed and lies on one line. */
  function ExtractLocs(s: string): (r: seq<string>)
    ensures forall k :: 0 <= k < |r| ==> IsTrimmed(r[k]) && NoLineTerminator(r[k])
    decreases |s|
  {
    if |s| == 0 then []
    else
      match LocAt(s)
      case Some(n) =>
        var content := s[|LocOpen|..|LocOpen| + n];
        TrimNoLineTerminator(content);
        [Trim(content)] + ExtractLocs(s[|LocOpen| + n + |LocClose|..])
      case None => ExtractLocs(s[1..])
  }

  /** Text without a `<` holds no element, so the scan skips over it. */
  lemma {:induction false} ExtractSkipsText(p: string, rest: string)
    requires forall i :: 0 <= i < |p| ==> p[i] != '<'
    ensures ExtractLocs(p + rest) == ExtractLocs(rest)
    decreases |p|
  {
    if |p| == 0 {
      assert p + rest == rest;
    } else {
      var s := p + rest;
      assert s[0] == p[0];
      assert LocAt(s).None? by {
        assert !StartsWith(s, LocOpen) by {
          if |LocOpen| <= |s| {
            assert s[..|LocOpen|][0] != LocOpen[0];
          }
        }
      }
      assert ExtractLocs(s) == ExtractLocs(s[1..]);
      assert s[1..] == p[1..] + rest;
      ExtractSkipsText(p[1..], rest);
    }
  }

  /** A document without the opening tag yields no entry. */
  lemma {:induction false} ExtractWithoutOpenTag(s: string)
    requires forall j :: !OccursAt(s, LocOpen, j)
    ensures ExtractLocs(s) == []
    decreases |s|
  {
    if |s| > 0 {
      assert !OccursAt(s, LocOpen, 0);
      assert LocAt(s).None?;
      OccursInSuffix(s, LocOpen, 1);
      ExtractWithoutOpenTag(s[1..]);
    }
  }

  /** A URL that can be written inside a `<loc>` element and read back:
      trimmed, on one line, and without the closing tag. */
  predicate Embeddable(u: string) {
    IsTrimmed(u) && NoLineTerminator(u) && !Contains(u, LocClose)
  }

  /** A `<loc>` element for `u`. */
  function LocElement(u: string): string {
    LocOpen + u + LocClose
  }

  /** Text without `<`, as written between the elements of a sitemap. */
  predicate PlainText(sep: string) {
    forall i :: 0 <= i < |sep| ==> sep[i] != '<'
  }

  /** A sitemap body listing `urls`, each element followed by `sep`: a line
      break, indentation, or nothing when the elements are written back to
      back. */
  function RenderLocs(urls: seq<string>, sep: string): string {
    if |urls| == 0 then [] else LocElement(urls[0]) + sep + RenderLocs(urls[1..], sep)
  }

  /** The closing tag has no proper prefix that is also a suffix, so after
      a body without it the first `</loc>` is the one that follows. */
  lemma FindCloseAfter(u: string, rest: string)
    requires !Contains(u, LocClose)
    ensures Find(u + LocClose + rest, LocClose) == Some(|u|)
  {
    var s := u + LocClose + rest;
    assert s[|u|..|u| + |LocClose|] == LocClose;
    assert OccursAt(s, LocClose, |u|);
    forall j | 0 <= j < |u| ensures !OccursAt(s, LocClose, j) {
      if j + |LocClose| <= |u| {
        assert s[j..j + |LocClose|] == u[j..j + |LocClose|];
        assert !OccursAt(u, LocClose, j);
      } else {
        assert s[j..j + |LocClose|][|u| - j] == '<';
        assert LocClose[|u| - j] != '<';
      }
    }
  }

  /** One element followed by the rest of the document reads as its URL
      followed by the entries of the rest. */
  lemma ExtractElement(u: string, rest: string)
    requires Embeddable(u)
    ensures ExtractLocs(LocElement(u) + rest) == [u] + ExtractLocs(rest)
  {
    var s := LocElement(u) + rest;
    assert s[|LocOpen|..] == u + LocClose + rest;
    FindCloseAfter(u, rest);
    assert s[..|LocOpen|] == LocOpen;
    assert s[|LocOpen|..|LocOpen| + |u|] == u;
    assert LocAt(s) == Some(|u|);
    assert s[|LocOpen| + |u| + |LocClose|..] == rest;
  }

  /** The first element of a sitemap body reads back as its URL. */
  lemma ExtractFirstElement(u: string, more: seq<string>, sep: string)
    requires Embeddable(u) && PlainText(sep)
    ensures ExtractLocs(RenderLocs([u] + more, sep)) == [u] + ExtractLocs(RenderLocs(more, sep))
  {
    var tail := sep + RenderLocs(more, sep);
    assert ([u] + more)[1..] == more;
    assert RenderLocs([u] + more, sep) == LocElement(u) + tail;
    ExtractElement(u, tail);
    ExtractSkipsText(sep, RenderLocs(more, sep));
  }

  /** Reading back a sitemap body written from embeddable URLs, with text
      without `<` between the elements, gives those URLs, in order. */
  lemma {:induction false} ExtractRenderRoundTrip(urls: seq<string>, sep: string)
    requires forall k :: 0 <= k < |urls| ==> Embeddable(urls[k])
    requires PlainText(sep)
    ensures ExtractLocs(RenderLocs(urls, sep)) == urls
    decreases |urls|
  {
    if |urls| > 0 {
      var more := urls[1..];
      assert urls == [urls[0]] + more;
      ExtractFirstElement(urls[0], more, sep);
      assert forall k :: 0 <= k < |more| ==> more[k] == urls[k + 1];
      ExtractRenderRoundTrip(more, sep);
    }
  }

  /** In particular, elements written back to back, with nothing between
      them, read back as the list. */
  lemma ExtractConcatenatedLocs(urls: seq<string>)
    requires forall k :: 0 <= k < |urls| ==> Embeddable(urls[k])
    ensures ExtractLocs(RenderLocs(urls, "")) == urls
  {
    ExtractRenderRoundTrip(urls, "");
  }

  // ---------------------------------------------------------------------
  // URL filters

  const SitemapFile: string := "sitemap.xml"
  const ProductWord: string := "product"

  /** The alternatives of the regular expression that picks the sitemaps
      worth reading out of the sitemap index: `sitemap.xml`,
      `posts-sitemap.xml`, `pages-sitemap.xml`, `products-sitemap.xml`,
      `store`, `forum` and `pages`. */
  const SitemapPatterns: seq<string> :=
    [SitemapFile, "posts-" + SitemapFile, "pages-" + SitemapFile, "products-" + SitemapFile,
     "store", "forum", "pages"]

  /** The alternatives of the regular expression that keeps the page URLs
      that may be product pages: `product-page`, `store`, `product`,
      `pages`, `blog`, `post`, `forum` and `electrominds`. */
  const ProductPatterns: seq<string> :=
    [ProductWord + "-page", "store", ProductWord, "pages", "blog", "post", "forum", "electrominds"]

  /** `u` names a sitemap worth reading (case-insensitively). */
  predicate IsSitemapUrl(u: string) {
    ContainsAnyCI(u, SitemapPatterns)
  }

  /** `u` may be a product page (case-insensitively). */
  predicate IsProductUrl(u: string) {
    ContainsAnyCI(u, ProductPatterns)
  }

  /** `u.startsWith("http")`, case-sensitively. */
  predicate IsHttpUrl(u: string) {
    StartsWith(u, "http")
  }

  /** A string containing `a + b` contains `a` and contains `b`. */
  lemma ContainsParts(s: string, a: string, b: string)
    requires Contains(s, a + b)
    ensures Contains(s, a) && Contains(s, b)
  {
    var p := a + b;
    var k :| OccursAt(s, p, k);
    assert s[k..k + |a|] == s[k..k + |p|][..|a|];
    assert s[k + |a|..k + |p|] == s[k..k + |p|][|a|..];
    assert OccursAt(s, a, k);
    assert OccursAt(s, b, k + |a|);
  }

  /** `pats[k]` occurring in `s` is enough for some pattern to occur. */
  lemma ContainsOneOf(s: string, pats: seq<string>, k: nat)
    requires k < |pats| && Contains(s, pats[k])
    ensures ContainsAny(s, pats)
  {
  }

  /** The alternatives the sitemap filter needs: the three named sitemap
      files all end in `sitemap.xml`. */
  const SitemapCore: seq<string> := [SitemapFile, "store", "forum", "pages"]

  lemma SitemapFilterReducesFwd(l: string)
    requires ContainsAny(l, SitemapPatterns)
    ensures ContainsAny(l, SitemapCore)
  {
    var k :| 0 <= k < |SitemapPatterns| && Contains(l, SitemapPatterns[k]);
    if 1 <= k <= 3 {
      var prefix := if k == 1 then "posts-" else if k == 2 then "pages-" else "products-";
      assert SitemapPatterns[k] == prefix + SitemapFile;
      ContainsParts(l, prefix, SitemapFile);
      ContainsOneOf(l, SitemapCore, 0);
    } else {
      var j := if k == 0 then 0 else k - 3;
      assert SitemapPatterns[k] == SitemapCore[j];
      ContainsOneOf(l, SitemapCore, j);
    }
  }

  lemma SitemapFilterReducesBack(l: string)
    requires ContainsAny(l, SitemapCore)
    ensures ContainsAny(l, SitemapPatterns)
  {
    var k :| 0 <= k < |SitemapCore| && Contains(l, SitemapCore[k]);
    var j := if k == 0 then 0 else k + 3;
    assert SitemapCore[k] == SitemapPatterns[j];
    ContainsOneOf(l, SitemapPatterns, j);
  }

  /** The sitemap filter accepts exactly the URLs containing one of
      `sitemap.xml`, `store`, `forum` or `pages`, case-insensitively. */
  lemma SitemapFilterReduces(u: string)
    ensures IsSitemapUrl(u) <==> ContainsAnyCI(u, SitemapCore)
  {
    if IsSitemapUrl(u) {
      SitemapFilterReducesFwd(Lower(u));
    }
    if ContainsAnyCI(u, SitemapCore) {
      SitemapFilterReducesBack(Lower(u));
    }
  }

  /** The alternatives the product filter needs: `product-page` contains
      `product`. */
  const ProductCore: seq<string> := ["store", ProductWord, "pages", "blog", "post", "forum", "electrominds"]

  lemma ProductFilterReducesFwd(l: string)
    requires ContainsAny(l, ProductPatterns)
    ensures ContainsAny(l, ProductCore)
  {
    var k :| 0 <= k < |ProductPatterns| && Contains(l, ProductPatterns[k]);
    if k == 0 {
      ContainsParts(l, ProductWord, "-page");
      ContainsOneOf(l, ProductCore, 1);
    } else {
      assert ProductPatterns[k] == ProductCore[k - 1];
      ContainsOneOf(l, ProductCore, k - 1);
    }
  }

  lemma ProductFilterReducesBack(l: string)
    requires ContainsAny(l, ProductCore)
    ensures ContainsAny(l, ProductPatterns)
  {
    var k :| 0 <= k < |ProductCore| && Contains(l, ProductCore[k]);
    assert ProductCore[k] == ProductPatterns[k + 1];
    ContainsOneOf(l, ProductPatterns, k + 1);
  }

  /** The product filter accepts exactly the URLs containing `store`,
      `product`, `pages`, `blog`, `post`, `forum` or `electrominds`,
      case-insensitively: `product-page` adds nothing of its own. */
  lemma ProductFilterReduces(u: string)
    ensures IsProductUrl(u) <==> ContainsAnyCI(u, ProductCore)
  {
    if IsProductUrl(u) {
      ProductFilterReducesFwd(Lower(u));
    }
    if ContainsAnyCI(u, ProductCore) {
      ProductFilterReducesBack(Lower(u));
    }
  }
}

=== FILE: Text.dfy ===
/** The JavaScript string built-ins that both request handlers rely on,
    over `string` (a sequence of code points):
    `trim`, `includes`, `startsWith`, `toLowerCase` restricted to ASCII,
    `replace` with a global literal pattern, and the ASCII case-insensitive
    comparison that a regular expression with the `i` flag performs on an
    ASCII literal. */
module Text {
  import opened Wrappers

  // ---------------------------------------------------------------------
  // Whitespace

  /** The WhiteSpace and LineTerminator code points of ECMA-262: the
      characters `String.prototype.trim` removes and `\s` matches. */
  predicate IsWhitespace(c: char) {
    || c == '\t' || c == '\n' || c == '\U{000B}' || c == '\U{000C}' || c == '\r'
    || c == ' ' || c == '\U{00A0}' || c == '\U{1680}'
    || ('\U{2000}' <= c <= '\U{200A}')
    || c == '\U{2028}' || c == '\U{2029}' || c == '\U{202F}' || c == '\U{205F}'
    || c == '\U{3000}' || c == '\U{FEFF}'
  }

  /** The LineTerminator code points: those the regular-expression `.` does
      not match. */
  predicate IsLineTerminator(c: char) {
    c == '\n' || c == '\r' || c == '\U{2028}' || c == '\U{2029}'
  }

  predicate AllWhitespace(s: string) {
    forall i :: 0 <= i < |s| ==> IsWhitespace(s[i])
  }

  predicate NoLineTerminator(s: string) {
    forall i :: 0 <= i < |s| ==> !IsLineTerminator(s[i])
  }

  /** Neither end of `s` is whitespace. */
  predicate IsTrimmed(s: string) {
    |s| == 0 || (!IsWhitespace(s[0]) && !IsWhitespace(s[|s| - 1]))
  }

  /** The first index from `i` on that does not hold whitespace, or `|s|`. */
  function SkipLeading(s: string, i: nat): (n: nat)
    requires i <= |s|
    ensures i <= n <= |s|
    ensures forall k :: i <= k < n ==> IsWhitespace(s[k])
    ensures n < |s| ==> !IsWhitespace(s[n])
    decreases |s| - i
  {
    if i < |s| && IsWhitespace(s[i]) then SkipLeading(s, i + 1) else i
  }

  /** The end of `s[..j]` once its trailing whitespace is cut off. */
  function SkipTrailing(s: string, j: nat): (n: nat)
    requires j <= |s|
    ensures n <= j
    ensures forall k :: n <= k < j ==> IsWhitespace(s[k])
    ensures n > 0 ==> !IsWhitespace(s[n - 1])
    decreases j
  {
    if j > 0 && IsWhitespace(s[j - 1]) then SkipTrailing(s, j - 1) else j
  }

  /** Cutting trailing whitespace stops after any character that is not
      whitespace. */
  lemma {:induction false} TrailingStops(s: string, j: nat, k: nat)
    requires k < j <= |s| && !IsWhitespace(s[k])
    ensures k < SkipTrailing(s, j)
    decreases j
  {
    if IsWhitespace(s[j - 1]) {
      TrailingStops(s, j - 1, k);
    }
  }

  /** A slice that starts and ends with a character that is not
      whitespace is trimmed. */
  lemma TrimmedSlice(s: string, i: nat, j: nat)
    requires i < j <= |s| && !IsWhitespace(s[i]) && !IsWhitespace(s[j - 1])
    ensures IsTrimmed(s[i..j])
  {
    var r := s[i..j];
    assert r[0] == s[i];
    assert r[j - 1 - i] == s[j - 1];
  }

  /** A slice of whitespace characters is blank. */
  lemma BlankSlice(s: string, a: nat, b: nat)
    requires a <= b <= |s|
    requires forall k :: a <= k < b ==> IsWhitespace(s[k])
    ensures AllWhitespace(s[a..b])
  {
    forall m | 0 <= m < b - a ensures IsWhitespace(s[a..b][m]) {
      assert s[a..b][m] == s[a + m];
    }
  }

  /** A string with a character that is not whitespace is not blank. */
  lemma NotBlank(s: string, i: nat)
    requires i < |s| && !IsWhitespace(s[i])
    ensures !AllWhitespace(s)
  {
  }

  /** The characters of `s` between its leading and its trailing
      whitespace. */
  function Middle(s: string): string {
    var i := SkipLeading(s, 0);
    if i == |s| then [] else s[i..SkipTrailing(s, |s|)]
  }

  /** The middle of a string that is not blank runs from its first to its
      last character that is not whitespace. */
  lemma MiddleBounds(s: string)
    requires SkipLeading(s, 0) < |s|
    ensures SkipLeading(s, 0) < SkipTrailing(s, |s|)
    ensures Middle(s) == s[SkipLeading(s, 0)..SkipTrailing(s, |s|)]
  {
    TrailingStops(s, |s|, SkipLeading(s, 0));
  }

  lemma MiddleTrimmed(s: string)
    ensures IsTrimmed(Middle(s))
  {
    var i := SkipLeading(s, 0);
    if i < |s| {
      MiddleBounds(s);
      TrimmedSlice(s, i, SkipTrailing(s, |s|));
    }
  }

  /** Blank on both sides of `s[i..e]`. */
  lemma BlankAround(s: string, i: nat, e: nat)
    requires i <= e <= |s|
    requires forall k :: 0 <= k < i ==> IsWhitespace(s[k])
    requires forall k :: e <= k < |s| ==> IsWhitespace(s[k])
    ensures AllWhitespace(s[..i]) && AllWhitespace(s[e..])
  {
    BlankSlice(s, 0, i);
    BlankSlice(s, e, |s|);
    assert s[0..i] == s[..i];
    assert s[e..|s|] == s[e..];
  }

  lemma MiddleIsSlice(s: string)
    ensures exists i :: 0 <= i <= |s| - |Middle(s)| && Middle(s) == s[i..i + |Middle(s)|]
                        && AllWhitespace(s[..i]) && AllWhitespace(s[i + |Middle(s)|..])
  {
    var i := SkipLeading(s, 0);
    var e := if i == |s| then |s| else SkipTrailing(s, |s|);
    if i < |s| {
      MiddleBounds(s);
    }
    BlankAround(s, i, e);
    var m := Middle(s);
    assert m == s[i..e] && i + |m| == e;
    assert 0 <= i <= |s| - |m| && m == s[i..i + |m|] && AllWhitespace(s[..i]) && AllWhitespace(s[i + |m|..]);
  }

  lemma MiddleBlank(s: string)
    ensures Middle(s) == [] <==> AllWhitespace(s)
  {
    var i := SkipLeading(s, 0);
    if i == |s| {
      BlankSlice(s, 0, |s|);
      assert s[0..|s|] == s;
    } else {
      MiddleBounds(s);
      NotBlank(s, i);
    }
  }

  lemma MiddleOfTrimmed(s: string)
    ensures IsTrimmed(s) ==> Middle(s) == s
  {
    if IsTrimmed(s) && |s| > 0 {
      assert SkipLeading(s, 0) == 0;
      assert SkipTrailing(s, |s|) == |s|;
    }
  }

  /** `String.prototype.trim`: the result is the middle of `s` once a
      whitespace-only prefix and a whitespace-only suffix are removed, it
      has no whitespace at either end, it leaves trimmed strings alone, and
      it is empty exactly when `s` is blank. */
  function Trim(s: string): (r: string)
    ensures IsTrimmed(r)
    ensures |r| <= |s|
    ensures exists i :: 0 <= i <= |s| - |r| && r == s[i..i + |r|]
                        && AllWhitespace(s[..i]) && AllWhitespace(s[i + |r|..])
    ensures IsTrimmed(s) ==> r == s
    ensures r == [] <==> AllWhitespace(s)
  {
    MiddleTrimmed(s);
    MiddleIsSlice(s);
    MiddleBlank(s);
    MiddleOfTrimmed(s);
    Middle(s)
  }

  // ---------------------------------------------------------------------
  // Substrings

  /** `pat` occurs in `s` starting at index `k`. */
  predicate OccursAt(s: string, pat: string, k: int) {
    0 <= k && k + |pat| <= |s| && s[k..k + |pat|] == pat
  }

  /** `s.indexOf(pat)`: the first index at which `pat` occurs, or `None`
      when it occurs nowhere. */
  function Find(s: string, pat: string): (r: Option<nat>)
    ensures r.Some? ==> OccursAt(s, pat, r.value)
    ensures r.Some? ==> forall k :: 0 <= k < r.value ==> !OccursAt(s, pat, k)
    ensures r.None? ==> forall k :: !OccursAt(s, pat, k)
    decreases |s|
  {
    if |s| < |pat| then None
    else if s[..|pat|] == pat then Some(0)
    else
      var rest := Find(s[1..], pat);
      assert forall k :: 1 <= k ==> (OccursAt(s, pat, k) <==> OccursAt(s[1..], pat, k - 1)) by {
        forall k | 1 <= k
          ensures OccursAt(s, pat, k) <==> OccursAt(s[1..], pat, k - 1)
        {
          if k + |pat| <= |s| {
            assert s[1..][k - 1..k - 1 + |pat|] == s[k..k + |pat|];
          }
        }
      }
      match rest
      case Some(k) => Some(k + 1)
      case None => None
  }

  /** An occurrence in the suffix of `s` from index `i` is an occurrence
      in `s`, `i` places further on. */
  lemma OccursInSuffix(s: string, pat: string, i: nat)
    requires i <= |s|
    ensures forall j :: OccursAt(s[i..], pat, j) ==> OccursAt(s, pat, j + i)
  {
    forall j | OccursAt(s[i..], pat, j) ensures OccursAt(s, pat, j + i) {
      assert s[i..][j..j + |pat|] == s[j + i..j + i + |pat|];
    }
  }

  /** `s.includes(pat)`. */
  predicate Contains(s: string, pat: string)
    ensures Contains(s, pat) <==> exists k :: OccursAt(s, pat, k)
  {
    Find(s, pat).Some?
  }

  /** `s.startsWith(p)`. */
  predicate StartsWith(s: string, p: string) {
    |p| <= |s| && s[..|p|] == p
  }

  /** `s` includes at least one of `pats`. */
  predicate ContainsAny(s: string, pats: seq<string>) {
    exists k :: 0 <= k < |pats| && Contains(s, pats[k])
  }

  // ---------------------------------------------------------------------
  // ASCII case

  predicate IsUpperAscii(c: char) {
    'A' <= c <= 'Z'
  }

  function LowerChar(c: char): (r: char)
    ensures !IsUpperAscii(r)
    ensures !IsUpperAscii(c) ==> r == c
  {
    if IsUpperAscii(c) then (c as int + 32) as char else c
  }

  /** `toLowerCase` restricted to ASCII letters; every other code point is
      kept as it is. */
  function Lower(s: string): (r: string)
    ensures |r| == |s|
    ensures forall i :: 0 <= i < |r| ==> r[i] == LowerChar(s[i])
  {
    seq(|s|, i requires 0 <= i < |s| => LowerChar(s[i]))
  }

  lemma LowerAppend(a: string, b: string)
    ensures Lower(a + b) == Lower(a) + Lower(b)
  {
  }

  lemma LowerSlice(s: string, i: int, j: int)
    requires 0 <= i <= j <= |s|
    ensures Lower(s)[i..j] == Lower(s[i..j])
  {
  }

  /** The ASCII literal `lit` (written in lower case) occurs at index `k` of
      `s`, comparing ASCII letters case-insensitively. A regular expression
      with the `i` flag and without the `u` flag never folds a non-ASCII
      code point onto an ASCII one, so for an ASCII literal this is exactly
      its case-insensitive comparison. */
  predicate AtCI(s: string, k: int, lit: string) {
    0 <= k && k + |lit| <= |s| && Lower(s[k..k + |lit|]) == lit
  }

  /** `/lit1|lit2|…/i.test(s)` for ASCII literals written in lower case. */
  predicate ContainsAnyCI(s: string, lits: seq<string>) {
    ContainsAny(Lower(s), lits)
  }

  // ---------------------------------------------------------------------
  // Replacement

  /** `s.replace(/pat/g, rep)` for a literal `pat` and a replacement with no
      `$` patterns: matches are found left to right and do not overlap.
      A string in which `pat` does not occur comes back unchanged, a
      replacement no longer than the pattern never lengthens the string,
      and a non-empty replacement never empties a non-empty string. */
  function ReplaceAll(s: string, pat: string, rep: string): (r: string)
    requires |pat| > 0
    ensures !Contains(s, pat) ==> r == s
    ensures |rep| <= |pat| ==> |r| <= |s|
    ensures |rep| > 0 && |s| > 0 ==> |r| > 0
    decreases |s|
  {
    if |s| < |pat| then s
    else if s[..|pat|] == pat then rep + ReplaceAll(s[|pat|..], pat, rep)
    else
      assert !Contains(s, pat) ==> !Contains(s[1..], pat) by {
        if Contains(s[1..], pat) {
          var k :| OccursAt(s[1..], pat, k);
          assert s[1..][k..k + |pat|] == s[k + 1..k + 1 + |pat|];
          assert OccursAt(s, pat, k + 1);
        }
      }
      [s[0]] + ReplaceAll(s[1..], pat, rep)
  }

  /** A string that does not start with the pattern keeps its first
      character and goes on with the rest. */
  lemma ReplaceAllCons(s: string, pat: string, rep: string)
    requires |pat| > 0 && |s| > 0 && !StartsWith(s, pat)
    ensures ReplaceAll(s, pat, rep) == [s[0]] + ReplaceAll(s[1..], pat, rep)
  {
    if |s| < |pat| {
      assert s == [s[0]] + s[1..];
    }
  }

  /** A first character other than the pattern's rules out a match at the
      start. */
  lemma NotStartsWith(s: string, pat: string)
    requires |s| > 0 && |pat| > 0 && s[0] != pat[0]
    ensures !StartsWith(s, pat)
  {
    if |pat| <= |s| {
      assert s[..|pat|][0] == s[0];
    }
  }

  /** Splitting off the first character of the left operand of `+`. */
  lemma ConsAppend(y: string, t: string)
    requires |y| > 0
    ensures [y[0]] + (y[1..] + t) == y + t
  {
    assert y == [y[0]] + y[1..];
  }

  /** Putting back the first character of a prefix. */
  lemma ConsSlice(s: string, k: nat, after: string)
    requires 0 < k <= |s|
    ensures [s[0]] + (s[1..][..k - 1] + after) == s[..k] + after
  {
    assert s[1..][..k - 1] == s[..k][1..];
    ConsAppend(s[..k], after);
  }

  /** Text in which no occurrence of the pattern starts before `k` keeps
      its first `k` characters. */
  lemma {:induction false} ReplaceAllBefore(s: string, pat: string, rep: string, k: nat)
    requires |pat| > 0 && k <= |s|
    requires forall j :: 0 <= j < k ==> !StartsWith(s[j..], pat)
    ensures ReplaceAll(s, pat, rep) == s[..k] + ReplaceAll(s[k..], pat, rep)
    decreases k
  {
    if k == 0 {
      assert s[..0] + ReplaceAll(s[0..], pat, rep) == ReplaceAll(s, pat, rep) by {
        assert s[0..] == s;
      }
    } else {
      assert s[0..] == s;
      ReplaceAllCons(s, pat, rep);
      var t := s[1..];
      forall j | 0 <= j < k - 1 ensures !StartsWith(t[j..], pat) {
        assert t[j..] == s[j + 1..];
      }
      ReplaceAllBefore(t, pat, rep, k - 1);
      assert t[k - 1..] == s[k..];
      ConsSlice(s, k, ReplaceAll(s[k..], pat, rep));
    }
  }

  /** Where the pattern first occurs at `k`, the text before it is kept,
      the occurrence becomes the replacement, and the replacement goes on
      after the occurrence. */
  lemma ReplaceAllFind(s: string, pat: string, rep: string, k: nat)
    requires |pat| > 0 && Find(s, pat) == Some(k)
    ensures k + |pat| <= |s|
    ensures ReplaceAll(s, pat, rep) == s[..k] + (rep + ReplaceAll(s[k + |pat|..], pat, rep))
  {
    assert OccursAt(s, pat, k);
    forall j | 0 <= j < k ensures !StartsWith(s[j..], pat) {
      assert !OccursAt(s, pat, j);
      if |pat| <= |s[j..]| {
        assert s[j..][..|pat|] == s[j..j + |pat|];
      }
    }
    ReplaceAllBefore(s, pat, rep, k);
    ReplaceAllAt(s[k..], pat, rep);
    assert s[k..][|pat|..] == s[k + |pat|..];
  }

  /** Text that starts with the pattern begins with the replacement. */
  lemma ReplaceAllAt(s: string, pat: string, rep: string)
    requires |pat| > 0 && StartsWith(s, pat)
    ensures ReplaceAll(s, pat, rep) == rep + ReplaceAll(s[|pat|..], pat, rep)
  {
  }

  /** Text none of whose characters can start the pattern passes through
      the replacement unchanged. */
  lemma {:induction false} ReplaceAllPlain(y: string, x: string, pat: string, rep: string)
    requires |pat| > 0 && forall i :: 0 <= i < |y| ==> y[i] != pat[0]
    ensures ReplaceAll(y + x, pat, rep) == y + ReplaceAll(x, pat, rep)
    decreases |y|
  {
    if |y| == 0 {
      assert y + x == x;
    } else {
      var s := y + x;
      NotStartsWith(s, pat);
      ReplaceAllCons(s, pat, rep);
      assert s[1..] == y[1..] + x;
      ReplaceAllPlain(y[1..], x, pat, rep);
      ConsAppend(y, ReplaceAll(x, pat, rep));
    }
  }

  /** A word that does not start the text as the pattern does, and none of
      whose characters past the first can start the pattern, is kept. */
  lemma ReplaceAllSkipsWord(s: string, w: string, pat: string, rep: string)
    requires |pat| > 0 && |w| > 0 && StartsWith(s, w) && !StartsWith(s, pat)
    requires forall i :: 1 <= i < |w| ==> w[i] != pat[0]
    ensures ReplaceAll(s, pat, rep) == w + ReplaceAll(s[|w|..], pat, rep)
  {
    ReplaceAllCons(s, pat, rep);
    var y := w[1..];
    assert forall i :: 0 <= i < |y| ==> y[i] == w[i + 1];
    assert s[..|w|] == w;
    assert s[1..] == y + s[|w|..];
    ReplaceAllPlain(y, s[|w|..], pat, rep);
    assert s[0] == w[0];
    ConsAppend(w, ReplaceAll(s[|w|..], pat, rep));
  }

  /** `[c] + x` starts with a non-empty `y` exactly when `c` is its first
      character and `x` starts with the rest. */
  lemma StartsWithCons(c: char, x: string, y: string)
    requires |y| > 0
    ensures StartsWith([c] + x, y) <==> c == y[0] && StartsWith(x, y[1..])
  {
    var s := [c] + x;
    if StartsWith(s, y) {
      assert s[..|y|][0] == c;
      assert s[..|y|][1..] == x[..|y| - 1];
    }
    if c == y[0] && StartsWith(x, y[1..]) {
      assert s[..|y|] == [c] + x[..|y| - 1];
      assert y == [y[0]] + y[1..];
    }
  }

  /** A prefix that contains neither the first character of the pattern
      nor that of the replacement starts the text after the replacement
      exactly when it starts the text before it. */
  lemma {:induction false} ReplaceAllKeepsPrefix(t: string, y: string, pat: string, rep: string)
    requires |pat| > 0 && |rep| > 0
    requires forall i :: 0 <= i < |y| ==> y[i] != pat[0] && y[i] != rep[0]
    ensures StartsWith(ReplaceAll(t, pat, rep), y) <==> StartsWith(t, y)
    decreases |y|
  {
    if |y| > 0 && |t| > 0 {
      if StartsWith(t, pat) {
        var r := ReplaceAll(t, pat, rep);
        assert t[..|pat|] == pat;
        assert r == rep + ReplaceAll(t[|pat|..], pat, rep);
        assert r[0] == rep[0] && t[0] == pat[0];
        NotStartsWith(r, y);
        NotStartsWith(t, y);
      } else {
        ReplaceAllCons(t, pat, rep);
        ReplaceAllKeepsPrefix(t[1..], y[1..], pat, rep);
        StartsWithCons(t[0], ReplaceAll(t[1..], pat, rep), y);
        StartsWithCons(t[0], t[1..], y);
        assert t == [t[0]] + t[1..];
      }
    }
  }
}

=== FILE: Titles.dfy ===
/** The title extraction of api/reindex.js: the two case-insensitive
    regular expressions `pickTitle` tries in turn, written out as matchers
    at a position plus a search for the leftmost position where one
    matches. */
module Titles {
  import opened Wrappers
  import opened Text
  import opened Entities

  // ---------------------------------------------------------------------
  // Runs of characters

  predicate IsQuote(c: char) {
    c == '"' || c == '\''
  }

  /** The classes of characters the patterns repeat: `\s`, `[^"']` and
      `[^<]`. */
  datatype CharClass = Space | NonQuote | NonLt

  predicate InClass(cc: CharClass, c: char) {
    match cc
    case Space => IsWhitespace(c)
    case NonQuote => !IsQuote(c)
    case NonLt => c != '<'
  }

  /** The number of characters of class `cc` from index `i` on: what a
      greedy repetition consumes before it gives anything back. */
  function ClassRun(s: string, i: nat, cc: CharClass): (n: nat)
    requires i <= |s|
    ensures i + n <= |s|
    ensures forall m :: i <= m < i + n ==> InClass(cc, s[m])
    ensures i + n < |s| ==> !InClass(cc, s[i + n])
    decreases |s| - i
  {
    if i == |s| || !InClass(cc, s[i]) then 0 else 1 + ClassRun(s, i + 1, cc)
  }

  /** A run of `n` characters of class `cc` that ends at a character
      outside the class, or at the end of `s`, is the whole run. */
  lemma {:induction false} ClassRunIs(s: string, i: nat, cc: CharClass, n: nat)
    requires i + n <= |s|
    requires forall m :: i <= m < i + n ==> InClass(cc, s[m])
    requires i + n < |s| ==> !InClass(cc, s[i + n])
    ensures ClassRun(s, i, cc) == n
    decreases n
  {
    if n > 0 {
      ClassRunIs(s, i + 1, cc, n - 1);
    }
  }

  // ---------------------------------------------------------------------
  // The two patterns

  /** One element of a pattern: an ASCII literal (compared ignoring ASCII
      case), `\s+`, `["']`, or a captured `(c+)` of class `c`. */
  datatype Token = Lit(text: string) | Spaces | Quote | Group(cc: CharClass)

  /** `/<meta\s+property=["']og:title["']\s+content=["']([^"']+)["']/i` */
  const OgTitlePattern: seq<Token> := [
    Lit("<meta"), Spaces, Lit("property="), Quote, Lit("og:title"), Quote,
    Spaces, Lit("content="), Quote, Group(NonQuote), Quote
  ]

  /** `/<title>([^<]+)<\/title>/i` */
  const TitlePattern: seq<Token> := [Lit("<title>"), Group(NonLt), Lit("</title>")]

  /** `s` holds the lower-case literal `x` at index `i`, ignoring ASCII
      case, compared one character at a time. */
  predicate LitAt(s: string, i: nat, x: string)
    decreases |x|
  {
    i + |x| <= |s| && (|x| == 0 || (LowerChar(s[i]) == x[0] && LitAt(s, i + 1, x[1..])))
  }

  /** Comparing one character at a time is the case-insensitive literal
      comparison of the regular expressions. */
  lemma {:induction false} LitAtIsAtCI(s: string, i: nat, x: string)
    ensures LitAt(s, i, x) <==> AtCI(s, i, x)
    decreases |x|
  {
    if i + |x| <= |s| && |x| > 0 {
      LitAtIsAtCI(s, i + 1, x[1..]);
      var l := Lower(s[i..i + |x|]);
      assert l[0] == LowerChar(s[i]);
      assert l[1..] == Lower(s[i + 1..i + 1 + |x[1..]|]);
      if AtCI(s, i, x) {
        assert x[1..] == l[1..];
      }
      if LitAt(s, i, x) {
        assert l == [l[0]] + l[1..];
        assert x == [x[0]] + x[1..];
      }
    }
  }

  /** A captured group: `len` characters from index `start`. */
  datatype Span = Span(start: nat, len: nat)

  /** How many characters `tok` consumes at index `i`, if it matches there.
      Each repetition in the two patterns is followed by an element that
      cannot begin with a character it repeats, so giving characters back
      never leads to a match and the greedy run is the only candidate. */
  function TokenAt(tok: Token, s: string, i: nat): (r: Option<nat>)
    requires i <= |s|
    ensures r.Some? ==> i + r.value <= |s|
    ensures r.Some? && tok.Group? ==> r.value > 0
  {
    match tok
    case Lit(x) => if LitAt(s, i, x) then Some(|x|) else None
    case Quote => if i < |s| && IsQuote(s[i]) then Some(1) else None
    case Spaces =>
      var n := ClassRun(s, i, Space);
      if n == 0 then None else Some(n)
    case Group(cc) =>
      var n := ClassRun(s, i, cc);
      if n == 0 then None else Some(n)
  }

  /** Where a match of the remaining tokens ends, and the last group
      captured so far. */
  datatype Step = Step(end: nat, capture: Option<Span>)

  predicate ValidSpan(s: string, cap: Option<Span>) {
    cap.Some? ==> cap.value.len > 0 && cap.value.start + cap.value.len <= |s|
  }

  /** Matching the tokens `ts` one after the other from index `i`. */
  function MatchFrom(ts: seq<Token>, s: string, i: nat, cap: Option<Span>): (r: Option<Step>)
    requires i <= |s| && ValidSpan(s, cap)
    ensures r.Some? ==> i <= r.value.end <= |s| && ValidSpan(s, r.value.capture)
    decreases |ts|
  {
    if |ts| == 0 then Some(Step(i, cap))
    else
      match TokenAt(ts[0], s, i)
      case None => None
      case Some(n) =>
        MatchFrom(ts[1..], s, i + n, if ts[0].Group? then Some(Span(i, n)) else cap)
  }

  /** The span of the group when the pattern `ts` matches at index `k`. */
  function MatchAt(ts: seq<Token>, s: string, k: nat): (r: Option<Span>)
    ensures r.Some? ==> ValidSpan(s, r)
  {
    if k > |s| then None
    else
      match MatchFrom(ts, s, k, None)
      case Some(st) => st.capture
      case None => None
  }

  /** The leftmost index from `from` on where `ts` matches: what
      `String.prototype.match` with a non-global pattern reports. */
  function FirstMatch(ts: seq<Token>, s: string, from: nat): (r: Option<nat>)
    requires from <= |s|
    ensures r.Some? ==> from <= r.value <= |s| && MatchAt(ts, s, r.value).Some?
    ensures r.Some? ==> forall j :: from <= j < r.value ==> MatchAt(ts, s, j).None?
    ensures r.None? ==> forall j :: from <= j <= |s| ==> MatchAt(ts, s, j).None?
    decreases |s| - from
  {
    if MatchAt(ts, s, from).Some? then Some(from)
    else if from == |s| then None
    else FirstMatch(ts, s, from + 1)
  }

  /** The text of the group of the leftmost match of `ts`, if any; never
      empty. */
  function Capture(ts: seq<Token>, s: string): (r: Option<string>)
    ensures r.Some? ==> |r.value| > 0
  {
    match FirstMatch(ts, s, 0)
    case None => None
    case Some(k) =>
      var span := MatchAt(ts, s, k).value;
      Some(s[span.start..span.start + span.len])
  }

  /** `pickTitle(html)`: the decoded `og:title` content when the page has
      one, else the decoded `<title>` text, else nothing. A title found is
      never empty. */
  function PickTitle(html: string): (r: Option<string>)
    ensures r.Some? ==> |r.value| > 0
  {
    match Capture(OgTitlePattern, html)
    case Some(t) => Some(DecodeAsWritten(t))
    case None =>
      match Capture(TitlePattern, html)
      case Some(t) => Some(DecodeAsWritten(t))
      case None => None
  }

  // ---------------------------------------------------------------------
  // Writing a tag and reading it back

  /** The text a tag written from the pattern holds for `tok`, with `t` as
      the group: the literal itself, one space, a double quote, or `t`. */
  function TokenText(tok: Token, t: string): string {
    match tok
    case Lit(x) => x
    case Spaces => " "
    case Quote => "\""
    case Group(_) => t
  }

  /** The tag written from `ts` with `t` as its group. */
  function Render(ts: seq<Token>, t: string): string {
    if |ts| == 0 then [] else TokenText(ts[0], t) + Render(ts[1..], t)
  }

  /** Some token of `ts` is a group. */
  predicate HasGroup(ts: seq<Token>) {
    |ts| > 0 && (ts[0].Group? || HasGroup(ts[1..]))
  }

  predicate NoUpper(x: string) {
    forall i :: 0 <= i < |x| ==> !IsUpperAscii(x[i])
  }

  /** The text of the token after index `j` starts with a character
      outside the class `cc`. */
  predicate NextLeaves(ts: seq<Token>, j: nat, t: string, cc: CharClass) {
    j + 1 < |ts| && |TokenText(ts[j + 1], t)| > 0 && !InClass(cc, TokenText(ts[j + 1], t)[0])
  }

  /** Token `j` of `ts`, written with `t` as the group, reads back as
      itself: literals are non-empty and lower case, and each repetition is
      stopped by the text of the next token; the group is a non-empty run
      of its class. */
  predicate TokenReadable(ts: seq<Token>, j: nat, t: string)
    requires j < |ts|
  {
    match ts[j]
    case Lit(x) => |x| > 0 && NoUpper(x)
    case Quote => true
    case Spaces => NextLeaves(ts, j, t, Space)
    case Group(cc) =>
      |t| > 0 && (forall m :: 0 <= m < |t| ==> InClass(cc, t[m])) && NextLeaves(ts, j, t, cc)
  }

  /** Every token of `ts`, written with `t` as the group, reads back as
      itself. */
  predicate Readable(ts: seq<Token>, t: string) {
    |ts| == 0 || (TokenReadable(ts, 0, t) && Readable(ts[1..], t))
  }

  /** `s` holds `x` at index `i`. */
  predicate HoldsAt(s: string, i: nat, x: string)
    decreases |x|
  {
    i + |x| <= |s| && (|x| == 0 || (s[i] == x[0] && HoldsAt(s, i + 1, x[1..])))
  }

  /** Holding `x` at `i` is having `x` as the slice from `i`. */
  lemma {:induction false} HoldsAtSlice(s: string, i: nat, x: string)
    ensures HoldsAt(s, i, x) <==> i + |x| <= |s| && s[i..i + |x|] == x
    decreases |x|
  {
    if i + |x| <= |s| && |x| > 0 {
      HoldsAtSlice(s, i + 1, x[1..]);
      assert s[i..i + |x|] == [s[i]] + s[i + 1..i + 1 + |x[1..]|];
      assert x == [x[0]] + x[1..];
    }
  }

  /** A lower-case literal matches itself case-insensitively. */
  lemma {:induction false} LitAtExact(s: string, k: nat, lit: string)
    requires HoldsAt(s, k, lit) && NoUpper(lit)
    ensures LitAt(s, k, lit)
    decreases |lit|
  {
    if |lit| > 0 {
      assert !IsUpperAscii(lit[0]);
      LitAtExact(s, k + 1, lit[1..]);
    }
  }

  /** Where `s` holds a written tag, it holds the first token's text and
      then the rest of the tag. */
  lemma {:induction false} HoldsSplit(s: string, i: nat, x: string, y: string)
    requires HoldsAt(s, i, x + y)
    ensures HoldsAt(s, i, x) && HoldsAt(s, i + |x|, y)
    decreases |x|
  {
    if |x| > 0 {
      assert (x + y)[1..] == x[1..] + y;
      HoldsSplit(s, i + 1, x[1..], y);
    } else {
      assert x + y == y;
    }
  }

  /** A repetition of class `cc` over `x`, stopped by the first
      character of `y`, consumes exactly `x`. */
  lemma RunReads(s: string, i: nat, cc: CharClass, x: string, y: string)
    requires HoldsAt(s, i, x) && HoldsAt(s, i + |x|, y) && |y| > 0
    requires forall m :: 0 <= m < |x| ==> InClass(cc, x[m])
    requires !InClass(cc, y[0])
    ensures ClassRun(s, i, cc) == |x|
  {
    HoldsAtSlice(s, i, x);
    HoldsAtSlice(s, i + |x|, y);
    assert s[i + |x|] == s[i + |x|..i + |x| + |y|][0];
    forall m | i <= m < i + |x| ensures InClass(cc, s[m]) {
      assert s[m] == s[i..i + |x|][m - i];
    }
    ClassRunIs(s, i, cc, |x|);
  }

  /** The first token of a readable tag consumes exactly its own text. */
  lemma FirstTokenReads(ts: seq<Token>, t: string, s: string, i: nat)
    requires |ts| > 0 && Readable(ts, t)
    requires HoldsAt(s, i, Render(ts, t))
    ensures TokenAt(ts[0], s, i) == Some(|TokenText(ts[0], t)|)
  {
    var x := TokenText(ts[0], t);
    HoldsSplit(s, i, x, Render(ts[1..], t));
    assert TokenReadable(ts, 0, t);
    if ts[0].Lit? {
      LitAtExact(s, i, x);
    } else if ts[0].Quote? {
    } else {
      var cc := if ts[0].Spaces? then Space else ts[0].cc;
      var y := TokenText(ts[1], t);
      HoldsSplit(s, i + |x|, y, Render(ts[2..], t));
      assert forall m :: 0 <= m < |x| ==> InClass(cc, x[m]);
      RunReads(s, i, cc, x, y);
    }
  }

  /** A pattern with a group at index `j` has a group. */
  lemma {:induction false} HasGroupAt(ts: seq<Token>, j: nat)
    requires j < |ts| && ts[j].Group?
    ensures HasGroup(ts)
    decreases j
  {
    if j > 0 {
      assert ts[1..][j - 1] == ts[j];
      HasGroupAt(ts[1..], j - 1);
    }
  }

  /** The text of a span of `s`. */
  function SpanText(s: string, sp: Span): string
    requires sp.start + sp.len <= |s|
  {
    s[sp.start..sp.start + sp.len]
  }

  /** The match `r` succeeded and its group reads `t` in `s`. */
  predicate GroupReads(s: string, r: Option<Step>, t: string) {
    && r.Some? && r.value.capture.Some?
    && r.value.capture.value.start + r.value.capture.value.len <= |s|
    && SpanText(s, r.value.capture.value) == t
  }

  /** The capture after the first token of `ts` has consumed `n`
      characters at index `i`. */
  function NextCapture(ts: seq<Token>, i: nat, n: nat, cap: Option<Span>): Option<Span>
    requires |ts| > 0
  {
    if ts[0].Group? then Some(Span(i, n)) else cap
  }

  /** Matching a token and going on with the rest. */
  lemma MatchFromStep(ts: seq<Token>, s: string, i: nat, cap: Option<Span>, n: nat)
    requires |ts| > 0 && i <= |s| && ValidSpan(s, cap)
    requires TokenAt(ts[0], s, i) == Some(n)
    ensures i + n <= |s| && ValidSpan(s, NextCapture(ts, i, n, cap))
    ensures MatchFrom(ts, s, i, cap) == MatchFrom(ts[1..], s, i + n, NextCapture(ts, i, n, cap))
  {
  }

  /** Tokens without a group keep the capture they are given. */
  lemma {:induction false} NoGroupKeepsCapture(ts: seq<Token>, s: string, i: nat, cap: Option<Span>)
    requires i <= |s| && ValidSpan(s, cap) && !HasGroup(ts)
    ensures MatchFrom(ts, s, i, cap).Some? ==> MatchFrom(ts, s, i, cap).value.capture == cap
    decreases |ts|
  {
    if |ts| > 0 {
      match TokenAt(ts[0], s, i)
      case None =>
      case Some(n) =>
        NoGroupKeepsCapture(ts[1..], s, i + n, cap);
    }
  }

  /** Where `s` holds a written tag, it holds the first token's text and
      then the rest of the tag. */
  lemma RenderHead(ts: seq<Token>, t: string, s: string, i: nat)
    requires |ts| > 0 && HoldsAt(s, i, Render(ts, t))
    ensures i + |TokenText(ts[0], t)| <= |s|
    ensures s[i..i + |TokenText(ts[0], t)|] == TokenText(ts[0], t)
    ensures HoldsAt(s, i + |TokenText(ts[0], t)|, Render(ts[1..], t))
    ensures |Render(ts, t)| == |TokenText(ts[0], t)| + |Render(ts[1..], t)|
  {
    var x := TokenText(ts[0], t);
    HoldsSplit(s, i, x, Render(ts[1..], t));
    HoldsAtSlice(s, i, x);
  }

  /** Where `s` holds a tag written from a readable `ts`, the first token
      consumes its own text and matching goes on with the rest of the tag. */
  lemma RenderStep(ts: seq<Token>, t: string, s: string, i: nat, cap: Option<Span>)
    requires |ts| > 0 && Readable(ts, t) && ValidSpan(s, cap)
    requires HoldsAt(s, i, Render(ts, t))
    ensures i + |TokenText(ts[0], t)| <= |s|
    ensures ValidSpan(s, NextCapture(ts, i, |TokenText(ts[0], t)|, cap))
    ensures MatchFrom(ts, s, i, cap)
            == MatchFrom(ts[1..], s, i + |TokenText(ts[0], t)|, NextCapture(ts, i, |TokenText(ts[0], t)|, cap))
  {
    RenderHead(ts, t, s, i);
    FirstTokenReads(ts, t, s, i);
    MatchFromStep(ts, s, i, cap, |TokenText(ts[0], t)|);
  }

  /** A tag written from a readable pattern is matched where it stands, up
      to its end. */
  lemma {:induction false} RenderMatches(ts: seq<Token>, t: string, s: string, i: nat, cap: Option<Span>)
    requires Readable(ts, t) && ValidSpan(s, cap)
    requires HoldsAt(s, i, Render(ts, t))
    ensures MatchFrom(ts, s, i, cap).Some?
    ensures MatchFrom(ts, s, i, cap).value.end == i + |Render(ts, t)|
    decreases |ts|
  {
    if |ts| > 0 {
      var n := |TokenText(ts[0], t)|;
      RenderHead(ts, t, s, i);
      RenderStep(ts, t, s, i, cap);
      var next := NextCapture(ts, i, n, cap);
      RenderMatches(ts[1..], t, s, i + n, next);
      assert MatchFrom(ts, s, i, cap) == MatchFrom(ts[1..], s, i + n, next);
    }
  }

  /** A tag whose group is its first token and whose other tokens are not
      groups captures `t`. */
  lemma GroupFirstCaptures(ts: seq<Token>, t: string, s: string, i: nat, cap: Option<Span>)
    requires |ts| > 0 && ts[0].Group? && !HasGroup(ts[1..])
    requires Readable(ts, t) && ValidSpan(s, cap)
    requires HoldsAt(s, i, Render(ts, t))
    ensures GroupReads(s, MatchFrom(ts, s, i, cap), t)
  {
    var n := |TokenText(ts[0], t)|;
    RenderHead(ts, t, s, i);
    RenderStep(ts, t, s, i, cap);
    var sp := Span(i, n);
    RenderMatches(ts[1..], t, s, i + n, Some(sp));
    NoGroupKeepsCapture(ts[1..], s, i + n, Some(sp));
    var r := MatchFrom(ts[1..], s, i + n, Some(sp));
    assert MatchFrom(ts, s, i, cap) == r;
    assert r.Some? && r.value.capture == Some(sp);
    assert SpanText(s, sp) == t;
  }

  /** Past the first token of a written tag, the rest of the tag is
      written from the rest of the pattern. */
  lemma RenderTail(ts: seq<Token>, t: string, s: string, i: nat, cap: Option<Span>)
    requires |ts| > 0 && Readable(ts, t) && ValidSpan(s, cap)
    requires HoldsAt(s, i, Render(ts, t))
    ensures var n := |TokenText(ts[0], t)|;
      && i + n <= |s| && Readable(ts[1..], t)
      && ValidSpan(s, NextCapture(ts, i, n, cap))
      && HoldsAt(s, i + n, Render(ts[1..], t))
  {
    RenderHead(ts, t, s, i);
    RenderStep(ts, t, s, i, cap);
  }

  /** The group the rest of the tag captures is the group of the whole
      tag. */
  lemma CapturesAfterStep(ts: seq<Token>, t: string, s: string, i: nat, cap: Option<Span>)
    requires |ts| > 0 && Readable(ts, t) && ValidSpan(s, cap)
    requires HoldsAt(s, i, Render(ts, t))
    requires var n := |TokenText(ts[0], t)|;
      && i + n <= |s| && ValidSpan(s, NextCapture(ts, i, n, cap))
      && GroupReads(s, MatchFrom(ts[1..], s, i + n, NextCapture(ts, i, n, cap)), t)
    ensures GroupReads(s, MatchFrom(ts, s, i, cap), t)
  {
    RenderStep(ts, t, s, i, cap);
  }

  /** In a tag written from a readable pattern with a group, the group
      captures `t`. */
  lemma {:induction false} RenderCaptures(ts: seq<Token>, t: string, s: string, i: nat, cap: Option<Span>)
    requires Readable(ts, t) && ValidSpan(s, cap) && HasGroup(ts)
    requires HoldsAt(s, i, Render(ts, t))
    ensures GroupReads(s, MatchFrom(ts, s, i, cap), t)
    decreases |ts|
  {
    if HasGroup(ts[1..]) {
      var n := |TokenText(ts[0], t)|;
      RenderTail(ts, t, s, i, cap);
      RenderCaptures(ts[1..], t, s, i + n, NextCapture(ts, i, n, cap));
      CapturesAfterStep(ts, t, s, i, cap);
    } else {
      GroupFirstCaptures(ts, t, s, i, cap);
    }
  }

  // ---------------------------------------------------------------------
  // Reading pages

  /** The leftmost match is the first index that matches when none before
      it does. */
  lemma {:induction false} FirstMatchIs(ts: seq<Token>, s: string, from: nat, k: nat)
    requires from <= k <= |s|
    requires MatchAt(ts, s, k).Some?
    requires forall j :: from <= j < k ==> MatchAt(ts, s, j).None?
    ensures FirstMatch(ts, s, from) == Some(k)
    decreases k - from
  {
    if from < k {
      FirstMatchIs(ts, s, from + 1, k);
      FirstMatchSkip(ts, s, from);
    } else {
      FirstMatchHere(ts, s, from);
    }
  }

  /** Where the pattern does not match, the search goes on at the next
      index. */
  lemma FirstMatchSkip(ts: seq<Token>, s: string, from: nat)
    requires from < |s| && MatchAt(ts, s, from).None?
    ensures FirstMatch(ts, s, from) == FirstMatch(ts, s, from + 1)
  {
  }

  /** Where the pattern matches, the search stops. */
  lemma FirstMatchHere(ts: seq<Token>, s: string, from: nat)
    requires from <= |s| && MatchAt(ts, s, from).Some?
    ensures FirstMatch(ts, s, from) == Some(from)
  {
  }

  /** The pattern begins with a literal that begins with `<`. */
  predicate OpensWithLt(ts: seq<Token>) {
    |ts| > 0 && ts[0].Lit? && |ts[0].text| > 0 && ts[0].text[0] == '<'
  }

  /** A pattern that opens with `<` does not match where `s` does not hold
      `<`. */
  lemma NoMatchWithoutLt(ts: seq<Token>, s: string, k: nat)
    requires OpensWithLt(ts)
    requires k < |s| ==> s[k] != '<'
    ensures MatchAt(ts, s, k).None?
  {
    if k <= |s| {
      assert !LitAt(s, k, ts[0].text);
    }
  }

  /** Plain text without `<` ahead of a page's tags is skipped. */
  lemma SkipPlainText(ts: seq<Token>, s: string, pre: string)
    requires OpensWithLt(ts)
    requires |pre| <= |s| && s[..|pre|] == pre
    requires forall i :: 0 <= i < |pre| ==> pre[i] != '<'
    ensures forall j :: 0 <= j < |pre| ==> MatchAt(ts, s, j).None?
  {
    forall j | 0 <= j < |pre| ensures MatchAt(ts, s, j).None? {
      assert s[j] == pre[j];
      NoMatchWithoutLt(ts, s, j);
    }
  }

  /** Readability of every token is readability of the pattern. */
  lemma {:induction false} ReadableFromTokens(ts: seq<Token>, t: string)
    requires forall j :: 0 <= j < |ts| ==> TokenReadable(ts, j, t)
    ensures Readable(ts, t)
    decreases |ts|
  {
    if |ts| > 0 {
      forall j | 0 <= j < |ts[1..]| ensures TokenReadable(ts[1..], j, t) {
        assert TokenReadable(ts, j + 1, t);
      }
      ReadableFromTokens(ts[1..], t);
    }
  }

  /** Each token of the `og:title` pattern reads back when the content has
      no quote. */
  lemma OgTitleTokensReadable(t: string)
    requires |t| > 0 && forall m :: 0 <= m < |t| ==> InClass(NonQuote, t[m])
    ensures forall j :: 0 <= j < |OgTitlePattern| ==> TokenReadable(OgTitlePattern, j, t)
  {
    forall j | 0 <= j < |OgTitlePattern| ensures TokenReadable(OgTitlePattern, j, t) {
    }
  }

  /** Each token of the `<title>` pattern reads back when the text has no
      `<`. */
  lemma TitleTokensReadable(t: string)
    requires |t| > 0 && forall m :: 0 <= m < |t| ==> InClass(NonLt, t[m])
    ensures forall j :: 0 <= j < |TitlePattern| ==> TokenReadable(TitlePattern, j, t)
  {
    forall j | 0 <= j < |TitlePattern| ensures TokenReadable(TitlePattern, j, t) {
    }
  }

  /** The `og:title` pattern reads back any non-empty content without
      quotes. */
  lemma OgTitleReadable(t: string)
    requires |t| > 0 && forall m :: 0 <= m < |t| ==> InClass(NonQuote, t[m])
    ensures Readable(OgTitlePattern, t)
  {
    OgTitleTokensReadable(t);
    ReadableFromTokens(OgTitlePattern, t);
  }

  /** The `<title>` pattern reads back any non-empty text without `<`. */
  lemma TitleReadable(t: string)
    requires |t| > 0 && forall m :: 0 <= m < |t| ==> InClass(NonLt, t[m])
    ensures Readable(TitlePattern, t)
  {
    TitleTokensReadable(t);
    ReadableFromTokens(TitlePattern, t);
  }

  /** The `og:title` pattern opens with `<` and captures a group. */
  lemma OgTitleShape()
    ensures HasGroup(OgTitlePattern) && OpensWithLt(OgTitlePattern)
  {
    HasGroupAt(OgTitlePattern, 9);
  }

  /** The `<title>` pattern opens with `<` and captures a group. */
  lemma TitleShape()
    ensures HasGroup(TitlePattern) && OpensWithLt(TitlePattern)
  {
    HasGroupAt(TitlePattern, 1);
  }

  /** A tag written from a readable pattern with group `t` is matched at
      its start, and its group is `t`. */
  lemma MatchAtTag(ts: seq<Token>, pre: string, t: string, rest: string)
    requires Readable(ts, t) && HasGroup(ts)
    ensures var s := pre + Render(ts, t) + rest;
      var r := MatchAt(ts, s, |pre|);
      r.Some? && r.value.start + r.value.len <= |s| && SpanText(s, r.value) == t
  {
    var s := pre + Render(ts, t) + rest;
    assert HoldsAt(s, |pre|, Render(ts, t)) by {
      assert s[|pre|..|pre| + |Render(ts, t)|] == Render(ts, t);
      HoldsAtSlice(s, |pre|, Render(ts, t));
    }
    RenderCaptures(ts, t, s, |pre|, None);
  }

  /** A tag written from a readable pattern with group `t`, preceded by
      text without `<`, is where the pattern first matches, and its group
      reads back as `t`. */
  lemma CaptureOfTag(ts: seq<Token>, pre: string, t: string, rest: string)
    requires forall i :: 0 <= i < |pre| ==> pre[i] != '<'
    requires Readable(ts, t) && HasGroup(ts) && OpensWithLt(ts)
    ensures Capture(ts, pre + Render(ts, t) + rest) == Some(t)
  {
    var s := pre + Render(ts, t) + rest;
    MatchAtTag(ts, pre, t, rest);
    assert s[..|pre|] == pre;
    SkipPlainText(ts, s, pre);
    FirstMatchIs(ts, s, 0, |pre|);
    CaptureIs(ts, s, |pre|);
  }

  /** A page whose `og:title` tag comes before any `<` takes its title
      from that tag, whatever follows, `<title>` elements included. */
  lemma PickTitleOgFirst(pre: string, t: string, rest: string)
    requires forall i :: 0 <= i < |pre| ==> pre[i] != '<'
    requires |t| > 0 && forall m :: 0 <= m < |t| ==> !IsQuote(t[m])
    ensures PickTitle(pre + Render(OgTitlePattern, t) + rest) == Some(DecodeAsWritten(t))
  {
    OgTitleReadable(t);
    OgTitleShape();
    CaptureOfTag(OgTitlePattern, pre, t, rest);
  }

  /** A `<title>` element preceded by text without `<` is what the
      `<title>` pattern captures. */
  lemma TitleCaptureOfTag(pre: string, t: string, rest: string)
    requires forall i :: 0 <= i < |pre| ==> pre[i] != '<'
    requires |t| > 0 && forall m :: 0 <= m < |t| ==> t[m] != '<'
    ensures Capture(TitlePattern, pre + Render(TitlePattern, t) + rest) == Some(t)
  {
    TitleReadable(t);
    TitleShape();
    CaptureOfTag(TitlePattern, pre, t, rest);
  }

  /** The page writes `<meta` somewhere, in any case. */
  predicate WritesMeta(html: string) {
    Contains(Lower(html), "<meta")
  }

  /** No `og:title` match starts at or after index `i` when the page does
      not write `<meta` from there on, in any case. */
  lemma NoMetaFrom(html: string, i: nat)
    requires i <= |html| && !WritesMeta(html[i..])
    ensures forall j :: i <= j <= |html| ==> MatchAt(OgTitlePattern, html, j).None?
  {
    var b := html[i..];
    forall j | i <= j <= |html| ensures MatchAt(OgTitlePattern, html, j).None? {
      LitAtIsAtCI(html, j, "<meta");
      if j + 5 <= |html| {
        assert html[j..j + 5] == b[j - i..j - i + 5];
        LowerSlice(b, j - i, j - i + 5);
        assert !OccursAt(Lower(b), "<meta", j - i);
      }
      assert !LitAt(html, j, OgTitlePattern[0].text);
    }
  }

  /** A page that never writes `<meta`, in any case, has no `og:title`
      match. */
  lemma NoMetaNoOgTitle(html: string)
    requires !WritesMeta(html)
    ensures Capture(OgTitlePattern, html).None?
  {
    assert html[0..] == html;
    NoMetaFrom(html, 0);
  }

  /** A page that has no `og:title` match takes its title from what the
      `<title>` pattern captures, decoded by the chained replacements. */
  lemma PickTitleWithoutOgTitle(html: string, t: string)
    requires Capture(OgTitlePattern, html).None? && Capture(TitlePattern, html) == Some(t)
    ensures PickTitle(html) == Some(DecodeAsWritten(t))
  {
  }

  /** A page without `<meta` takes its title from its first `<title>`
      element, when no `<` comes before it. */
  lemma PickTitleFallback(pre: string, t: string, rest: string)
    requires forall i :: 0 <= i < |pre| ==> pre[i] != '<'
    requires |t| > 0 && forall m :: 0 <= m < |t| ==> t[m] != '<'
    requires !WritesMeta(pre + Render(TitlePattern, t) + rest)
    ensures PickTitle(pre + Render(TitlePattern, t) + rest) == Some(DecodeAsWritten(t))
  {
    TitleCaptureOfTag(pre, t, rest);
    NoMetaNoOgTitle(pre + Render(TitlePattern, t) + rest);
    PickTitleWithoutOgTitle(pre + Render(TitlePattern, t) + rest, t);
  }

  /** The character-set declaration most pages open their head with. */
  const MetaCharset: string := "<meta charset=\"utf-8\">"

  /** Past its `<`, the declaration holds no `<`. */
  lemma MetaCharsetOneLt(j: nat)
    requires 0 < j < |MetaCharset|
    ensures MetaCharset[j] != '<'
  {
  }

  /** A `<meta` tag whose attribute is `charset` does not start an
      `og:title` match: `property=` must follow the spaces. */
  lemma MetaCharsetNotOgTitle(html: string)
    requires StartsWith(html, MetaCharset)
    ensures MatchAt(OgTitlePattern, html, 0).None?
  {
    MetaCharsetTokens(html);
    var ts := OgTitlePattern;
    MatchFromStep(ts, html, 0, None, 5);
    MatchFromStep(ts[1..], html, 5, None, 1);
    assert ts[1..][1..] == ts[2..];
    assert TokenAt(ts[2..][0], html, 6).None?;
  }

  /** How the first three tokens of the `og:title` pattern read the
      character-set declaration. */
  lemma MetaCharsetTokens(html: string)
    requires StartsWith(html, MetaCharset)
    ensures |html| >= 7
    ensures TokenAt(OgTitlePattern[0], html, 0) == Some(5)
    ensures TokenAt(OgTitlePattern[1], html, 5) == Some(1)
    ensures TokenAt(OgTitlePattern[2], html, 6).None?
  {
    assert html[..|MetaCharset|] == MetaCharset;
    assert html[0] == '<' && html[1] == 'm' && html[2] == 'e' && html[3] == 't' && html[4] == 'a';
    assert html[5] == ' ' && html[6] == 'c';
    assert LitAt(html, 0, "<meta");
    ClassRunIs(html, 5, Space, 1);
    assert !LitAt(html, 6, "property=");
  }

  /** A page that opens with the character-set declaration and writes no
      other `<meta` has no `og:title` match. */
  lemma NoOgTitleAfterMetaCharset(body: string)
    requires !WritesMeta(body)
    ensures Capture(OgTitlePattern, MetaCharset + body).None?
  {
    var html := MetaCharset + body;
    var n := |MetaCharset|;
    OgTitleShape();
    assert html[..n] == MetaCharset;
    assert html[n..] == body;
    NoMetaFrom(html, n);
    forall j | 0 <= j <= |html| ensures MatchAt(OgTitlePattern, html, j).None? {
      if j == 0 {
        MetaCharsetNotOgTitle(html);
      } else if j < n {
        MetaCharsetOneLt(j);
        NoMatchWithoutLt(OgTitlePattern, html, j);
      }
    }
  }

  /** The `<title>` pattern does not match at the character-set
      declaration, whose second character is not `t`. */
  lemma MetaCharsetNotTitle(html: string)
    requires StartsWith(html, MetaCharset)
    ensures MatchAt(TitlePattern, html, 0).None?
  {
    assert html[..|MetaCharset|] == MetaCharset;
    assert html[1] == 'm';
    assert !LitAt(html, 1, "title>");
    assert !LitAt(html, 0, "<title>");
  }

  /** The `<title>` pattern matches neither at the character-set
      declaration nor in the text without `<` that follows it. */
  lemma SkipMetaCharset(pre: string, tag: string, rest: string)
    requires forall i :: 0 <= i < |pre| ==> pre[i] != '<'
    ensures var html := MetaCharset + pre + tag + rest;
      forall j :: 0 <= j < |MetaCharset + pre| ==> MatchAt(TitlePattern, html, j).None?
  {
    var n := |MetaCharset|;
    var head := MetaCharset + pre;
    var html := head + tag + rest;
    TitleShape();
    assert html[..|head|] == head;
    assert StartsWith(html, MetaCharset) by {
      assert html[..n] == head[..n] == MetaCharset;
    }
    forall j | 0 <= j < |head| ensures MatchAt(TitlePattern, html, j).None? {
      if j == 0 {
        MetaCharsetNotTitle(html);
      } else {
        assert html[j] == head[j];
        if j < n {
          MetaCharsetOneLt(j);
        }
        NoMatchWithoutLt(TitlePattern, html, j);
      }
    }
  }

  /** A tag written from a readable pattern with group `t` is where the
      pattern first matches when it matches nowhere before the tag, and
      its group reads back as `t`. */
  lemma CaptureOfFirstTag(ts: seq<Token>, head: string, t: string, rest: string)
    requires Readable(ts, t) && HasGroup(ts)
    requires forall j :: 0 <= j < |head| ==> MatchAt(ts, head + Render(ts, t) + rest, j).None?
    ensures Capture(ts, head + Render(ts, t) + rest) == Some(t)
  {
    var s := head + Render(ts, t) + rest;
    MatchAtTag(ts, head, t, rest);
    FirstMatchIs(ts, s, 0, |head|);
    CaptureIs(ts, s, |head|);
  }

  /** The capture is the group of the first match. */
  lemma CaptureIs(ts: seq<Token>, s: string, k: nat)
    requires FirstMatch(ts, s, 0) == Some(k)
    ensures k <= |s| && MatchAt(ts, s, k).Some?
    ensures Capture(ts, s) == Some(SpanText(s, MatchAt(ts, s, k).value))
  {
  }

  lemma AppendAssoc(a: string, b: string, c: string, d: string)
    ensures a + (b + c + d) == a + b + c + d
  {
  }

  /** Behind the character-set declaration and text without `<`, the
      first `<title>` element is what the `<title>` pattern captures. */
  lemma TitleAfterMetaCharset(pre: string, t: string, rest: string)
    requires forall i :: 0 <= i < |pre| ==> pre[i] != '<'
    requires |t| > 0 && forall m :: 0 <= m < |t| ==> t[m] != '<'
    ensures Capture(TitlePattern, MetaCharset + (pre + Render(TitlePattern, t) + rest)) == Some(t)
  {
    var tag := Render(TitlePattern, t);
    TitleReadableWithoutLt(t);
    TitleShape();
    SkipMetaCharset(pre, tag, rest);
    CaptureOfFirstTag(TitlePattern, MetaCharset + pre, t, rest);
    AppendAssoc(MetaCharset, pre, tag, rest);
  }

  /** Text without `<` is a readable `<title>` group. */
  lemma TitleReadableWithoutLt(t: string)
    requires |t| > 0 && forall m :: 0 <= m < |t| ==> t[m] != '<'
    ensures Readable(TitlePattern, t)
  {
    TitleReadable(t);
  }

  /** A page that opens with the character-set declaration, writes no
      other `<meta`, and has no `<` before its first `<title>` element
      takes its title from that element. */
  lemma PickTitleAfterMetaCharset(pre: string, t: string, rest: string)
    requires forall i :: 0 <= i < |pre| ==> pre[i] != '<'
    requires |t| > 0 && forall m :: 0 <= m < |t| ==> t[m] != '<'
    requires !WritesMeta(pre + Render(TitlePattern, t) + rest)
    ensures PickTitle(MetaCharset + (pre + Render(TitlePattern, t) + rest)) == Some(DecodeAsWritten(t))
  {
    var body := pre + Render(TitlePattern, t) + rest;
    NoOgTitleAfterMetaCharset(body);
    TitleAfterMetaCharset(pre, t, rest);
    PickTitleWithoutOgTitle(MetaCharset + body, t);
  }

  /** `pickTitle` with each entity decoded once, left to right, as the
      handler evidently intends: the same captures, read by the single
      pass. A title found is never empty. */
  function PickTitleIntended(html: string): (r: Option<string>)
    ensures r.Some? ==> |r.value| > 0
  {
    match Capture(OgTitlePattern, html)
    case Some(t) => Some(DecodeOnce(t))
    case None =>
      match Capture(TitlePattern, html)
      case Some(t) => Some(DecodeOnce(t))
      case None => None
  }

  /** A title the page writes escaped in its `og:title` tag reads back
      exactly under the intended decoding. */
  lemma PickTitleIntendedReadsEscaped(pre: string, t: string, rest: string)
    requires forall i :: 0 <= i < |pre| ==> pre[i] != '<'
    requires |t| > 0
    ensures PickTitleIntended(pre + Render(OgTitlePattern, Escape(t)) + rest) == Some(t)
  {
    EscapedOgTitle(pre, t, rest);
    PickTitleIntendedOg(pre + Render(OgTitlePattern, Escape(t)) + rest, Escape(t));
    DecodeOnceEscape(t);
  }

  /** An `og:title` tag holding escaped text, before any other `<`, is
      captured as that escaped text. */
  lemma EscapedOgTitle(pre: string, t: string, rest: string)
    requires forall i :: 0 <= i < |pre| ==> pre[i] != '<'
    requires |t| > 0
    ensures Capture(OgTitlePattern, pre + Render(OgTitlePattern, Escape(t)) + rest) == Some(Escape(t))
  {
    EscapeNoQuote(t);
    NoQuoteChar(Escape(t));
    OgTitleCaptureOfTag(pre, Escape(t), rest);
  }

  lemma NoQuoteChar(s: string)
    requires forall m :: 0 <= m < |s| ==> s[m] != '"' && s[m] != '\''
    ensures forall m :: 0 <= m < |s| ==> !IsQuote(s[m])
  {
  }

  /** An `og:title` tag whose content has no quote, preceded by text
      without `<`, is what the `og:title` pattern captures. */
  lemma OgTitleCaptureOfTag(pre: string, t: string, rest: string)
    requires forall i :: 0 <= i < |pre| ==> pre[i] != '<'
    requires |t| > 0 && forall m :: 0 <= m < |t| ==> !IsQuote(t[m])
    ensures Capture(OgTitlePattern, pre + Render(OgTitlePattern, t) + rest) == Some(t)
  {
    OgTitleReadable(t);
    OgTitleShape();
    CaptureOfTag(OgTitlePattern, pre, t, rest);
  }

  /** The intended decoding reads an `og:title` capture once. */
  lemma PickTitleIntendedOg(html: string, e: string)
    requires Capture(OgTitlePattern, html) == Some(e)
    ensures PickTitleIntended(html) == Some(DecodeOnce(e))
  {
  }

  /** The handler as written reads the escaped title `&lt;` as `<`; the
      intended decoding reads it back as `&lt;`. */
  lemma PickTitleDecodesTwice(pre: string, rest: string)
    requires forall i :: 0 <= i < |pre| ==> pre[i] != '<'
    ensures PickTitle(pre + Render(OgTitlePattern, Escape("&lt;")) + rest) == Some("<")
    ensures PickTitleIntended(pre + Render(OgTitlePattern, Escape("&lt;")) + rest) == Some("&lt;")
  {
    DecodeAsWrittenDecodesTwice();
    EscapeNoQuote("&lt;");
    PickTitleOgFirst(pre, Escape("&lt;"), rest);
    PickTitleIntendedReadsEscaped(pre, "&lt;", rest);
  }

  /** A page without `<` has no title. */
  lemma PickTitleNoTags(html: string)
    requires forall i :: 0 <= i < |html| ==> html[i] != '<'
    ensures PickTitle(html) == None
  {
    OgTitleShape();
    TitleShape();
    forall j | 0 <= j <= |html|
      ensures MatchAt(OgTitlePattern, html, j).None? && MatchAt(TitlePattern, html, j).None?
    {
      NoMatchWithoutLt(OgTitlePattern, html, j);
      NoMatchWithoutLt(TitlePattern, html, j);
    }
  }
}

=== FILE: Wrappers.dfy ===
/** Failure-carrying datatypes used throughout the model: `Option` for the
    JavaScript values that may be null, undefined or empty, and `Result` for
    the operations that may throw (a fetch that fails). */
module Wrappers {

  datatype Option<+T> = None | Some(value: T) {

    /** The value, or `default` when absent: JavaScript's `x || default`
        for a value that is either present or missing. */
    function GetOr(default: T): T {
      match this
      case Some(v) => v
      case None => default
    }
  }

  /** Success carries a value; failure carries the error message a thrown
      JavaScript `Error` would carry. */
  datatype Result<+T> = Ok(value: T) | Err(message: string)
}
